=== FILE: README.md ===
# Express management: a verified model of the backend core and front-end rules

This project models the rule-bearing core of an express-delivery
management system: a Spring Boot backend and a Vue front end. It is
written in Dafny and covers:

- **Orders.** The order record with its status rules (0 created,
  1 collected, 2 in transit, 3 out for delivery, 4 delivered). The order
  service works over an order table and two append-only log tables: the
  status log and the operation log. The order endpoints add request
  validation and the mapping of outcomes to response codes.
- **Users and captchas.** The user record and its role predicates. The
  user service holds the user table and the captcha key/value store. The
  user-management, login and registration endpoints sit on top of it.
- **Security.** The user-details loader and the bearer-token request
  filter, which turn stored roles into `ROLE_` authorities.
- **Staff and stores.** The staff and store services, including the
  store's GPS and address normalisation, and the POINT type handler that
  converts `"lon,lat"` to and from `POINT(lon lat)` text.
- **The response envelope.** The `ApiResponse` envelope with its code,
  message and data, and its factories.
- **Front-end rules.** The role and feature tables, the router's
  navigation guard, and the address display helpers.

Each source file is one module. A service that updates tables in place is
a `class` whose fields are the tables (`map` keyed by id, or `seq` for
the append-only logs). Its methods carry `modifies` clauses and state the
whole new state. Pure decisions are functions with named results, and the
properties the code promises are lemmas about them.

Some things are parameters: the clock (`now`), fresh ids, random draws,
the password encoder, the JWT oracle, `JSON.parse` and the region-code
table. A Java `null` is `None` of `Option`. An exception that escapes a
handler is an `Err` or `Thrown` outcome.

Shared helpers: `Common` holds `Option`/`Result`, ASCII case mapping,
Java `trim`, prefix tests and the decimal text of integers. `Listing`
holds the database's `ORDER BY created_at DESC`, `COUNT(*) WHERE …` and
MyBatis-Plus paging. Page 1 and anything lower start at row 0, and a
negative size means no limit.

Behaviour of the code that the model keeps:

- `updateOrderStatus` never consults `canTransitTo`, so any target is
  stored.
- `deleteOrder` accepts any status at most 0.
- The role checks in `User` are exact, while order visibility ignores
  the case of ASCII letters.

## Model

Source paths are relative to the repository root.

| member | source | states |
|---|---|---|
| ApiResponse.Success | backend/src/main/java/com/example/express/common/ApiResponse.java:23-29 | `success(data)` has code 200, message "操作成功" and the given data |
| ApiResponse.SuccessWith | backend/src/main/java/com/example/express/common/ApiResponse.java:31-37 | `success(message, data)` has code 200 with the given message and data |
| ApiResponse.ErrorFactories | backend/src/main/java/com/example/express/common/ApiResponse.java:19-64 | `error(code, message)` keeps code and message and leaves data null; `error(message)` is `error(500, message)`; `badRequest`, `unauthorized`, `forbidden` and `notFound` are `error` with 400, 401, 403 and 404, none of them a success; `success()` has code 200, the default message and null data |
| ApiResponse.FactoryCodesDistinct | backend/src/main/java/com/example/express/common/ApiResponse.java:19-64 | the six named outcome kinds have pairwise different codes |
| OrderEntity.StatusText | backend/src/main/java/com/example/express/entity/Order.java:47-56 | a status gets "未知状态" exactly when it lies outside 0..4 |
| OrderEntity.StatusTextInjective | backend/src/main/java/com/example/express/entity/Order.java:47-56 | the five defined statuses have five different labels |
| OrderEntity.CanTransitTo | backend/src/main/java/com/example/express/entity/Order.java:32-45 | null exactly for a target in 0..4 that differs from the current status; the invalid-target message outside 0..4; the "already in" message naming the current label otherwise |
| OrderEntity.TransitionsSymmetric | backend/src/main/java/com/example/express/entity/Order.java:32-45 | there is no forward-only rule: an allowed move a→b is matched by an allowed b→a whenever a is defined |
| OrderEntity.RangeCheckFirst | backend/src/main/java/com/example/express/entity/Order.java:33-41 | for an undefined current status the range message wins over the same-status message |
| UserEntity.RolesExclusive | backend/src/main/java/com/example/express/entity/User.java:38-48 | at most one of isAdmin, isStaff and isCustomer holds |
| UserEntity.IsEnabled | backend/src/main/java/com/example/express/entity/User.java:34-36 | a user is enabled exactly when its status is non-null and 1 |
| UserEntity.IsAdmin | backend/src/main/java/com/example/express/entity/User.java:38-40 | the role is exactly "admin" |
| UserEntity.IsStaff | backend/src/main/java/com/example/express/entity/User.java:42-44 | the role is exactly "staff" |
| UserEntity.IsCustomer | backend/src/main/java/com/example/express/entity/User.java:46-48 | the role is exactly "customer" |
| UserEntity.RoleChecksAreCaseSensitive | backend/src/main/java/com/example/express/entity/User.java:38-48 | "ADMIN", "CUSTOMER" and "Staff" satisfy none of the role predicates |
| OrderStatusLogServiceImpl.OrderStatusLogService.CreateStatusLog | backend/src/main/java/com/example/express/service/impl/OrderStatusLogServiceImpl.java:20-32 | the returned row carries the arguments and the current time; exactly that row is appended; earlier rows are unchanged |
| OperationLogServiceImpl.OperationLogService.CreateLog | backend/src/main/java/com/example/express/service/impl/OperationLogServiceImpl.java:24-28 | the row is stamped with the current time, appended and returned; earlier rows are unchanged |
| OperationLogServiceImpl.OperationLogService.Save | backend/src/main/java/com/example/express/service/impl/OrderServiceImpl.java:136 | save: the row is appended as given and earlier rows are unchanged |
| OperationLogServiceImpl.OperationLogService.GetOperationLogs | backend/src/main/java/com/example/express/service/impl/OperationLogServiceImpl.java:31-45 | paged, total is the number of rows of the type (all rows for a null or empty filter) and a page holds at most `size` rows; with a negative size the count is skipped, so total is 0, and every such row is listed |
| OperationLogServiceImpl.OperationLogService.GetOperationLogsSound | backend/src/main/java/com/example/express/service/impl/OperationLogServiceImpl.java:33-35 | every listed row is a stored row of the requested type |
| OperationLogServiceImpl.OperationLogService.GetOperationLogsComplete | backend/src/main/java/com/example/express/service/impl/OperationLogServiceImpl.java:33-43 | unpaged, every stored row of the requested type is listed |
| OperationLogServiceImpl.OperationLogService.GetOperationLogsNewestFirst | backend/src/main/java/com/example/express/service/impl/OperationLogServiceImpl.java:36 | the listed rows are ordered by creation time, newest first |
| OrderServiceImpl.UpperCaseAdminSeesAll | backend/src/main/java/com/example/express/service/impl/OrderServiceImpl.java:95-97 | a user whose role is "ADMIN" sees every order although isAdmin is false for it |
| OrderServiceImpl.CanView | backend/src/main/java/com/example/express/service/impl/OrderServiceImpl.java:95-97 | the creator, or a user whose role equals "admin" or "staff" ignoring the case of ASCII letters; a null role matches neither |
| OrderServiceImpl.StatusLogRow | backend/src/main/java/com/example/express/service/impl/OrderServiceImpl.java:126-127 | the status-log row records the order, its old status, the target, the operator and the order's store |
| OrderServiceImpl.StatusOperationRow | backend/src/main/java/com/example/express/service/impl/OrderServiceImpl.java:130-136 | the operation-log row has the operator, the order as target, the status-update type and the change detail |
| OrderServiceImpl.AfterStatusUpdate | backend/src/main/java/com/example/express/service/impl/OrderServiceImpl.java:139-143 | only the updated order changes: it gets the target status and the update time |
| OrderServiceImpl.StatusUpdateBypassesTransitionRule | backend/src/main/java/com/example/express/service/impl/OrderServiceImpl.java:106-144 | a target refused by canTransitTo (the same status, or one outside 0..4) is stored all the same |
| OrderServiceImpl.LastLoggedStatus | backend/src/main/java/com/example/express/service/impl/OrderServiceImpl.java:126-129 | an order has a last logged status exactly when some status-log row names it |
| OrderServiceImpl.LastLoggedAppend | backend/src/main/java/com/example/express/service/impl/OrderServiceImpl.java:126-129 | appending a row makes its target the last logged status of its order and leaves other orders alone |
| OrderServiceImpl.StatusUpdateReplays | backend/src/main/java/com/example/express/service/impl/OrderServiceImpl.java:126-143 | a status change keeps every order's status equal to the last logged one for it |
| OrderServiceImpl.LostUpdateBreaksReplay | backend/src/main/java/com/example/express/service/impl/OrderServiceImpl.java:126-143 | when the final update reaches no row after both logs were written, the status log names a target the table does not hold, so it no longer replays the table |
| OrderServiceImpl.CreateReplays | backend/src/main/java/com/example/express/service/impl/OrderServiceImpl.java:50-59 | creating an order in status 0 under an id without log rows keeps the log and the table in step |
| OrderServiceImpl.DeleteReplays | backend/src/main/java/com/example/express/service/impl/OrderServiceImpl.java:182-197 | deleting an order keeps the log and the table in step |
| OrderServiceImpl.StatusCountSumIsBelow | backend/src/main/java/com/example/express/service/impl/OrderServiceImpl.java:204-213 | the counts of statuses 0..k-1 add up to the number of orders whose status lies in that range |
| OrderServiceImpl.StatusCountSumFive | backend/src/main/java/com/example/express/service/impl/OrderServiceImpl.java:204-213 | the five per-status counts are the running sum up to 5 |
| OrderServiceImpl.StatusCountsWithinTotal | backend/src/main/java/com/example/express/service/impl/OrderServiceImpl.java:204-213 | the five per-status counts never add up to more than the total |
| OrderServiceImpl.StatusCountsCoverDefined | backend/src/main/java/com/example/express/service/impl/OrderServiceImpl.java:204-213 | when every order holds a defined status the counts add up to the total |
| OrderServiceImpl.StatusCountKeysDistinct | backend/src/main/java/com/example/express/service/impl/OrderServiceImpl.java:205-219 | the seven stats keys are pairwise different |
| OrderServiceImpl.OwnOrdersSound | backend/src/main/java/com/example/express/service/impl/OrderServiceImpl.java:73-77 | the own-orders list holds only stored orders created by the user |
| OrderServiceImpl.OwnOrdersComplete | backend/src/main/java/com/example/express/service/impl/OrderServiceImpl.java:73-77 | every order the user created is listed |
| OrderServiceImpl.OwnOrdersNewestFirst | backend/src/main/java/com/example/express/service/impl/OrderServiceImpl.java:73-77 | the own-orders list is newest first |
| OrderServiceImpl.RecentOrders | backend/src/main/java/com/example/express/service/impl/OrderServiceImpl.java:225-233 | at most ten orders |
| OrderServiceImpl.RecentOrdersLength | backend/src/main/java/com/example/express/service/impl/OrderServiceImpl.java:225-233 | exactly ten orders, or all of them when there are fewer |
| OrderServiceImpl.RecentOrdersAreNewest | backend/src/main/java/com/example/express/service/impl/OrderServiceImpl.java:225-233 | an order left out is no newer than any listed one, and then the list is full |
| OrderServiceImpl.RecentOrdersNewestFirst | backend/src/main/java/com/example/express/service/impl/OrderServiceImpl.java:225-233 | the recent orders are newest first |
| OrderServiceImpl.AllOrders | backend/src/main/java/com/example/express/service/impl/OrderServiceImpl.java:147-179 | paged, total counts the orders the keyword keeps and a page holds at most `size` orders; with a negative size total is 0 and every kept order is listed; the reported page is at least 1 |
| OrderServiceImpl.AllOrdersSound | backend/src/main/java/com/example/express/service/impl/OrderServiceImpl.java:150-168 | every listed order is stored and passes the keyword condition |
| OrderServiceImpl.AllOrdersComplete | backend/src/main/java/com/example/express/service/impl/OrderServiceImpl.java:150-168 | unpaged, every order the keyword keeps is listed |
| OrderServiceImpl.AllOrdersNewestFirst | backend/src/main/java/com/example/express/service/impl/OrderServiceImpl.java:164 | the listed orders are newest first |
| OrderServiceImpl.BlankKeywordCountsAll | backend/src/main/java/com/example/express/service/impl/OrderServiceImpl.java:150 | a null or blank keyword keeps every order: paged, the total is the number of orders; unpaged, all of them are listed |
| OrderServiceImpl.OrderService.constructor | backend/src/main/java/com/example/express/service/impl/OrderServiceImpl.java:27-39 | an empty order table, wired to the user service and the two log services |
| OrderServiceImpl.OrderService.CreateOrder | backend/src/main/java/com/example/express/service/impl/OrderServiceImpl.java:42-62 | an unknown user fails with nothing inserted; otherwise the order is stored with status 0, the user as creator and the current time, whatever the caller supplied; a taken id fails with nothing changed |
| OrderServiceImpl.OrderService.GetOrdersByUsername | backend/src/main/java/com/example/express/service/impl/OrderServiceImpl.java:65-78 | an unknown user fails; otherwise the list is the user's own orders, newest first |
| OrderServiceImpl.OrderService.GetOrderDetail | backend/src/main/java/com/example/express/service/impl/OrderServiceImpl.java:81-103 | an unknown requester fails; the order comes back exactly when it exists and the requester created it or has role admin or staff in any case; a missing and a hidden order both give null |
| OrderServiceImpl.OrderService.StatusOperator | backend/src/main/java/com/example/express/service/impl/OrderServiceImpl.java:113-123 | an operator resolves exactly when the name is non-null, non-empty and belongs to a user |
| OrderServiceImpl.OrderService.UpdateById | backend/src/main/java/com/example/express/service/impl/OrderServiceImpl.java:142-143 | a row with the id is replaced, and the result says whether one existed |
| OrderServiceImpl.OrderService.UpdateOrderStatus | backend/src/main/java/com/example/express/service/impl/OrderServiceImpl.java:106-144 | with an existing order and a resolvable operator, one status-log row and then one operation-log row are appended; the result is true exactly when the final update also reaches the row, which then gets the target; when it reaches none the result is false, the logs keep both rows and the order is unchanged; a missing order or operator changes nothing; the log keeps replaying the table whenever the update succeeds |
| OrderServiceImpl.OrderService.DeleteOrder | backend/src/main/java/com/example/express/service/impl/OrderServiceImpl.java:182-197 | removes the order exactly when it exists with status at most 0; otherwise false and nothing changes |
| OrderServiceImpl.OrderService.GetOrderStats | backend/src/main/java/com/example/express/service/impl/OrderServiceImpl.java:200-222 | totalOrders is the number of orders, statusKCount the orders in status K for K in 0..4, todayOrders those created since the start of the day; no other keys |
| OrderServiceImpl.OrderService.GetAllOrders | backend/src/main/java/com/example/express/service/impl/OrderServiceImpl.java:147-179 | the page of the order table described by AllOrders |
| OrderServiceImpl.OrderService.GetRecentOrders | backend/src/main/java/com/example/express/service/impl/OrderServiceImpl.java:225-233 | the ten newest orders described by RecentOrders |
| OrderController.FilteredRolePasses | backend/src/main/java/com/example/express/controller/OrderController.java:80-81 | a stored role spelled admin in any case passes hasRole('ADMIN') once the token filter has normalised it |
| OrderController.HasRole | backend/src/main/java/com/example/express/controller/OrderController.java:123 | hasRole('X'): the authorities hold ROLE_X |
| OrderController.IsAdminOrStaff | backend/src/main/java/com/example/express/controller/OrderController.java:80 | hasRole('ADMIN') or hasRole('STAFF') |
| OrderController.ParseInt | backend/src/main/java/com/example/express/controller/OrderController.java:91-97 | Integer.parseInt succeeds on an optionally signed run of ASCII digits within 32 bits, giving its value, and fails on everything else the model knows (see Left out for other Unicode digits) |
| OrderController.ParseIntOfIntToString | backend/src/main/java/com/example/express/controller/OrderController.java:91-97 | the decimal text of any 32-bit integer parses back to it |
| OrderController.ParseIntRejects | backend/src/main/java/com/example/express/controller/OrderController.java:91-97 | "", a lone sign and "1a" are refused |
| OrderController.CreateOrder | backend/src/main/java/com/example/express/controller/OrderController.java:33-43 | a null body is 400 with the table unchanged; an unknown user or a taken id escapes as the service's exception with the table unchanged; a known user with a free id always gets 200 "订单创建成功" with the body stored under that id, status 0, createdBy the user's id and createdAt now |
| OrderController.GetMyOrders | backend/src/main/java/com/example/express/controller/OrderController.java:49-55 | the requester's own orders with code 200; an unknown requester escapes |
| OrderController.GetOrderDetail | backend/src/main/java/com/example/express/controller/OrderController.java:61-74 | a null id is 400; a visible order is 200; a missing and a hidden order give the same 404 |
| OrderController.UpdateOrderStatus | backend/src/main/java/com/example/express/controller/OrderController.java:82-104 | a missing id, a missing status or a non-numeral status is 400 with nothing written; otherwise a missing order or operator is 500 with nothing written, and an existing one gets both log rows, then 200 with the status stored when the update reaches the row and 500 with the order unchanged when it does not |
| OrderController.DeleteOrder | backend/src/main/java/com/example/express/controller/OrderController.java:125-135 | a null id is 400; the service's true is 200 with the order removed; false is 500 with nothing changed |
| OrderController.GetOrderStats | backend/src/main/java/com/example/express/controller/OrderController.java:142-145 | 200 with the service's per-status and total counts |
| OrderController.GetAllOrders | backend/src/main/java/com/example/express/controller/OrderController.java:111-117 | 200 with the service's page, as is |
| OrderController.GetRecentOrders | backend/src/main/java/com/example/express/controller/OrderController.java:152-155 | 200 with the ten newest orders |
| OrderController.GetOrderStatusOptions | backend/src/main/java/com/example/express/controller/OrderController.java:162-192 | exactly five options, the k-th with value k and the label getStatusText gives k |
| OrderController.StatusOptionsAreDefined | backend/src/main/java/com/example/express/controller/OrderController.java:162-192 | every offered value is a target canTransitTo accepts from any other status |
| UserServiceImpl.CaptchaKey | backend/src/main/java/com/example/express/service/impl/UserServiceImpl.java:86 | the store key is "captcha:" followed by the key |
| UserServiceImpl.CaptchaKeyInjective | backend/src/main/java/com/example/express/service/impl/UserServiceImpl.java:86 | different captcha keys use different store keys |
| UserServiceImpl.MergeUser | backend/src/main/java/com/example/express/service/impl/UserServiceImpl.java:54-56 | updateById writes the non-null columns of the given row over the stored ones and keeps the id |
| UserServiceImpl.MergeReadBack | backend/src/main/java/com/example/express/service/impl/UserServiceImpl.java:54-56 | writing back a stored row with only its status or last-login set changes only that column |
| UserServiceImpl.AfterValidate | backend/src/main/java/com/example/express/service/impl/UserServiceImpl.java:98-113 | a matching entry is deleted; a failed attempt leaves the store as it was; no entry is ever added or changed |
| UserServiceImpl.CaptchaSingleUse | backend/src/main/java/com/example/express/service/impl/UserServiceImpl.java:107-110 | once accepted, the same key is refused for every code |
| UserServiceImpl.CaptchaAccepts | backend/src/main/java/com/example/express/service/impl/UserServiceImpl.java:98-113 | both arguments non-null, an entry under "captcha:"+key, equal to the typed code ignoring the case of ASCII letters |
| UserServiceImpl.CaptchaKeysIndependent | backend/src/main/java/com/example/express/service/impl/UserServiceImpl.java:98-113 | validating one key never changes whether another key is accepted |
| UserServiceImpl.GenerateRandomCode | backend/src/main/java/com/example/express/service/impl/UserServiceImpl.java:118-129 | `length` characters (none for a negative length), the i-th picked by the i-th draw from the 36 capital letters and digits |
| UserServiceImpl.FreshCaptchaAccepted | backend/src/main/java/com/example/express/service/impl/UserServiceImpl.java:86-107 | a freshly stored code is accepted under its key, typed in any ASCII case |
| UserServiceImpl.UserService.constructor | backend/src/main/java/com/example/express/service/impl/UserServiceImpl.java:27-33 | empty user table and empty captcha store |
| UserServiceImpl.UserService.FindByUsername | backend/src/main/java/com/example/express/service/impl/UserServiceImpl.java:39-41 | a row comes back exactly when one has the username, and it is that stored row |
| UserServiceImpl.UserService.ExistsByUsername | backend/src/main/java/com/example/express/service/impl/UserServiceImpl.java:44-46 | true exactly when a row has the username |
| UserServiceImpl.UserService.ExistsIffFound | backend/src/main/java/com/example/express/service/impl/UserServiceImpl.java:39-46 | with unique usernames, existsByUsername holds exactly when findByUsername is non-null |
| UserServiceImpl.UserService.GetById | backend/src/main/java/com/example/express/service/impl/UserServiceImpl.java:64-66 | the row with the id, or null |
| UserServiceImpl.UserService.SaveUser | backend/src/main/java/com/example/express/service/impl/UserServiceImpl.java:49-51 | the row is inserted under the fresh id; nothing else changes |
| UserServiceImpl.UserService.UpdateUser | backend/src/main/java/com/example/express/service/impl/UserServiceImpl.java:54-56 | the row with the same id receives the non-null columns; true exactly when such a row existed |
| UserServiceImpl.UserService.RemoveById | backend/src/main/java/com/example/express/service/impl/UserServiceImpl.java:59-61 | true exactly when a row was deleted; the row is gone afterwards |
| UserServiceImpl.UserService.Page | backend/src/main/java/com/example/express/service/impl/UserServiceImpl.java:69-73 | paged, the count of kept rows and a page of at most `size` of them; with a negative size total 0 and all kept rows |
| UserServiceImpl.UserService.ValidateCaptcha | backend/src/main/java/com/example/express/service/impl/UserServiceImpl.java:98-113 | true exactly when both arguments are non-null and the stored code equals the given one ignoring ASCII case; the store becomes AfterValidate; users are untouched |
| UserServiceImpl.UserService.GenerateCaptcha | backend/src/main/java/com/example/express/service/impl/UserServiceImpl.java:76-95 | a 4-character code over A-Z0-9 stored under "captcha:" and the fresh key, which is returned |
| UserController.GetUserList | backend/src/main/java/com/example/express/controller/UserController.java:37-64 | 200; paged, the number of users matching both filters and a page of at most `size` of them; with a negative size total 0 and every matching user |
| UserController.GetUserListSound | backend/src/main/java/com/example/express/controller/UserController.java:44-62 | every listed user is stored, its name matches LIKE '%v%' for the username filter v, its role equals the role filter, and the list is newest first |
| UserController.GetUserListComplete | backend/src/main/java/com/example/express/controller/UserController.java:44-62 | unpaged, every user whose name matches LIKE '%v%' and whose role equals the filter is listed |
| UserController.UserListFilter | backend/src/main/java/com/example/express/controller/UserController.java:44-49 | the query condition: `username LIKE '%v%'` with v's wildcards live, and `role = r`, each only for a non-null, non-empty filter |
| UserController.PlainUsernameFilter | backend/src/main/java/com/example/express/controller/UserController.java:45-46 | a username filter without `%`, `_` or `\` keeps exactly the names that contain it |
| UserController.UnderscoreUsernameFilter | backend/src/main/java/com/example/express/controller/UserController.java:45-46 | the filter "_" keeps every user with a non-empty name |
| Listing.LikeAnywherePlain | backend/src/main/java/com/example/express/controller/UserController.java:45-46 | for a text v without LIKE's special characters, `s LIKE '%v%'` holds exactly when s contains v |
| Listing.LikeAnywhereUnderscore | backend/src/main/java/com/example/express/controller/UserController.java:45-46 | `s LIKE '%_%'` holds exactly for non-empty s |
| Listing.LikeLeadingPercent | backend/src/main/java/com/example/express/controller/UserController.java:45-46 | a leading '%' lets the rest of the pattern match any suffix, and nothing else |
| Listing.LikePlainPrefix | backend/src/main/java/com/example/express/controller/UserController.java:45-46 | a plain text followed by '%' matches exactly the strings it starts |
| UserController.CreateUser | backend/src/main/java/com/example/express/controller/UserController.java:72-90 | a taken username is refused with nothing saved; otherwise the user is saved with the encoded password and status 1 unless one was given |
| UserController.UpdateUserStatus | backend/src/main/java/com/example/express/controller/UserController.java:98-118 | a status other than 0 or 1 (or none) is refused before any lookup; a missing user is an error; otherwise only that user's status changes |
| UserController.DeleteUser | backend/src/main/java/com/example/express/controller/UserController.java:126-145 | a missing user is an error; a user whose role is exactly "admin" is refused and stays; any other is removed |
| UserController.UpperCaseAdminIsDeletable | backend/src/main/java/com/example/express/controller/UserController.java:133-135 | an account whose role is "ADMIN" is not protected by the admin check |
| AuthController.AuthenticatedUserIsEnabled | backend/src/main/java/com/example/express/controller/AuthController.java:55-69 | a successful authentication always belongs to an enabled stored user, so the disabled check after it never fires |
| AuthController.Authenticates | backend/src/main/java/com/example/express/controller/AuthController.java:55-56 | the authentication manager accepts: the principal loads through the user-details service and a non-null password matches the stored encoded one |
| AuthController.Login | backend/src/main/java/com/example/express/controller/AuthController.java:42-86 | a failed captcha is "验证码错误或已过期" with nothing authenticated; a failed authentication is "用户名或密码错误"; otherwise the authentication is installed, lastLogin is set and the token of the username and stored role is returned; the captcha is consumed exactly when accepted |
| AuthController.Register | backend/src/main/java/com/example/express/controller/AuthController.java:92-109 | a taken username is refused with nothing saved; otherwise the user is saved with role "CUSTOMER", status 1 and the encoded password, whatever was sent |
| AuthController.RegisteredUserRole | backend/src/main/java/com/example/express/controller/AuthController.java:99-100 | a registered user is enabled but neither isCustomer nor isAdmin, while both normalisations give it ROLE_CUSTOMER |
| AuthController.GetCaptcha | backend/src/main/java/com/example/express/controller/AuthController.java:115-118 | the issued key and rendered image with message "获取验证码成功"; the code is stored under the key |
| AuthController.IssuedCaptchaAdmitsOneLogin | backend/src/main/java/com/example/express/controller/AuthController.java:49-51 | the issued code passes the login's captcha step once, in any ASCII case, and is refused afterwards |
| CustomUserDetailsService.RoleAuthority | backend/src/main/java/com/example/express/security/CustomUserDetailsService.java:38 | the authority is "ROLE_" followed by the upper-cased role |
| CustomUserDetailsService.LoadUserByUsername | backend/src/main/java/com/example/express/security/CustomUserDetailsService.java:24-43 | an unknown and a disabled user fail with their messages; otherwise the stored username and password with the one authority of the role |
| CustomUserDetailsService.LoadedUsersAreEnabled | backend/src/main/java/com/example/express/security/CustomUserDetailsService.java:33-35 | only enabled users load |
| CustomUserDetailsService.AuthorityNormalisationsDiffer | backend/src/main/java/com/example/express/security/CustomUserDetailsService.java:38 | the loader and the token filter agree on roles without a ROLE_ prefix and disagree on roles with one |
| CustomUserDetailsService.StoredRolesAgree | backend/src/main/java/com/example/express/security/CustomUserDetailsService.java:38 | "admin" and "CUSTOMER" get ROLE_ADMIN and ROLE_CUSTOMER from both normalisations |
| JwtAuthenticationFilter.NoBreakSpaceIsText | backend/src/main/java/com/example/express/security/JwtAuthenticationFilter.java:42 | a header holding any of the no-break spaces U+00A0, U+2007 or U+202F has text, since Java does not count them as whitespace |
| JwtAuthenticationFilter.WhitespaceIsNotText | backend/src/main/java/com/example/express/security/JwtAuthenticationFilter.java:42 | a header of a space, a tab and the ideographic space has no text |
| JwtAuthenticationFilter.GetJwtFromRequest | backend/src/main/java/com/example/express/security/JwtAuthenticationFilter.java:67-73 | a token exactly when the header has text and starts with the prefix, and then prefix + token is the header |
| JwtAuthenticationFilter.RoleWithPrefix | backend/src/main/java/com/example/express/security/JwtAuthenticationFilter.java:48-49 | always starts with ROLE_; the upper-cased role when it already starts with ROLE_, else ROLE_ in front of it |
| JwtAuthenticationFilter.RoleWithPrefixIdempotent | backend/src/main/java/com/example/express/security/JwtAuthenticationFilter.java:48-49 | normalising twice is normalising once |
| JwtAuthenticationFilter.FilterOutcome | backend/src/main/java/com/example/express/security/JwtAuthenticationFilter.java:37-65 | a newly installed authentication only ever replaces an empty context, names a subject with text and carries one ROLE_ authority |
| JwtAuthenticationFilter.InstallOnlyIfAbsent | backend/src/main/java/com/example/express/security/JwtAuthenticationFilter.java:46-62 | an existing authentication stays, or an error clears it |
| JwtAuthenticationFilter.NoTokenNoChange | backend/src/main/java/com/example/express/security/JwtAuthenticationFilter.java:40-42 | a request without a usable bearer token leaves the context alone |
| JwtAuthenticationFilter.ValidTokenInstalls | backend/src/main/java/com/example/express/security/JwtAuthenticationFilter.java:43-56 | a valid token with a subject and role, on an empty context, installs the subject with the normalised role |
| JwtAuthenticationFilter.SecurityContext.DoFilterInternal | backend/src/main/java/com/example/express/security/JwtAuthenticationFilter.java:37-65 | the context afterwards is FilterOutcome of the context before |
| StaffServiceImpl.MergeStaff | backend/src/main/java/com/example/express/service/impl/StaffServiceImpl.java:42 | updateById writes the non-null columns of the given record over the stored ones and keeps the id |
| StaffServiceImpl.MergeFullRecord | backend/src/main/java/com/example/express/service/impl/StaffServiceImpl.java:42 | a record with every column given replaces the stored one outright |
| StaffServiceImpl.GetStaffStats | backend/src/main/java/com/example/express/service/impl/StaffServiceImpl.java:88-108 | the total, those with status 1 and those with status 0 |
| StaffServiceImpl.StaffStatsWithinTotal | backend/src/main/java/com/example/express/service/impl/StaffServiceImpl.java:88-108 | active plus inactive never exceeds the total, and equals it when every status is 0 or 1 |
| StaffServiceImpl.GetAllStaffs | backend/src/main/java/com/example/express/service/impl/StaffServiceImpl.java:54-72 | paged, total counts all records and a page holds at most `size` records; with a negative size total is 0 and every record is listed; the reported page is at least 1 |
| StaffServiceImpl.AllStaffsCounted | backend/src/main/java/com/example/express/service/impl/StaffServiceImpl.java:54-72 | paged, the total is the number of records; unpaged, the total is 0 and the list holds every record |
| StaffServiceImpl.GetAllStaffsSound | backend/src/main/java/com/example/express/service/impl/StaffServiceImpl.java:56-61 | a page holds stored records only |
| StaffServiceImpl.GetAllStaffsNewestFirst | backend/src/main/java/com/example/express/service/impl/StaffServiceImpl.java:56-61 | a page is ordered newest first |
| StaffServiceImpl.GetAllStaffsComplete | backend/src/main/java/com/example/express/service/impl/StaffServiceImpl.java:56-61 | unpaged, every record is listed |
| StaffServiceImpl.StaffService.CreateStaff | backend/src/main/java/com/example/express/service/impl/StaffServiceImpl.java:26-35 | stored under the fresh id with status 1 and the current time, whatever the input said |
| StaffServiceImpl.StaffService.UpdateStaff | backend/src/main/java/com/example/express/service/impl/StaffServiceImpl.java:38-46 | the record with the same id receives the non-null columns and the new update time; other records are unchanged; an unknown id changes nothing |
| StaffServiceImpl.StaffService.GetStaffDetail | backend/src/main/java/com/example/express/service/impl/StaffServiceImpl.java:49-51 | the record with the id, or null |
| StaffServiceImpl.StaffService.DeleteStaff | backend/src/main/java/com/example/express/service/impl/StaffServiceImpl.java:75-85 | false and nothing removed for an unknown id; otherwise the record is removed and true |
| StoreServiceImpl.DecimalShape | backend/src/main/java/com/example/express/service/impl/StoreServiceImpl.java:46 | a decimal of the pattern is non-empty, made of digits, '-' and '.', and ends with a digit |
| StoreServiceImpl.GpsParts | backend/src/main/java/com/example/express/service/impl/StoreServiceImpl.java:46 | a matching location is two decimals around a comma |
| StoreServiceImpl.DefaultIsGps | backend/src/main/java/com/example/express/service/impl/StoreServiceImpl.java:43-47 | the default "0.0,0.0" matches the pattern |
| StoreServiceImpl.GpsAcceptsSignedFraction | backend/src/main/java/com/example/express/service/impl/StoreServiceImpl.java:46 | "-1.5,2" matches |
| StoreServiceImpl.GpsRefusesSpace | backend/src/main/java/com/example/express/service/impl/StoreServiceImpl.java:46 | "1, 2" does not match |
| StoreServiceImpl.GpsRefusesBareDot | backend/src/main/java/com/example/express/service/impl/StoreServiceImpl.java:46 | "1.,2" does not match |
| StoreServiceImpl.NormaliseGps | backend/src/main/java/com/example/express/service/impl/StoreServiceImpl.java:41-49 | the result always matches; a matching location is kept; a null, empty or non-matching one becomes "0.0,0.0" |
| StoreServiceImpl.NormaliseGpsIdempotent | backend/src/main/java/com/example/express/service/impl/StoreServiceImpl.java:41-49 | normalising twice is normalising once |
| StoreServiceImpl.UpdatedGps | backend/src/main/java/com/example/express/service/impl/StoreServiceImpl.java:81-94 | a null location keeps the stored one, or "0.0,0.0" when that is null; a given one is normalised |
| StoreServiceImpl.UpdatedGpsMatches | backend/src/main/java/com/example/express/service/impl/StoreServiceImpl.java:81-94 | a stored location that matched still matches after any update |
| StoreServiceImpl.WrapAddress | backend/src/main/java/com/example/express/service/impl/StoreServiceImpl.java:52-62 | null stays null; an address starting with "{" is kept; any other becomes {"fullAddress":a,"detailAddress":a} with no escaping |
| StoreServiceImpl.WrapAddressIdempotent | backend/src/main/java/com/example/express/service/impl/StoreServiceImpl.java:52-62 | wrapping twice is wrapping once |
| StoreServiceImpl.GpsRoundTrip | backend/src/main/java/com/example/express/service/impl/StoreServiceImpl.java:46 | every location the pattern accepts comes back unchanged through the POINT type handler |
| StoreServiceImpl.MergeStore | backend/src/main/java/com/example/express/service/impl/StoreServiceImpl.java:109 | updateById writes the non-null columns of the given store over the stored ones and keeps the id |
| StoreServiceImpl.StoreIdsDistinct | backend/src/main/java/com/example/express/service/impl/StoreServiceImpl.java:29-31 | a set of stores has no more ids than members, and as many when the ids are distinct |
| StoreServiceImpl.StoreService.constructor | backend/src/main/java/com/example/express/service/impl/StoreServiceImpl.java:20-26 | an empty store table wired to the staff service |
| StoreServiceImpl.StoreService.GetAllStores | backend/src/main/java/com/example/express/service/impl/StoreServiceImpl.java:29-31 | exactly the stored rows |
| StoreServiceImpl.StoreService.AllStoresCounted | backend/src/main/java/com/example/express/service/impl/StoreServiceImpl.java:29-31 | the listing holds as many stores as the table has rows |
| StoreServiceImpl.StoreService.GetStoreDetail | backend/src/main/java/com/example/express/service/impl/StoreServiceImpl.java:34-36 | the row with the id, or null |
| StoreServiceImpl.StoreService.StoredGpsRoundTrips | backend/src/main/java/com/example/express/service/impl/StoreServiceImpl.java:39-111 | every stored location comes back unchanged through the type handler |
| StoreServiceImpl.StoreService.CreateStore | backend/src/main/java/com/example/express/service/impl/StoreServiceImpl.java:39-70 | the store is saved under the fresh id with its location normalised and its address wrapped; every stored location still matches the pattern |
| StoreServiceImpl.StoreService.UpdateStore | backend/src/main/java/com/example/express/service/impl/StoreServiceImpl.java:73-111 | an unknown id gives null with nothing changed; otherwise the fixed-up store's non-null columns are written and the stored row is returned |
| StoreServiceImpl.StoreService.DeleteStore | backend/src/main/java/com/example/express/service/impl/StoreServiceImpl.java:114-123 | refused with nothing removed while any staff record names the store; otherwise removed, true exactly when a row existed |
| StoreServiceImpl.DeleteGuardSound | backend/src/main/java/com/example/express/service/impl/StoreServiceImpl.java:116-121 | a store named by a staff record is always kept |
| MySqlPointTypeHandler.FieldsJoin | backend/src/main/java/com/example/express/config/MySqlPointTypeHandler.java:21 | the fields of a string joined with the delimiter give the string back |
| MySqlPointTypeHandler.FieldsFree | backend/src/main/java/com/example/express/config/MySqlPointTypeHandler.java:21 | no field holds the delimiter |
| MySqlPointTypeHandler.DropTrailingEmpty | backend/src/main/java/com/example/express/config/MySqlPointTypeHandler.java:21 | a prefix of the fields that ends in a non-empty one, with only empty fields dropped |
| MySqlPointTypeHandler.Split | backend/src/main/java/com/example/express/config/MySqlPointTypeHandler.java:21 | String.split with a one-character pattern: the fields without trailing empty ones; "" gives [""] |
| MySqlPointTypeHandler.SplitPair | backend/src/main/java/com/example/express/config/MySqlPointTypeHandler.java:21 | two delimiter-free parts joined by the delimiter split back into them, when the second is non-empty |
| MySqlPointTypeHandler.SplitExamples | backend/src/main/java/com/example/express/config/MySqlPointTypeHandler.java:21 | "," splits into nothing, "1," into ["1"] and ",1" into ["", "1"] |
| MySqlPointTypeHandler.SplitThree | backend/src/main/java/com/example/express/config/MySqlPointTypeHandler.java:21-22 | "1,2,3" splits into three parts, which the write side rejects |
| MySqlPointTypeHandler.ToWkt | backend/src/main/java/com/example/express/config/MySqlPointTypeHandler.java:21-29 | "POINT(a b)" for a parameter that splits into exactly two parts, "POINT(0.0 0.0)" for any other |
| MySqlPointTypeHandler.ReadPoint | backend/src/main/java/com/example/express/config/MySqlPointTypeHandler.java:54-114 | null reads as "0.0,0.0"; "POINT(s)" whose trimmed s splits on spaces into a and b reads as "a,b"; anything else as "0.0,0.0"; the same for all three overloads |
| MySqlPointTypeHandler.ReadOfWkt | backend/src/main/java/com/example/express/config/MySqlPointTypeHandler.java:63-70 | reading "POINT(" inner ")" parses the trimmed inner text |
| MySqlPointTypeHandler.PointRoundTrip | backend/src/main/java/com/example/express/config/MySqlPointTypeHandler.java:21-70 | for non-empty a and b without comma or space, "a,b" is written as "POINT(a b)" and reads back as "a,b" |
| MySqlPointTypeHandler.LeadingTabIsLost | backend/src/main/java/com/example/express/config/MySqlPointTypeHandler.java:21-70 | the read side trims and the write side does not: "\t1,2" reads back as "1,2" |
| MySqlPointTypeHandler.DefaultRoundTrip | backend/src/main/java/com/example/express/config/MySqlPointTypeHandler.java:22-29 | a malformed parameter reads back as "0.0,0.0" |
| Permission.HasPermission | frontend/src/utils/permission.js:23-26 | false for a falsy role or route; true only when the role's table lists the route |
| Permission.GetAccessibleRoutes | frontend/src/utils/permission.js:29-32 | [] for a falsy or unknown role |
| Permission.AccessibleIffPermitted | frontend/src/utils/permission.js:23-32 | for a non-empty role, a route is accessible exactly when hasPermission allows it |
| Permission.UnknownRoleHasNothing | frontend/src/utils/permission.js:25-31 | an unknown role gets false and [] |
| Permission.UpperCaseRolesHaveNothing | frontend/src/utils/permission.js:2-31 | the upper-case roles the backend stores ("CUSTOMER", "ADMIN") get no route |
| Permission.RouteTable | frontend/src/utils/permission.js:2-20 | admin reaches all six routes, staff all but Users and Staff, customer only Orders |
| Permission.RoutesWithinAdmin | frontend/src/utils/permission.js:2-20 | every role's routes are admin routes |
| Permission.HasFeaturePermission | frontend/src/utils/permission.js:35-43 | true only when the role's feature list includes the feature |
| Permission.FeatureTable | frontend/src/utils/permission.js:35-43 | only admin may export; staff may create, edit, delete and view; customer exactly create and view |
| Router.GuardAsWritten | frontend/src/router/index.js:72-92 | an unprotected route proceeds; no token goes to /login with the target path; with a token it proceeds exactly when hasPermission allows; a denied role 'user' goes to Orders and any other to Dashboard |
| Router.CustomerRedirectLoops | frontend/src/router/index.js:83-85 | a signed-in customer denied a page is sent to Dashboard, and the guard denies Dashboard again |
| Router.Guard | frontend/src/router/index.js:72-92 | the same decision, with a denied navigation sent to the role's landing route |
| Router.RedirectSettles | frontend/src/router/index.js:83-85 | for admin, staff and customer the landing route is permitted, so the redirected navigation proceeds |
| Router.GuardsAgreeOutsideCustomerRedirect | frontend/src/router/index.js:72-92 | both guards agree for every role other than customer and 'user' |
| Router.RegisteredRoleStillLoops | frontend/src/router/index.js:72-92 | the corrected guard still redirects a self-registered account (role "CUSTOMER", unknown to the tables) to Dashboard, which it denies again |
| AddressParser.Or | frontend/src/utils/addressParser.js:46-47 | `v \|\| fallback`: v when truthy, else the fallback |
| AddressParser.FormatAddressObject | frontend/src/utils/addressParser.js:43-49 | null and undefined throw a TypeError; any other value gives exactly the keys region, fullAddress and detailAddress, region being the input region when it is an array and else [], the two addresses defaulting to '' when falsy |
| AddressParser.FormatAddressObjectIdempotent | frontend/src/utils/addressParser.js:43-49 | formatting a formatted address changes nothing |
| AddressParser.RegionText | frontend/src/utils/addressParser.js:20-25 | a single code gives its own text |
| AddressParser.RegionTextAppend | frontend/src/utils/addressParser.js:20-25 | codes are rendered in order, each on its own |
| AddressParser.UnknownCodesDropped | frontend/src/utils/addressParser.js:22-23 | codes without a text contribute nothing |
| AddressParser.ParseAddress | frontend/src/utils/addressParser.js:8-36 | a non-object, a falsy value or a parse failure gives the original value or ''; any other result is text |
| AddressParser.ParseStoredAddress | frontend/src/utils/addressParser.js:8-31 | a stored JSON address displays as its known region names in order, then its detail address |
| AddressParser.ParsePlainText | frontend/src/utils/addressParser.js:32-35 | text that is not JSON displays as itself |
| AddressParser.ParseMissing | frontend/src/utils/addressParser.js:14-16 | null and undefined display as '' |
| AddressParser.ParseWrappedAddress | frontend/src/utils/addressParser.js:20-31 | the backend's wrapped plain address displays as its detail address |
| AddressParser.FormattedDisplaysTheSame | frontend/src/utils/addressParser.js:8-49 | formatting an address object succeeds and does not change how it is displayed |

## Left out

- JWT signing, parsing and expiry: token generation and parsing are the oracles `token` and `parse`.
- The Redis time-to-live of captchas: the store is a plain map and entries never expire.
- The captcha image (AWT drawing, PNG, Base64): the renderer is the oracle `render`.
- The clock, `System.currentTimeMillis()` as order id, `UUID` and `Random`: these are parameters. Id collisions under concurrent creates are not modelled.
- Password encoding: the oracles `encode` and `matches`.
- Transactions, concurrency and rollback: the model follows the order of writes as the code performs them, one request at a time.
- Automatic filling of created/updated times by the ORM: no fill handler exists in the core, so records keep the times they are given.
- The LIKE search of `getAllOrders`: its columns do not exist on the order record. It is the oracle `matches`, and collation is not modelled.
- MyBatis-Plus's `pages` field of the page objects.
- Database I/O: the `ST_GeomFromText` round trip in the type handler and the PreparedStatement writes. The read side is given the column's text.
- The operation-log aspect, CORS configuration, HTTP interceptors, the staff and store controllers, and the password generator demo.
- Spring's `@PreAuthorize` enforcement: role requirements are preconditions of the handlers.
- The filter chain call in `doFilterInternal`: it always continues and carries no decision.
- JavaScript prototype properties and floating-point numbers: `JsValue.Num` holds integers.
- StoreServiceImpl.StoreService.GetAllStores: returns a set, so the order of `list()` is not modelled.
- StoreServiceImpl.StoreService.CreateStore: a `save` that returns false (and then null) cannot happen against the modelled map and is not modelled.
- UserController.DeleteUser: the "用户删除失败" branch cannot happen after the existence check against the modelled map and is not modelled.
- AuthController.Login: after a successful authentication of a non-null username, the source's "用户不存在" and "账号已被禁用" checks cannot fire, because the provider only loads stored, enabled users; they are proved unreachable rather than modelled. "用户不存在" remains only for a null username.
- UserServiceImpl.UserService.UpdateUser: requires that no other row already uses the username. Nothing in the core checks this; the model relies on the callers always passing a row they just read.
- UserServiceImpl.UserService.SaveUser: requires a fresh id and an unused username. Both callers check existsByUsername first.
- The `timestamp` field of `ApiResponse`: the constructor stamps every envelope with `System.currentTimeMillis()`, and the model's envelope holds code, message and data only.
- The `getId` alias of `User` (User.java:50-52): the model reads the `userId` field directly.
- OrderServiceImpl.CanView: `equalsIgnoreCase` is modelled on ASCII letters only. Java also folds other letters, so a role "admın" (dotless ı) or "ſtaff" (long s) sees every order in Java but not in the model.
- OrderServiceImpl.OrderService.GetOrderDetail: inherits the ASCII-only case comparison of CanView described above.
- UserServiceImpl.CaptchaAccepts: the ASCII-only `equalsIgnoreCase` refuses 'ı', 'ſ' and the Kelvin sign typed for a generated 'I', 'S' or 'K', which Java accepts.
- UserServiceImpl.UserService.ValidateCaptcha: inherits the ASCII-only comparison of CaptchaAccepts described above.
- CustomUserDetailsService.RoleAuthority: `toUpperCase` is modelled on ASCII letters only. Java's is Unicode-aware and follows the default locale: "ß" becomes "SS", and under a Turkish locale "admin" becomes "ADMİN", which then fails hasRole('ADMIN').
- JwtAuthenticationFilter.RoleWithPrefix: the same ASCII-only `toUpperCase` as RoleAuthority, with the same gap.
- OrderController.ParseInt: only '0'..'9' are digits. `Integer.parseInt` also accepts other Unicode decimal digits ("１" parses to 1), where the model answers 400 "状态参数格式错误".
- UserController.GetUserList: LIKE and the role's `=` compare characters exactly, as under a binary collation. The table's collation, which in MySQL's default ignores case and accents, is not modelled.
- UserServiceImpl.UserService.FindByUsername: the `eq("username", …)` lookup compares exactly, as for GetUserList, so a login under a name that differs only in case or accents is not found in the model, though it may be under a case-insensitive collation.
- UserServiceImpl.UserService.ExistsByUsername: the same exact comparison as FindByUsername, so the duplicate-username check of registration and user creation can pass in the model where the collation would report the name taken.
- AuthController.Register: the row is stored under the fresh id `id`. A `userId` carried by the request body would be inserted as given under `IdType.AUTO`, or fail on a duplicate key; that is not modelled.
- UserController.CreateUser: the same fresh-id assumption as Register; a `userId` in the request body is not modelled.
- AuthController.Register: the username and password of the body are always present. A body without them is not modelled: `existsByUsername(null)` matches no row (`username = NULL`), and `passwordEncoder.encode(null)` then throws in a BCrypt encoder, so the request ends in an exception rather than a stored row.
- UserController.CreateUser: the same absent-field gap as Register; a body without a username or password is not modelled, and in the source it reaches `passwordEncoder.encode(null)`.
- UserServiceImpl.UserService.SaveUser: stores under the fresh id `id`; an id already set on the argument is not modelled.
- StaffServiceImpl.StaffService.CreateStaff: stores under the fresh id `id`; a `staffId` set on the argument is not modelled.
- StoreServiceImpl.StoreService.CreateStore: stores under the fresh id `id`; a `storeId` set on the argument is not modelled.

## Findings

| source | as written | input that shows it | evidently intended | confidence | as-written member | corrected member |
|---|---|---|---|---|---|---|
| frontend/src/router/index.js:83-85 | a denied navigation is redirected to Orders only for the role 'user', which no role table defines, and to Dashboard otherwise | a signed-in customer opening Stores: the guard sends it to Dashboard, which customers may not see, and redirects to Dashboard again on every following navigation | a denied customer lands on Orders, the one route the customer table grants | not executed | Router.CustomerRedirectLoops | Router.RedirectSettles |

=== FILE: address_parser.dfy ===
/** Address display helpers of the front end
    (frontend/src/utils/addressParser.js). JavaScript values are the
    datatype JsValue (numbers are integers here); JSON.parse is the oracle
    `parse` (None when it throws) and the region-code table codeToText is
    the map `codeToText`. */
module AddressParser {
  import opened Common

  datatype JsValue =
    | Undefined
    | Null
    | Bool(b: bool)
    | Num(n: int)
    | Str(s: string)
    | Arr(items: seq<JsValue>)
    | Obj(fields: map<string, JsValue>)

  /** JavaScript truthiness. */
  predicate Truthy(v: JsValue) {
    match v
    case Undefined => false
    case Null => false
    case Bool(b) => b
    case Num(n) => n != 0
    case Str(s) => s != ""
    case Arr(_) => true
    case Obj(_) => true
  }

  /** `v || fallback`. */
  function Or(v: JsValue, fallback: JsValue): (r: JsValue)
    ensures Truthy(v) ==> r == v
    ensures !Truthy(v) ==> r == fallback
  {
    if Truthy(v) then v else fallback
  }

  /** A property read: an object's own field, undefined otherwise (no
      prototype properties are modelled). */
  function Get(v: JsValue, key: string): JsValue {
    if v.Obj? && key in v.fields then v.fields[key] else Undefined
  }

  /** String(v) for the values the helpers concatenate; an array joins its
      elements with commas, null and undefined elements as empty text. */
  function ToText(v: JsValue): string
    decreases v
  {
    match v
    case Undefined => "undefined"
    case Null => "null"
    case Bool(b) => if b then "true" else "false"
    case Num(n) => IntToString(n)
    case Str(s) => s
    case Arr(items) => JoinTexts(v, items)
    case Obj(_) => "[object Object]"
  }

  function JoinTexts(whole: JsValue, items: seq<JsValue>): string
    requires whole.Arr? && forall i :: 0 <= i < |items| ==> items[i] < whole
    decreases whole, |items|
  {
    if items == [] then ""
    else
      var head := if items[0].Undefined? || items[0].Null? then "" else ToText(items[0]);
      if |items| == 1 then head else head + "," + JoinTexts(whole, items[1..])
  }

  // ---------------------------------------------------------------------
  // formatAddressObject

  /** The exception a property read of null or undefined raises. */
  const TypeError := "TypeError"

  /** formatAddressObject: the region when it is an array, else []; the two
      addresses, or '' when falsy. Reading `addressData.region` of null or
      undefined throws a TypeError. */
  function FormatAddressObject(addressData: JsValue): (r: Result<JsValue, string>)
    ensures r.Err? <==> addressData.Null? || addressData.Undefined?
    ensures r.Err? ==> r.error == TypeError
    ensures r.Ok? ==> r.value.Obj? && r.value.fields.Keys == {"region", "fullAddress", "detailAddress"}
    ensures r.Ok? ==> r.value.fields["region"]
                      == (if Get(addressData, "region").Arr? then Get(addressData, "region") else Arr([]))
    ensures r.Ok? ==> r.value.fields["fullAddress"] == Or(Get(addressData, "fullAddress"), Str(""))
    ensures r.Ok? ==> r.value.fields["detailAddress"] == Or(Get(addressData, "detailAddress"), Str(""))
  {
    if addressData.Null? || addressData.Undefined? then Err(TypeError)
    else
      var region := Get(addressData, "region");
      Ok(Obj(map["region" := if region.Arr? then region else Arr([]),
                 "fullAddress" := Or(Get(addressData, "fullAddress"), Str("")),
                 "detailAddress" := Or(Get(addressData, "detailAddress"), Str(""))]))
  }

  /** Formatting a formatted address changes nothing. */
  lemma FormatAddressObjectIdempotent(addressData: JsValue)
    ensures var once := FormatAddressObject(addressData);
            once.Ok? ==> FormatAddressObject(once.value) == once
  {
    var once := FormatAddressObject(addressData);
    if once.Ok? {
      var twice := FormatAddressObject(once.value);
      assert twice.value.fields.Keys == once.value.fields.Keys;
      assert twice.value.fields["region"] == once.value.fields["region"];
      assert twice.value.fields["fullAddress"] == once.value.fields["fullAddress"];
      assert twice.value.fields["detailAddress"] == once.value.fields["detailAddress"];
    }
  }

  // ---------------------------------------------------------------------
  // parseAddress

  /** The text of one region code: codeToText[code] when it is a non-empty
      string, nothing otherwise. */
  function CodeText(code: JsValue, codeToText: map<string, string>): string {
    var key := ToText(code);
    if key in codeToText then codeToText[key] else ""
  }

  /** region.map(code => codeToText[code]).filter(text => text).join(''). */
  function RegionText(region: seq<JsValue>, codeToText: map<string, string>): (text: string)
    ensures |region| == 1 ==> text == CodeText(region[0], codeToText)
  {
    if region == [] then ""
    else CodeText(region[0], codeToText) + RegionText(region[1..], codeToText)
  }

  /** The region text of a concatenation is the concatenation of the region
      texts: codes are rendered in order, each on its own. */
  lemma {:induction false} RegionTextAppend(a: seq<JsValue>, b: seq<JsValue>, codeToText: map<string, string>)
    ensures RegionText(a + b, codeToText) == RegionText(a, codeToText) + RegionText(b, codeToText)
  {
    if a == [] {
      assert a + b == b;
    } else {
      RegionTextAppend(a[1..], b, codeToText);
      assert (a + b)[1..] == a[1..] + b;
    }
  }

  /** Unknown codes contribute nothing. */
  lemma {:induction false} UnknownCodesDropped(region: seq<JsValue>, codeToText: map<string, string>)
    requires forall i :: 0 <= i < |region| ==> ToText(region[i]) !in codeToText
    ensures RegionText(region, codeToText) == ""
  {
    if region != [] {
      UnknownCodesDropped(region[1..], codeToText);
    }
  }

  /** The object parseAddress reads, or None when JSON.parse throws: a
      string is parsed, anything else is taken as is. */
  function AddressObject(address: JsValue, parse: string -> Option<JsValue>): Option<JsValue> {
    if address.Str? then parse(address.s) else Some(address)
  }

  /** parseAddress: for an object (or array), its region text followed by
      its detail address; otherwise, and when parsing fails, the original
      value if truthy, else ''. */
  function ParseAddress(address: JsValue, parse: string -> Option<JsValue>, codeToText: map<string, string>): (r: JsValue)
    ensures var obj := AddressObject(address, parse);
            obj.None? || !Truthy(obj.value) || !(obj.value.Arr? || obj.value.Obj?) ==> r == Or(address, Str(""))
    ensures r == address || r.Str?
  {
    match AddressObject(address, parse)
    case None => Or(address, Str(""))
    case Some(addressObj) =>
      if !Truthy(addressObj) || !(addressObj.Arr? || addressObj.Obj?) then Or(address, Str(""))
      else
        var region := Get(addressObj, "region");
        var regionText := if region.Arr? then RegionText(region.items, codeToText) else "";
        var detailAddress := Or(Get(addressObj, "detailAddress"), Str(""));
        Str(regionText + ToText(detailAddress))
  }

  /** The stored JSON of a store address: region codes and a detail
      address. Its display is the known region names in order, then the
      detail. */
  lemma ParseStoredAddress(text: string, parse: string -> Option<JsValue>, codeToText: map<string, string>,
                           codes: seq<JsValue>, detail: string)
    requires parse(text) == Some(Obj(map["region" := Arr(codes), "detailAddress" := Str(detail)]))
    ensures ParseAddress(Str(text), parse, codeToText) == Str(RegionText(codes, codeToText) + detail)
  {
  }

  /** A text that is not JSON is shown as it is; an empty one as ''. */
  lemma ParsePlainText(text: string, parse: string -> Option<JsValue>, codeToText: map<string, string>)
    requires parse(text).None?
    ensures ParseAddress(Str(text), parse, codeToText) == Str(text)
  {
  }

  /** Null and undefined are shown as ''. */
  lemma ParseMissing(parse: string -> Option<JsValue>, codeToText: map<string, string>)
    ensures ParseAddress(Null, parse, codeToText) == Str("")
    ensures ParseAddress(Undefined, parse, codeToText) == Str("")
  {
  }

  /** The wrapped form the back end gives plain store addresses (no region)
      displays as its detail address. */
  lemma ParseWrappedAddress(text: string, parse: string -> Option<JsValue>, codeToText: map<string, string>, a: string)
    requires parse(text) == Some(Obj(map["fullAddress" := Str(a), "detailAddress" := Str(a)]))
    ensures ParseAddress(Str(text), parse, codeToText) == Str(a)
  {
    var obj := parse(text).value;
    assert Get(obj, "region") == Undefined;
    if a == "" {
      assert Or(Get(obj, "detailAddress"), Str("")) == Str("");
    }
  }

  /** Formatting an address object does not change how it is displayed. */
  lemma FormattedDisplaysTheSame(addressData: JsValue, parse: string -> Option<JsValue>, codeToText: map<string, string>)
    requires addressData.Obj? || addressData.Arr?
    ensures FormatAddressObject(addressData).Ok?
    ensures ParseAddress(FormatAddressObject(addressData).value, parse, codeToText) == ParseAddress(addressData, parse, codeToText)
  {
    var formatted := FormatAddressObject(addressData).value;
    assert Get(formatted, "detailAddress") == Or(Get(addressData, "detailAddress"), Str(""));
    assert RegionText([], codeToText) == "";
  }
}

=== FILE: api_response.dfy ===
/** The uniform response envelope {code, message, data} and its static
    factories (backend common/ApiResponse.java). The timestamp the private
    constructor takes from the clock is not modelled. */
module ApiResponse {
  import opened Common

  const SuccessCode := 200
  const BadRequestCode := 400
  const UnauthorizedCode := 401
  const ForbiddenCode := 403
  const NotFoundCode := 404
  const ServerErrorCode := 500

  /** Message used by success(data). */
  const DefaultSuccessMessage := "操作成功"

  /** The envelope; data None stands for Java null. */
  datatype Response<+T> = Response(code: int, message: string, data: Option<T>)

  predicate IsSuccess<T>(r: Response<T>) { r.code == SuccessCode }

  /** An error envelope: a non-success code and no data. */
  predicate IsErrorEnvelope<T>(r: Response<T>) { r.code != SuccessCode && r.data.None? }

  /** success(): success(null). */
  function SuccessEmpty<T>(): Response<T> {
    Success(None)
  }

  /** success(data): code 200, the default message, the data. */
  function Success<T>(data: Option<T>): (r: Response<T>)
    ensures IsSuccess(r) && r.message == DefaultSuccessMessage && r.data == data
  {
    Response(SuccessCode, DefaultSuccessMessage, data)
  }

  /** success(message, data). */
  function SuccessWith<T>(message: string, data: Option<T>): (r: Response<T>)
    ensures IsSuccess(r) && r.message == message && r.data == data
  {
    Response(SuccessCode, message, data)
  }

  /** error(code, message): data stays null. */
  function Error<T>(code: int, message: string): Response<T> {
    Response(code, message, None)
  }

  /** error(message) is error(500, message). */
  function ServerError<T>(message: string): Response<T> {
    Error(ServerErrorCode, message)
  }

  function Unauthorized<T>(message: string): Response<T> {
    Error(UnauthorizedCode, message)
  }

  function Forbidden<T>(message: string): Response<T> {
    Error(ForbiddenCode, message)
  }

  function NotFound<T>(message: string): Response<T> {
    Error(NotFoundCode, message)
  }

  function BadRequest<T>(message: string): Response<T> {
    Error(BadRequestCode, message)
  }

  /** The error factories: error(code, message) keeps both and leaves data
      null; error(message) is error(500, message); the four named ones use
      400, 401, 403 and 404. None of them is a success envelope, and
      success() is one without data. */
  lemma ErrorFactories<T>(code: int, message: string)
    ensures var r := Error<T>(code, message); r.code == code && r.message == message && r.data.None?
    ensures ServerError<T>(message) == Error<T>(ServerErrorCode, message)
    ensures BadRequest<T>(message) == Error<T>(BadRequestCode, message)
    ensures Unauthorized<T>(message) == Error<T>(UnauthorizedCode, message)
    ensures Forbidden<T>(message) == Error<T>(ForbiddenCode, message)
    ensures NotFound<T>(message) == Error<T>(NotFoundCode, message)
    ensures IsErrorEnvelope(ServerError<T>(message)) && IsErrorEnvelope(BadRequest<T>(message))
    ensures IsErrorEnvelope(Unauthorized<T>(message)) && IsErrorEnvelope(Forbidden<T>(message))
    ensures IsErrorEnvelope(NotFound<T>(message))
    ensures var e := SuccessEmpty<T>(); IsSuccess(e) && e.message == DefaultSuccessMessage && e.data.None?
  {
  }

  /** The six named factories never collide: each outcome kind has its own
      code, so a client can tell them apart by code alone. */
  lemma FactoryCodesDistinct<T>(m: string, data: Option<T>)
    ensures var codes := [Success(data).code, BadRequest<T>(m).code, Unauthorized<T>(m).code,
                          Forbidden<T>(m).code, NotFound<T>(m).code, ServerError<T>(m).code];
            forall i, j :: 0 <= i < j < |codes| ==> codes[i] != codes[j]
  {
  }
}

=== FILE: auth_controller.dfy ===
/** Login, registration and captcha issue (backend
    controller/AuthController.java). The authentication manager is the
    DAO provider over loadUserByUsername with the password encoder given as
    an oracle; token signing is an oracle on (username, role); the clock is
    the parameter `now`. */
module AuthController {
  import opened Common
  import opened UserEntity
  import opened ApiResponse
  import opened UserServiceImpl
  import opened JwtAuthenticationFilter
  import opened CustomUserDetailsService

  /** The principal name the provider uses for a null username. */
  const NoneProvided := "NONE_PROVIDED"
  const RegisteredRole := "CUSTOMER"

  const CaptchaFailedMessage := "验证码错误或已过期"
  const BadCredentialsMessage := "用户名或密码错误"
  const LoginUserMissingMessage := "用户不存在"
  const AccountDisabledMessage := "账号已被禁用"
  const LoginSuccessMessage := "登录成功"
  const UsernameTakenMessage := "用户名已存在"
  const RegisterSuccessMessage := "注册成功"
  const CaptchaIssuedMessage := "获取验证码成功"

  /** The body of a successful login: the signed token and the user row as
      it was written back. */
  datatype LoginData = LoginData(token: string, user: User)

  /** PasswordEncoder.matches(raw, encoded). */
  type PasswordMatcher = (string, string) -> bool

  /** JwtUtils.generateToken(username, role). */
  type TokenIssuer = (string, Option<string>) -> string

  /** The body of a captcha response. */
  datatype CaptchaInfo = CaptchaInfo(captchaKey: string, captchaImage: string)

  function PrincipalName(username: Option<string>): string {
    username.GetOr(NoneProvided)
  }

  /** The authentication manager accepts the pair: the principal loads and
      a non-null password matches its encoded one. */
  predicate Authenticates(users: UserService, username: Option<string>, password: Option<string>,
                          matches: PasswordMatcher)
    reads users
    requires users.Valid()
  {
    var loaded := LoadUserByUsername(users, PrincipalName(username));
    loaded.Ok? && password.Some? && matches(password.value, loaded.value.password)
  }

  /** A successful authentication always belongs to an enabled stored user:
      the check for a disabled account after authentication can never fire. */
  lemma AuthenticatedUserIsEnabled(users: UserService, username: string, password: Option<string>,
                                   matches: PasswordMatcher)
    requires users.Valid() && Authenticates(users, Some(username), password, matches)
    ensures users.FindByUsername(username).Some? && IsEnabled(users.FindByUsername(username).value)
  {
    LoadedUsersAreEnabled(users, username);
  }

  /** POST /api/auth/login. */
  method Login(service: UserService, context: SecurityContext,
               username: Option<string>, password: Option<string>,
               captcha: Option<string>, captchaKey: Option<string>,
               matches: PasswordMatcher, token: TokenIssuer, now: int)
    returns (resp: Response<LoginData>)
    requires service.Valid()
    modifies service, context
    ensures service.Valid()
    ensures resp.message != AccountDisabledMessage
    ensures service.captchas == AfterValidate(old(service.captchas), captchaKey, captcha)
    ensures !CaptchaAccepts(old(service.captchas), captchaKey, captcha) ==>
              resp == ServerError(CaptchaFailedMessage)
              && service.users == old(service.users) && context.authentication == old(context.authentication)
    ensures CaptchaAccepts(old(service.captchas), captchaKey, captcha) ==>
              var authenticated := old(Authenticates(service, username, password, matches));
              && (!authenticated ==> resp == ServerError(BadCredentialsMessage)
                                     && service.users == old(service.users)
                                     && context.authentication == old(context.authentication))
              && (authenticated ==>
                    var details := old(LoadUserByUsername(service, PrincipalName(username))).value;
                    context.authentication == Some(Authentication(details.username, details.authorities))
                    && (username.None? ==> resp == ServerError(LoginUserMissingMessage) && service.users == old(service.users))
                    && (username.Some? ==>
                          var u := old(service.FindByUsername(username.value)).value;
                          var logged := u.(lastLogin := Some(now));
                          IsEnabled(u)
                          && resp == SuccessWith(LoginSuccessMessage, Some(LoginData(token(username.value, u.role), logged)))
                          && service.users == old(service.users)[u.userId := logged]))
  {
    var captchaOk := service.ValidateCaptcha(captchaKey, captcha);
    if !captchaOk {
      return ServerError(CaptchaFailedMessage);
    }
    // authenticationManager.authenticate: any failure is caught below
    var loaded := LoadUserByUsername(service, PrincipalName(username));
    if loaded.Err? || password.None? || !matches(password.value, loaded.value.password) {
      return ServerError(BadCredentialsMessage);
    }
    context.authentication := Some(Authentication(loaded.value.username, loaded.value.authorities));
    if username.None? {
      // findByUsername(null) finds no row
      return ServerError(LoginUserMissingMessage);
    }
    var user := service.FindByUsername(username.value);
    // The provider only accepts a loaded, hence stored and enabled, user;
    // the source's null and disabled checks that follow never fire.
    AuthenticatedUserIsEnabled(service, username.value, password, matches);
    assert user.Some? && IsEnabled(user.value);
    var logged := user.value.(lastLogin := Some(now));
    MergeReadBack(user.value, 0, now);
    var _ := service.UpdateUser(logged);
    var jwt := token(username.value, user.value.role);
    resp := SuccessWith(LoginSuccessMessage, Some(LoginData(jwt, logged)));
  }

  /** POST /api/auth/register: a new enabled customer with the encoded
      password, under the fresh auto-increment id. */
  method Register(service: UserService, user: User, encode: string -> string, id: int) returns (resp: Response<string>)
    requires service.Valid() && id !in service.users
    modifies service
    ensures service.Valid()
    ensures old(service.HasUsername(user.username)) ==>
              resp == ServerError(UsernameTakenMessage) && service.users == old(service.users)
    ensures !old(service.HasUsername(user.username)) ==>
              var saved := user.(userId := id, role := Some(RegisteredRole), status := Some(1),
                                 password := encode(user.password));
              resp == Success(Some(RegisterSuccessMessage)) && service.users == old(service.users)[id := saved]
    ensures service.captchas == old(service.captchas)
  {
    if service.ExistsByUsername(user.username) {
      return ServerError(UsernameTakenMessage);
    }
    var customer := user.(role := Some(RegisteredRole), status := Some(1), password := encode(user.password));
    var _ := service.SaveUser(customer, id);
    resp := Success(Some(RegisterSuccessMessage));
  }

  /** A registered account can log in (its status is 1), but its role
      "CUSTOMER" is not the lower-case role isCustomer and isAdmin compare
      against, while both normalisations make it ROLE_CUSTOMER. */
  lemma RegisteredUserRole(u: User)
    requires u.role == Some(RegisteredRole) && u.status == Some(1)
    ensures IsEnabled(u) && !IsCustomer(u) && !IsAdmin(u)
    ensures RoleAuthority(u.role.value) == RoleWithPrefix(u.role.value) == "ROLE_CUSTOMER"
  {
    RoleChecksAreCaseSensitive(u);
    StoredRolesAgree();
  }

  /** GET /api/auth/captcha: issues a fresh code under `uuid`; the image
      renderer is the oracle `render`. */
  method GetCaptcha(service: UserService, uuid: string, draws: seq<CharIndex>, render: string -> string)
    returns (resp: Response<CaptchaInfo>, code: string)
    requires CaptchaLength <= |draws|
    modifies service
    ensures resp == SuccessWith(CaptchaIssuedMessage, Some(CaptchaInfo(uuid, render(code))))
    ensures |code| == CaptchaLength && service.captchas == old(service.captchas)[CaptchaKey(uuid) := code]
    ensures service.users == old(service.users)
  {
    var key;
    key, code := service.GenerateCaptcha(uuid, draws);
    resp := SuccessWith(CaptchaIssuedMessage, Some(CaptchaInfo(key, render(code))));
  }

  /** The captcha just issued lets the next login past its first step, with
      the code typed in any ASCII case, and only once. */
  lemma IssuedCaptchaAdmitsOneLogin(store: map<string, string>, uuid: string, code: string, typed: string, again: Option<string>)
    requires EqualsIgnoreCase(code, typed)
    ensures CaptchaAccepts(store[CaptchaKey(uuid) := code], Some(uuid), Some(typed))
    ensures !CaptchaAccepts(AfterValidate(store[CaptchaKey(uuid) := code], Some(uuid), Some(typed)), Some(uuid), again)
  {
    FreshCaptchaAccepted(store, uuid, code, typed);
    CaptchaSingleUse(store[CaptchaKey(uuid) := code], Some(uuid), Some(typed), again);
  }
}

=== FILE: common.dfy ===
/** Shared vocabulary: nullable values, results, and the Java/JavaScript
    string operations the backend and front end rely on (ASCII case
    mapping, prefix tests, decimal text of integers). */
module Common {

  /** A Java reference or JavaScript value that may be null. */
  datatype Option<+T> = None | Some(value: T) {
    function GetOr(default: T): T {
      match this
      case Some(v) => v
      case None => default
    }
  }

  /** A computation that either yields a value or raises one of the
      source's exceptions. */
  datatype Result<+T, +E> = Ok(value: T) | Err(error: E)

  // ---------------------------------------------------------------------
  // Characters

  predicate IsDigit(c: char) { '0' <= c <= '9' }

  /** Character.toUpperCase restricted to ASCII letters. */
  function UpperChar(c: char): char {
    if 'a' <= c <= 'z' then (c as int - 32) as char else c
  }

  /** String.toUpperCase restricted to ASCII letters. */
  function Upper(s: string): (r: string)
    ensures |r| == |s|
    ensures forall i :: 0 <= i < |s| ==> r[i] == UpperChar(s[i])
  {
    if s == [] then [] else [UpperChar(s[0])] + Upper(s[1..])
  }

  lemma {:induction false} UpperIdempotent(s: string)
    ensures Upper(Upper(s)) == Upper(s)
  {
    if s != [] {
      UpperIdempotent(s[1..]);
      assert Upper(s)[1..] == Upper(s[1..]);
    }
  }

  lemma UpperAppend(a: string, b: string)
    ensures Upper(a + b) == Upper(a) + Upper(b)
  {
    assert forall i :: 0 <= i < |a + b| ==> Upper(a + b)[i] == (Upper(a) + Upper(b))[i];
  }

  /** String.equalsIgnoreCase, with case folded on ASCII letters only. */
  predicate EqualsIgnoreCase(a: string, b: string) {
    |a| == |b| && forall i :: 0 <= i < |a| ==> UpperChar(a[i]) == UpperChar(b[i])
  }

  lemma EqualsIgnoreCaseIsUpperEquality(a: string, b: string)
    ensures EqualsIgnoreCase(a, b) <==> Upper(a) == Upper(b)
  {
    if Upper(a) == Upper(b) {
      forall i | 0 <= i < |a| ensures UpperChar(a[i]) == UpperChar(b[i]) {
        assert Upper(a)[i] == Upper(b)[i];
      }
    }
  }

  predicate StartsWith(s: string, prefix: string) {
    |prefix| <= |s| && s[..|prefix|] == prefix
  }

  predicate EndsWith(s: string, suffix: string) {
    |suffix| <= |s| && s[|s| - |suffix|..] == suffix
  }

  /** Every character is an ASCII digit, the class \d of Java patterns. */
  predicate AllDigits(s: string) {
    forall i :: 0 <= i < |s| ==> IsDigit(s[i])
  }

  /** String.indexOf for a character known to occur. */
  function IndexOf(s: string, c: char): (i: nat)
    requires c in s
    ensures i < |s| && s[i] == c && c !in s[..i]
  {
    if s[0] == c then 0 else 1 + IndexOf(s[1..], c)
  }

  /** String.contains. */
  predicate Contains(s: string, sub: string) {
    exists i :: 0 <= i <= |s| - |sub| && OccursAt(s, sub, i)
  }

  predicate OccursAt(s: string, sub: string, i: int) {
    0 <= i <= |s| - |sub| && s[i..i + |sub|] == sub
  }

  // ---------------------------------------------------------------------
  // Decimal text of integers (Integer.toString / string concatenation)

  function DigitChar(d: int): (c: char)
    requires 0 <= d < 10
    ensures IsDigit(c)
  {
    ('0' as int + d) as char
  }

  function DigitValue(c: char): (d: int)
    requires IsDigit(c)
    ensures 0 <= d < 10 && DigitChar(d) == c
  {
    c as int - '0' as int
  }

  /** Decimal digits of a natural number, most significant first, no
      leading zeros. */
  function NatToString(n: nat): (r: string)
    ensures |r| > 0 && forall i :: 0 <= i < |r| ==> IsDigit(r[i])
    decreases n
  {
    if n < 10 then [DigitChar(n)] else NatToString(n / 10) + [DigitChar(n % 10)]
  }

  function IntToString(n: int): (r: string)
    ensures |r| > 0
  {
    if n < 0 then "-" + NatToString(-n) else NatToString(n)
  }

  /** Value of a non-empty run of decimal digits. */
  function DigitsValue(ds: string): (v: nat)
    requires forall i :: 0 <= i < |ds| ==> IsDigit(ds[i])
    decreases |ds|
  {
    if ds == [] then 0 else DigitsValue(ds[..|ds| - 1]) * 10 + DigitValue(ds[|ds| - 1])
  }

  lemma {:induction false} DigitsValueOfNatToString(n: nat)
    ensures DigitsValue(NatToString(n)) == n
    decreases n
  {
    var s := NatToString(n);
    if n >= 10 {
      DigitsValueOfNatToString(n / 10);
      assert s[..|s| - 1] == NatToString(n / 10);
      assert DigitValue(s[|s| - 1]) == n % 10;
    }
  }

  lemma SingleDigitText(d: int)
    requires 0 <= d < 10
    ensures IntToString(d) == [DigitChar(d)]
  {
  }

  /** A set of positive size has an element. */
  lemma NonEmptyHasElement(s: set<int>)
    requires |s| > 0
    ensures exists x :: x in s
  {
    if forall x :: x !in s {
      assert false;
    }
  }

  /** A subset is no larger than its superset. */
  lemma {:induction false} SubsetSize(a: set<int>, b: set<int>)
    requires a <= b
    ensures |a| <= |b|
    decreases |a|
  {
    if |a| > 0 {
      NonEmptyHasElement(a);
      var x :| x in a;
      SubsetSize(a - {x}, b - {x});
    }
  }

  /** String.trim removes every character up to U+0020. */
  predicate IsTrimmed(c: char) { c <= ' ' }

  function TrimStart(s: string): (r: string)
    ensures |r| <= |s| && r == s[|s| - |r|..]
    ensures |r| > 0 ==> !IsTrimmed(r[0])
    ensures forall i :: 0 <= i < |s| - |r| ==> IsTrimmed(s[i])
  {
    if |s| > 0 && IsTrimmed(s[0]) then
      var r := TrimStart(s[1..]);
      assert s[1..][|s| - 1 - |r|..] == s[|s| - |r|..];
      assert forall i :: 1 <= i < |s| - |r| ==> s[i] == s[1..][i - 1];
      r
    else s
  }

  function TrimEnd(s: string): (r: string)
    ensures |r| <= |s| && r == s[..|r|]
    ensures |r| > 0 ==> !IsTrimmed(r[|r| - 1])
    ensures forall i :: |r| <= i < |s| ==> IsTrimmed(s[i])
  {
    if |s| > 0 && IsTrimmed(s[|s| - 1]) then
      var r := TrimEnd(s[..|s| - 1]);
      assert s[..|s| - 1][..|r|] == s[..|r|];
      assert forall i :: |r| <= i < |s| - 1 ==> s[i] == s[..|s| - 1][i];
      r
    else s
  }

  function Trim(s: string): (r: string) {
    TrimEnd(TrimStart(s))
  }

  /** A string with no trimmable character at either end is its own trim. */
  lemma TrimNoOp(s: string)
    requires |s| > 0 && !IsTrimmed(s[0]) && !IsTrimmed(s[|s| - 1])
    ensures Trim(s) == s
  {
  }
}

=== FILE: jwt_filter.dfy ===
/** The request filter that turns a bearer token into an authentication
    (backend security/JwtAuthenticationFilter.java). Token parsing and
    signature checking are an oracle: the claims the parser yields for a
    token text, or a failure (bad signature, expired, malformed). */
module JwtAuthenticationFilter {
  import opened Common

  const RolePrefix := "ROLE_"

  /** An installed authentication: the principal name and its granted
      authorities. */
  datatype Authentication = Authentication(name: string, authorities: seq<string>)

  /** What parsing a token gives: a failure, or its subject and role
      claims (either may be absent). */
  datatype TokenClaims = ParseFailure | Claims(subject: Option<string>, role: Option<string>)

  /** Character.isWhitespace: the Unicode space, line and paragraph
      separators other than the three no-break spaces, and the ASCII
      controls tab to carriage return and the four separators 0x1C-0x1F. */
  predicate IsJavaWhitespace(c: char) {
    var n := c as int;
    (0x09 <= n <= 0x0D) || (0x1C <= n <= 0x20)
    || n == 0x1680 || (0x2000 <= n <= 0x2006) || (0x2008 <= n <= 0x200A)
    || n == 0x2028 || n == 0x2029 || n == 0x205F || n == 0x3000
  }

  /** StringUtils.hasText: non-null with at least one non-whitespace
      character. */
  predicate HasText(s: Option<string>) {
    s.Some? && exists i :: 0 <= i < |s.value| && !IsJavaWhitespace(s.value[i])
  }

  /** Any header holding one of the three no-break spaces (U+00A0, U+2007,
      U+202F) has text, since Java does not count them as whitespace. */
  lemma NoBreakSpaceIsText(s: string, i: int)
    requires 0 <= i < |s| && s[i] in {'\U{A0}', '\U{2007}', '\U{202F}'}
    ensures HasText(Some(s))
  {
    assert !IsJavaWhitespace(s[i]);
  }

  /** Tabs, spaces and the ideographic space are whitespace, so a header of
      only those has no text. */
  lemma WhitespaceIsNotText()
    ensures !HasText(Some(" \t\U{3000}"))
  {
  }

  /** getJwtFromRequest: the header without the prefix when the header has
      text and starts with the prefix; otherwise null. */
  function GetJwtFromRequest(header: Option<string>, prefix: string): (jwt: Option<string>)
    ensures jwt.Some? <==> HasText(header) && StartsWith(header.value, prefix)
    ensures jwt.Some? ==> prefix + jwt.value == header.value
  {
    if HasText(header) && StartsWith(header.value, prefix) then
      assert header.value == prefix + header.value[|prefix|..];
      Some(header.value[|prefix|..])
    else None
  }

  /** The role claim as an authority: its upper-case form, with "ROLE_" put
      in front unless it is already there. */
  function RoleWithPrefix(role: string): (authority: string)
    ensures StartsWith(authority, RolePrefix)
    ensures StartsWith(Upper(role), RolePrefix) ==> authority == Upper(role)
    ensures !StartsWith(Upper(role), RolePrefix) ==> authority == RolePrefix + Upper(role)
  {
    var up := Upper(role);
    if StartsWith(up, RolePrefix) then up else RolePrefix + up
  }

  /** Normalising a normalised authority changes nothing. */
  lemma RoleWithPrefixIdempotent(role: string)
    ensures RoleWithPrefix(RoleWithPrefix(role)) == RoleWithPrefix(role)
  {
    var up := Upper(role);
    UpperIdempotent(role);
    if !StartsWith(up, RolePrefix) {
      UpperAppend(RolePrefix, up);
      UpperIdempotent(RolePrefix);
      assert Upper(RolePrefix + up) == RolePrefix + up;
      assert (RolePrefix + up)[..|RolePrefix|] == RolePrefix;
    }
  }

  /** The authentication a request leaves in the context that held
      `current`. A usable token installs one only into an empty context; a
      parse failure, or a missing role claim (a null dereference), clears
      the context. */
  function FilterOutcome(current: Option<Authentication>, header: Option<string>, prefix: string,
                         parse: string -> TokenClaims): (after: Option<Authentication>)
    ensures after.Some? && after != current ==>
              current.None? && HasText(Some(after.value.name))
              && |after.value.authorities| == 1 && StartsWith(after.value.authorities[0], RolePrefix)
  {
    var jwt := GetJwtFromRequest(header, prefix);
    if !HasText(jwt) then current
    else match parse(jwt.value)
      case ParseFailure => None
      case Claims(subject, role) =>
        if HasText(subject) && current.None? then
          if role.None? then None
          else
            Some(Authentication(subject.value, [RoleWithPrefix(role.value)]))
        else current
  }

  /** An existing authentication is never replaced: it stays, or an error
      clears it. */
  lemma InstallOnlyIfAbsent(current: Option<Authentication>, header: Option<string>, prefix: string,
                            parse: string -> TokenClaims)
    requires current.Some?
    ensures FilterOutcome(current, header, prefix, parse) in {current, None}
  {
  }

  /** A request without a usable bearer header leaves the context alone. */
  lemma NoTokenNoChange(current: Option<Authentication>, header: Option<string>, prefix: string,
                        parse: string -> TokenClaims)
    requires !HasText(GetJwtFromRequest(header, prefix))
    ensures FilterOutcome(current, header, prefix, parse) == current
  {
  }

  /** A valid token with a named subject and a role, on an empty context,
      installs that subject with the normalised role. */
  lemma ValidTokenInstalls(header: Option<string>, prefix: string, parse: string -> TokenClaims,
                           subject: string, role: string)
    requires HasText(GetJwtFromRequest(header, prefix))
    requires parse(GetJwtFromRequest(header, prefix).value) == Claims(Some(subject), Some(role))
    requires HasText(Some(subject))
    ensures FilterOutcome(None, header, prefix, parse) == Some(Authentication(subject, [RoleWithPrefix(role)]))
  {
  }

  /** The security context of the current request. */
  class SecurityContext {
    var authentication: Option<Authentication>

    constructor ()
      ensures authentication.None?
    {
      authentication := None;
    }

    /** doFilterInternal: updates the context from the bearer header; the
        filter chain is continued on every path, including after an
        error. */
    method DoFilterInternal(header: Option<string>, prefix: string, parse: string -> TokenClaims)
      modifies this
      ensures authentication == FilterOutcome(old(authentication), header, prefix, parse)
    {
      var jwt := GetJwtFromRequest(header, prefix);
      if HasText(jwt) {
        var claims := parse(jwt.value);
        if claims.ParseFailure? {
          authentication := None;
        } else if HasText(claims.subject) && authentication.None? {
          if claims.role.None? {
            authentication := None;
          } else {
            var roleWithPrefix := RoleWithPrefix(claims.role.value);
            authentication := Some(Authentication(claims.subject.value, [roleWithPrefix]));
          }
        }
      }
    }
  }
}

=== FILE: listing.dfy ===
/** The ordering and paging the backend's list queries ask of the database:
    ORDER BY created_at DESC, then one page of at most `size` rows.
    A listing works on a map from row id to its nullable creation time.
    MySQL puts NULL times last in a descending sort; rows with equal times
    come in an order the database leaves open, which this model fixes as
    larger id first. */
module Listing {
  import opened Common

  /** Creation time x is strictly newer than y (NULL is oldest). */
  predicate Newer(x: Option<int>, y: Option<int>) {
    x.Some? && (y.None? || x.value > y.value)
  }

  /** Creation time x is at least as new as y. */
  predicate NewerOrSame(x: Option<int>, y: Option<int>) {
    Newer(x, y) || x == y
  }

  lemma NewerOrSameValues(a: int, b: int)
    requires NewerOrSame(Some(a), Some(b))
    ensures a >= b
  {
  }

  /** Row i is listed no later than row j. */
  predicate Ahead(ts: map<int, Option<int>>, i: int, j: int)
    requires i in ts && j in ts
  {
    Newer(ts[i], ts[j]) || (ts[i] == ts[j] && i >= j)
  }

  predicate IsHead(ts: map<int, Option<int>>, k: int) {
    k in ts && forall j :: j in ts ==> Ahead(ts, k, j)
  }

  lemma AheadTotal(ts: map<int, Option<int>>, i: int, j: int)
    requires i in ts && j in ts
    ensures Ahead(ts, i, j) || Ahead(ts, j, i)
  {
  }

  lemma AheadTransitive(ts: map<int, Option<int>>, i: int, j: int, k: int)
    requires i in ts && j in ts && k in ts
    requires Ahead(ts, i, j) && Ahead(ts, j, k)
    ensures Ahead(ts, i, k)
  {
  }

  /** Every non-empty table has a newest row. */
  lemma {:induction false} HeadExists(ts: map<int, Option<int>>)
    requires |ts| > 0
    ensures exists k :: IsHead(ts, k)
    decreases |ts|
  {
    NonEmptyHasElement(ts.Keys);
    var x :| x in ts;
    var rest := ts - {x};
    assert rest.Keys == ts.Keys - {x};
    assert |rest.Keys| == |ts.Keys| - 1;
    if |rest| == 0 {
      forall j | j in ts ensures Ahead(ts, x, j) {
        assert j !in rest.Keys;
      }
      assert IsHead(ts, x);
    } else {
      HeadExists(rest);
      var k :| IsHead(rest, k);
      if Ahead(ts, k, x) {
        forall j | j in ts ensures Ahead(ts, k, j) {
          if j != x {
            assert j in rest && Ahead(rest, k, j);
          }
        }
        assert IsHead(ts, k);
      } else {
        AheadTotal(ts, k, x);
        forall j | j in ts ensures Ahead(ts, x, j) {
          if j != x {
            assert j in rest && Ahead(rest, k, j);
            AheadTransitive(ts, x, k, j);
          }
        }
        assert IsHead(ts, x);
      }
    }
  }

  /** The row ids of a table, newest first: each id exactly once. */
  function NewestFirst(ts: map<int, Option<int>>): (r: seq<int>)
    ensures |r| == |ts|
    ensures forall id :: id in r <==> id in ts
    decreases |ts|
  {
    if |ts| == 0 then []
    else
      HeadExists(ts);
      var k :| IsHead(ts, k);
      var rest := ts - {k};
      assert rest.Keys == ts.Keys - {k};
      assert |rest.Keys| == |ts.Keys| - 1;
      [k] + NewestFirst(rest)
  }

  /** A listing is sorted newest first and repeats no row. */
  lemma {:induction false} NewestFirstSorted(ts: map<int, Option<int>>)
    ensures var r := NewestFirst(ts);
            forall a, b :: 0 <= a < b < |r| ==> r[a] != r[b] && Ahead(ts, r[a], r[b])
    decreases |ts|
  {
    if |ts| > 0 {
      var r := NewestFirst(ts);
      var k := r[0];
      var rest := ts - {k};
      assert IsHead(ts, k);
      assert r[1..] == NewestFirst(rest);
      assert rest.Keys == ts.Keys - {k};
      assert |rest.Keys| == |ts.Keys| - 1;
      NewestFirstSorted(rest);
      forall a, b | 0 <= a < b < |r| ensures r[a] != r[b] && Ahead(ts, r[a], r[b]) {
        assert r[b] in rest;
        if a > 0 {
          assert r[a] == r[1..][a - 1] && r[b] == r[1..][b - 1];
          assert Ahead(rest, r[a], r[b]);
        }
      }
    }
  }

  /** Creation times in a listing never increase. */
  lemma NewestFirstDescending(ts: map<int, Option<int>>, a: int, b: int)
    requires 0 <= a < b < |NewestFirst(ts)|
    ensures NewestFirst(ts)[a] in ts && NewestFirst(ts)[b] in ts
    ensures NewerOrSame(ts[NewestFirst(ts)[a]], ts[NewestFirst(ts)[b]])
  {
    NewestFirstSorted(ts);
  }

  /** Ids of the rows a WHERE clause keeps. */
  function MatchingIds<T>(table: map<int, T>, keep: T -> bool): (ids: set<int>)
    ensures ids <= table.Keys
  {
    set id | id in table && keep(table[id])
  }

  /** COUNT(*) with a WHERE clause. */
  function CountWhere<T>(table: map<int, T>, keep: T -> bool): nat {
    |MatchingIds(table, keep)|
  }

  /** The creation times of the kept rows. */
  function KeptTimes<T>(table: map<int, T>, keep: T -> bool, time: T -> Option<int>): (ts: map<int, Option<int>>)
    ensures ts.Keys == MatchingIds(table, keep)
    ensures |ts| == CountWhere(table, keep)
  {
    var ts := map id | id in MatchingIds(table, keep) :: time(table[id]);
    assert ts.Keys == MatchingIds(table, keep);
    ts
  }

  /** The rows with the given ids, in that order. */
  function RowsOf<T>(table: map<int, T>, ids: seq<int>): (r: seq<T>)
    requires forall k :: 0 <= k < |ids| ==> ids[k] in table
    ensures |r| == |ids| && forall k :: 0 <= k < |ids| ==> r[k] == table[ids[k]]
  {
    if ids == [] then [] else [table[ids[0]]] + RowsOf(table, ids[1..])
  }

  /** SELECT * WHERE keep ORDER BY created_at DESC. */
  function Select<T>(table: map<int, T>, keep: T -> bool, time: T -> Option<int>): (r: seq<T>)
    ensures |r| == CountWhere(table, keep)
  {
    RowsOf(table, NewestFirst(KeptTimes(table, keep, time)))
  }

  ghost predicate RowOf<T>(table: map<int, T>, x: T) {
    exists id :: id in table && table[id] == x
  }

  /** A selection holds only rows of the table that the filter keeps. */
  lemma SelectSound<T>(table: map<int, T>, keep: T -> bool, time: T -> Option<int>)
    ensures var r := Select(table, keep, time);
            forall i :: 0 <= i < |r| ==> RowOf(table, r[i]) && keep(r[i])
  {
    var ts := KeptTimes(table, keep, time);
    var ids := NewestFirst(ts);
    var r := Select(table, keep, time);
    assert r == RowsOf(table, ids);
    forall i | 0 <= i < |r| ensures RowOf(table, r[i]) && keep(r[i]) {
      var id := ids[i];
      assert id in ids;
      assert id in ts;
      assert id in MatchingIds(table, keep);
      assert r[i] == table[id];
    }
  }

  /** A selection holds every row the filter keeps. */
  lemma SelectComplete<T>(table: map<int, T>, keep: T -> bool, time: T -> Option<int>, id: int)
    requires id in table && keep(table[id])
    ensures table[id] in Select(table, keep, time)
  {
    var ts := KeptTimes(table, keep, time);
    var ids := NewestFirst(ts);
    assert id in MatchingIds(table, keep);
    assert id in ts;
    assert id in ids;
    var k :| 0 <= k < |ids| && ids[k] == id;
    assert Select(table, keep, time) == RowsOf(table, ids);
    assert Select(table, keep, time)[k] == table[id];
  }

  /** A selection is ordered newest first. */
  lemma SelectNewestFirst<T>(table: map<int, T>, keep: T -> bool, time: T -> Option<int>)
    ensures var r := Select(table, keep, time);
            forall a, b :: 0 <= a < b < |r| ==> NewerOrSame(time(r[a]), time(r[b]))
  {
    var ts := KeptTimes(table, keep, time);
    var ids := NewestFirst(ts);
    var r := Select(table, keep, time);
    assert r == RowsOf(table, ids);
    forall a, b | 0 <= a < b < |r| ensures NewerOrSame(time(r[a]), time(r[b])) {
      NewestFirstDescending(ts, a, b);
      var x, y := ids[a], ids[b];
      assert ts[x] == time(table[x]) && ts[y] == time(table[y]);
      assert r[a] == table[x] && r[b] == table[y];
    }
  }

  /** A page of a sorted listing is sorted. */
  lemma PageNewestFirst<T>(s: seq<T>, page: int, size: int, time: T -> Option<int>)
    requires forall a, b :: 0 <= a < b < |s| ==> NewerOrSame(time(s[a]), time(s[b]))
    ensures var p := PageOf(s, page, size);
            forall a, b :: 0 <= a < b < |p| ==> NewerOrSame(time(p[a]), time(p[b]))
  {
    var p := PageOf(s, page, size);
    if size >= 0 {
      forall a, b | 0 <= a < b < |p| ensures NewerOrSame(time(p[a]), time(p[b])) {
        assert p[a] == s[Offset(page, size) + a] && p[b] == s[Offset(page, size) + b];
      }
    }
  }

  /** The first page of a sorted listing holds its newest rows: a row
      left out is no newer than any row on the page, and the page is
      full. */
  lemma FirstPageHoldsNewest<T>(s: seq<T>, size: int, time: T -> Option<int>, j: int)
    requires forall a, b :: 0 <= a < b < |s| ==> NewerOrSame(time(s[a]), time(s[b]))
    requires 0 <= j < |s| && size >= 0
    ensures var p := PageOf(s, 1, size);
            s[j] in p || (|p| == size && forall i :: 0 <= i < |p| ==> NewerOrSame(time(p[i]), time(s[j])))
  {
    var p := PageOf(s, 1, size);
    if j < size {
      assert p[j] == s[j];
    } else {
      forall i | 0 <= i < |p| ensures NewerOrSame(time(p[i]), time(s[j])) {
        assert p[i] == s[i];
      }
    }
  }

  /** Row offset of a page: MyBatis-Plus starts page 1 (and anything lower)
      at row 0. */
  function Offset(page: int, size: int): nat {
    if page <= 1 || size <= 0 then 0 else (page - 1) * size
  }

  /** The total MyBatis-Plus reports with a page: the COUNT of the kept
      rows, except that a negative size skips the COUNT query and leaves
      the total at 0. */
  function PageTotal<T>(table: map<int, T>, keep: T -> bool, size: int): nat {
    if size < 0 then 0 else CountWhere(table, keep)
  }

  /** One page of a listing; a negative size means no limit. */
  function PageOf<T>(s: seq<T>, page: int, size: int): (r: seq<T>)
    ensures size < 0 ==> r == s
    ensures size >= 0 ==> |r| <= size
    ensures size >= 0 ==> |r| == if Offset(page, size) >= |s| then 0
                                 else if Offset(page, size) + size <= |s| then size
                                 else |s| - Offset(page, size)
    ensures size >= 0 ==> forall i :: 0 <= i < |r| ==> Offset(page, size) + i < |s| && r[i] == s[Offset(page, size) + i]
  {
    if size < 0 then s
    else
      var from := if Offset(page, size) < |s| then Offset(page, size) else |s|;
      var to := if from + size < |s| then from + size else |s|;
      s[from..to]
  }

  // ---------------------------------------------------------------------
  // LIKE

  /** MySQL's `s LIKE p` with the default escape character: '%' matches any
      run of characters, '_' any one character, and '\' makes the character
      after it literal (a final '\' stands for itself). Other characters
      match themselves exactly, as under a binary collation. */
  predicate Like(s: string, p: string)
    decreases |p|, |s|
  {
    if p == [] then s == []
    else if p[0] == '%' then Like(s, p[1..]) || (s != [] && Like(s[1..], p))
    else if s == [] then false
    else if p[0] == '_' then Like(s[1..], p[1..])
    else if p[0] == '\\' && |p| >= 2 then s[0] == p[1] && Like(s[1..], p[2..])
    else s[0] == p[0] && Like(s[1..], p[1..])
  }

  /** The pattern QueryWrapper.like(column, v) binds: v between two '%',
      with v's own characters left unescaped. */
  function LikeAnywhere(v: string): string {
    "%" + v + "%"
  }

  /** A text with none of LIKE's special characters. */
  predicate PlainText(v: string) {
    forall i :: 0 <= i < |v| ==> v[i] != '%' && v[i] != '_' && v[i] != '\\'
  }

  /** A lone '%' matches everything. */
  lemma {:induction false} LikePercent(s: string)
    ensures Like(s, "%")
    decreases |s|
  {
    assert "%"[1..] == [];
    if s != [] {
      LikePercent(s[1..]);
    }
  }

  /** A leading '%' lets the rest of the pattern match any suffix. */
  lemma {:induction false} LikeLeadingPercent(s: string, q: string)
    ensures Like(s, "%" + q) <==> exists i :: 0 <= i <= |s| && Like(s[i..], q)
    decreases |s|
  {
    var p := "%" + q;
    assert p[0] == '%' && p[1..] == q;
    assert s[0..] == s;
    if s != [] {
      LikeLeadingPercent(s[1..], q);
      if Like(s[1..], p) {
        var i :| 0 <= i <= |s[1..]| && Like(s[1..][i..], q);
        assert s[1..][i..] == s[i + 1..];
      }
      if exists i :: 0 <= i <= |s| && Like(s[i..], q) {
        var i :| 0 <= i <= |s| && Like(s[i..], q);
        if i > 0 {
          assert s[1..][i - 1..] == s[i..];
        }
      }
    }
  }

  /** A plain text followed by '%' matches exactly the strings it starts. */
  lemma {:induction false} LikePlainPrefix(t: string, v: string)
    requires PlainText(v)
    ensures Like(t, v + "%") <==> |v| <= |t| && t[..|v|] == v
    decreases |v|
  {
    var p := v + "%";
    if v == [] {
      assert p == "%";
      LikePercent(t);
    } else {
      assert p[0] == v[0] && p[1..] == v[1..] + "%";
      assert PlainText(v[1..]) by {
        forall i | 0 <= i < |v[1..]| ensures v[1..][i] != '%' && v[1..][i] != '_' && v[1..][i] != '\\' {
          assert v[1..][i] == v[i + 1];
        }
      }
      if t != [] {
        LikePlainPrefix(t[1..], v[1..]);
        if |v| <= |t| {
          assert t[..|v|] == [t[0]] + t[1..][..|v| - 1];
          assert v == [v[0]] + v[1..];
        }
      }
    }
  }

  /** For a filter text without special characters, LIKE '%v%' is plain
      containment. */
  lemma LikeAnywherePlain(s: string, v: string)
    requires PlainText(v)
    ensures Like(s, LikeAnywhere(v)) <==> Contains(s, v)
  {
    assert LikeAnywhere(v) == "%" + (v + "%");
    LikeLeadingPercent(s, v + "%");
    if Like(s, LikeAnywhere(v)) {
      var i :| 0 <= i <= |s| && Like(s[i..], v + "%");
      LikePlainPrefix(s[i..], v);
      assert s[i..][..|v|] == s[i..i + |v|];
      assert OccursAt(s, v, i);
    }
    if Contains(s, v) {
      var i :| 0 <= i <= |s| - |v| && OccursAt(s, v, i);
      LikePlainPrefix(s[i..], v);
      assert s[i..][..|v|] == s[i..i + |v|];
    }
  }

  /** The filter text "_" is a wildcard: LIKE '%_%' matches every non-empty
      string, not only those holding an underscore. */
  lemma LikeAnywhereUnderscore(s: string)
    ensures Like(s, LikeAnywhere("_")) <==> s != ""
  {
    assert LikeAnywhere("_") == "%" + "_%";
    LikeLeadingPercent(s, "_%");
    assert "_%"[0] == '_' && "_%"[1..] == "%";
    if s != "" {
      LikePercent(s[1..]);
      assert s[0..] == s;
    }
  }
}

=== FILE: operation_log.dfy ===
/** The operation (audit) log: append-only rows describing administrative
    actions, and the paged, filtered listing of them (backend
    service/impl/OperationLogServiceImpl.java over entity/OperationLog.java).
    The auto-increment logId is the row's position in the table. */
module OperationLogServiceImpl {
  import opened Common
  import opened Listing

  datatype OperationLog = OperationLog(
    operatorId: Option<int>,
    operationType: Option<string>,
    targetId: Option<int>,
    detail: Option<string>,
    ipAddress: Option<string>,
    createdAt: Option<int>)

  /** The result map of getOperationLogs: "total" and "logs". */
  datatype LogPage = LogPage(total: nat, logs: seq<OperationLog>)

  /** The type filter applies only when it is non-null and non-empty. */
  predicate FilterApplies(operationType: Option<string>) {
    operationType.Some? && operationType.value != ""
  }

  /** WHERE operation_type = ?, or no condition at all. A NULL column never
      equals the filter. */
  predicate Matches(log: OperationLog, operationType: Option<string>) {
    !FilterApplies(operationType) || log.operationType == operationType
  }

  /** The table keyed by the auto-increment position. */
  function TableOf(rows: seq<OperationLog>): (t: map<int, OperationLog>)
    ensures forall i :: i in t <==> 0 <= i < |rows|
    ensures forall i :: 0 <= i < |rows| ==> t[i] == rows[i]
  {
    map i | 0 <= i < |rows| :: rows[i]
  }

  /** A row of the table built from the log is one of the log's rows. */
  lemma TableRowIsLogged(rows: seq<OperationLog>, x: OperationLog)
    requires RowOf(TableOf(rows), x)
    ensures x in rows
  {
    var id :| id in TableOf(rows) && TableOf(rows)[id] == x;
  }

  function KeepType(operationType: Option<string>): OperationLog -> bool {
    (l: OperationLog) => Matches(l, operationType)
  }

  function CreatedAtOf(log: OperationLog): Option<int> { log.createdAt }

  class OperationLogService {
    /** The operation_log table, oldest row first. */
    var rows: seq<OperationLog>

    constructor ()
      ensures rows == []
    {
      rows := [];
    }

    /** save (inherited from the ORM base service): inserts the row as
        given. */
    method Save(log: OperationLog)
      modifies this
      ensures rows == old(rows) + [log]
    {
      rows := rows + [log];
    }

    /** createLog: stamps createdAt with the current time, inserts the row
        and returns it; earlier rows stay as they were. */
    method CreateLog(log: OperationLog, now: int) returns (saved: OperationLog)
      modifies this
      ensures saved == log.(createdAt := Some(now))
      ensures rows == old(rows) + [saved]
      ensures forall i :: 0 <= i < |old(rows)| ==> rows[i] == old(rows)[i]
    {
      saved := log.(createdAt := Some(now));
      rows := rows + [saved];
    }

    /** getOperationLogs: the rows of the requested type (all rows when the
        filter is null or empty), newest first, one page of them, and the
        number of matching rows (0 for a negative size, which skips the
        count). */
    function GetOperationLogs(page: int, size: int, operationType: Option<string>): (r: LogPage)
      reads this
      ensures size >= 0 ==> r.total == CountWhere(TableOf(rows), KeepType(operationType)) && |r.logs| <= size
      ensures size < 0 ==> r.total == 0 && |r.logs| == CountWhere(TableOf(rows), KeepType(operationType))
    {
      var all := Select(TableOf(rows), KeepType(operationType), CreatedAtOf);
      LogPage(PageTotal(TableOf(rows), KeepType(operationType), size), PageOf(all, page, size))
    }

    /** Every listed row is a row of the table of the requested type. */
    lemma GetOperationLogsSound(page: int, size: int, operationType: Option<string>)
      ensures var r := GetOperationLogs(page, size, operationType);
              forall k :: 0 <= k < |r.logs| ==> r.logs[k] in rows && Matches(r.logs[k], operationType)
    {
      var table := TableOf(rows);
      var keep := KeepType(operationType);
      var all := Select(table, keep, CreatedAtOf);
      SelectSound(table, keep, CreatedAtOf);
      var logs := GetOperationLogs(page, size, operationType).logs;
      assert logs == PageOf(all, page, size);
      forall k | 0 <= k < |logs| ensures logs[k] in rows && Matches(logs[k], operationType) {
        var j := if size < 0 then k else Offset(page, size) + k;
        assert logs[k] == all[j];
        TableRowIsLogged(rows, all[j]);
      }
    }

    /** With no page limit every row of the requested type is listed. */
    lemma GetOperationLogsComplete(operationType: Option<string>, i: int)
      requires 0 <= i < |rows| && Matches(rows[i], operationType)
      ensures rows[i] in GetOperationLogs(1, -1, operationType).logs
    {
      SelectComplete(TableOf(rows), KeepType(operationType), CreatedAtOf, i);
    }

    /** The listed rows are newest first. */
    lemma GetOperationLogsNewestFirst(page: int, size: int, operationType: Option<string>)
      ensures var r := GetOperationLogs(page, size, operationType);
              forall a, b :: 0 <= a < b < |r.logs| ==> NewerOrSame(r.logs[a].createdAt, r.logs[b].createdAt)
    {
      var all := Select(TableOf(rows), KeepType(operationType), CreatedAtOf);
      SelectNewestFirst(TableOf(rows), KeepType(operationType), CreatedAtOf);
      PageNewestFirst(all, page, size, CreatedAtOf);
    }
  }
}

=== FILE: order.dfy ===
/** The order record and its status rules (backend entity/Order.java).
    Status codes: 0 created, 1 collected, 2 in transit, 3 out for delivery,
    4 delivered. Timestamps are abstract instants (int). */
module OrderEntity {
  import opened Common

  datatype Order = Order(
    orderId: int,
    senderInfo: Option<string>,    // JSON text, not interpreted
    receiverInfo: Option<string>,  // JSON text, not interpreted
    itemType: Option<string>,
    currentStoreId: Option<int>,
    status: int,
    createdBy: int,
    createdAt: int,
    updatedAt: Option<int>)

  const MinStatus := 0
  const MaxStatus := 4
  const UnknownStatusText := "未知状态"

  predicate IsDefinedStatus(s: int) { MinStatus <= s <= MaxStatus }

  /** getStatusText: the label of a status code. */
  function StatusText(status: int): (text: string)
    ensures !IsDefinedStatus(status) <==> text == UnknownStatusText
  {
    match status
    case 0 => "已创建"
    case 1 => "已揽收"
    case 2 => "运输中"
    case 3 => "派送中"
    case 4 => "已签收"
    case _ => UnknownStatusText
  }

  /** The five defined statuses have five different labels, so the label
      identifies the status. */
  lemma StatusTextInjective(a: int, b: int)
    requires IsDefinedStatus(a) && IsDefinedStatus(b) && a != b
    ensures StatusText(a) != StatusText(b)
  {
    var labels := ["已创建", "已揽收", "运输中", "派送中", "已签收"];
    assert StatusText(a) == labels[a] && StatusText(b) == labels[b];
    // the second characters 创 揽 输 送 签 already differ
    assert forall i, j :: 0 <= i < j < 5 ==> labels[i][1] != labels[j][1];
  }

  function InvalidTargetMessage(target: int): string {
    "无效的目标状态：" + IntToString(target)
  }

  function AlreadyInStatusMessage(status: int): string {
    "当前订单已经处于" + StatusText(status) + "状态"
  }

  /** canTransitTo: None (null) when the move is allowed, otherwise the
      reason. The range test comes first, then the same-status test; any
      other move between defined statuses is allowed, with no forward-only
      or adjacency rule. */
  function CanTransitTo(o: Order, target: int): (reason: Option<string>)
    ensures reason.None? <==> IsDefinedStatus(target) && target != o.status
    ensures !IsDefinedStatus(target) ==> reason == Some(InvalidTargetMessage(target))
    ensures IsDefinedStatus(target) && target == o.status ==>
              reason == Some(AlreadyInStatusMessage(o.status))
  {
    if target < MinStatus || target > MaxStatus then Some(InvalidTargetMessage(target))
    else if o.status == target then Some(AlreadyInStatusMessage(o.status))
    else None
  }

  /** Transitions are symmetric: whenever a -> b is allowed, so is b -> a
      (in particular a delivered order may go back to created). */
  lemma TransitionsSymmetric(o: Order, target: int)
    requires CanTransitTo(o, target).None?
    ensures CanTransitTo(o.(status := target), o.status).None? <==> IsDefinedStatus(o.status)
  {
  }

  /** The range check wins over the same-status check: an order already
      holding an undefined status is told the target is invalid, never that
      it is already there. */
  lemma RangeCheckFirst(o: Order)
    requires !IsDefinedStatus(o.status)
    ensures CanTransitTo(o, o.status) == Some(InvalidTargetMessage(o.status))
    ensures CanTransitTo(o, o.status) != Some(AlreadyInStatusMessage(o.status))
  {
    var m := InvalidTargetMessage(o.status);
    var n := AlreadyInStatusMessage(o.status);
    assert m[1] == "无效的目标状态："[1];
    assert n[1] == "当前订单已经处于"[1];
  }
}

=== FILE: order_controller.dfy ===
/** The order endpoints: request validation, the role each endpoint
    demands, and the mapping of service results to response envelopes
    (backend controller/OrderController.java). An exception that escapes a
    handler is the outcome Thrown, for the framework's error handling. */
module OrderController {
  import opened Common
  import opened OrderEntity
  import opened ApiResponse
  import opened JwtAuthenticationFilter
  import opened OrderServiceImpl

  datatype Outcome<+T> = Returned(response: Response<T>) | Thrown(message: string)

  const MinInt32 := -0x8000_0000
  const MaxInt32 := 0x7FFF_FFFF

  // ---------------------------------------------------------------------
  // Roles required by the endpoint annotations

  predicate HasRole(auth: Authentication, role: string) {
    RolePrefix + role in auth.authorities
  }

  /** hasRole('ADMIN') or hasRole('STAFF'). */
  predicate IsAdminOrStaff(auth: Authentication) {
    HasRole(auth, "ADMIN") || HasRole(auth, "STAFF")
  }

  /** A stored role in any case passes the check of its upper-case name:
      the token filter upper-cases it. */
  lemma FilteredRolePasses(name: string, role: string)
    requires Upper(role) == "ADMIN"
    ensures HasRole(Authentication(name, [RoleWithPrefix(role)]), "ADMIN")
  {
    assert !StartsWith(Upper(role), RolePrefix) by {
      assert Upper(role)[0] != RolePrefix[0];
    }
  }

  // ---------------------------------------------------------------------
  // Integer.parseInt

  /** A decimal numeral: an optional sign and at least one ASCII digit. */
  predicate IsNumeral(s: string) {
    if |s| > 0 && (s[0] == '-' || s[0] == '+') then |s| > 1 && AllDigits(s[1..])
    else |s| > 0 && AllDigits(s)
  }

  function NumeralValue(s: string): int
    requires IsNumeral(s)
  {
    if s[0] == '-' then -(DigitsValue(s[1..]) as int)
    else if s[0] == '+' then DigitsValue(s[1..])
    else DigitsValue(s)
  }

  /** Integer.parseInt: the value of a numeral that fits in 32 bits;
      anything else raises NumberFormatException (None). */
  function ParseInt(s: string): (r: Option<int>)
    ensures r.Some? <==> IsNumeral(s) && MinInt32 <= NumeralValue(s) <= MaxInt32
    ensures r.Some? ==> r.value == NumeralValue(s)
  {
    if IsNumeral(s) && MinInt32 <= NumeralValue(s) <= MaxInt32 then Some(NumeralValue(s)) else None
  }

  /** Parsing the decimal text of any 32-bit integer gives it back. */
  lemma ParseIntOfIntToString(n: int)
    requires MinInt32 <= n <= MaxInt32
    ensures ParseInt(IntToString(n)) == Some(n)
  {
    var s := IntToString(n);
    if n < 0 {
      var ds := NatToString(-n);
      assert s[1..] == ds;
      assert IsDigit(ds[0]);
      DigitsValueOfNatToString(-n);
    } else {
      DigitsValueOfNatToString(n);
    }
  }

  /** The empty string, a lone sign and text with a non-digit are
      refused. */
  lemma ParseIntRejects()
    ensures ParseInt("").None? && ParseInt("-").None? && ParseInt("+").None? && ParseInt("1a").None?
  {
    assert !IsDigit("1a"[1]);
  }

  // ---------------------------------------------------------------------
  // Handlers

  /** POST /api/orders: a null body is a bad request that never reaches the
      service; a failure of the service escapes. */
  method CreateOrder(service: OrderService, auth: Authentication, order: Option<Order>, orderId: int, now: int)
    returns (out: Outcome<Order>)
    requires service.users.Valid() && service.Valid()
    modifies service
    ensures service.Valid()
    ensures order.None? ==> out == Returned(BadRequest("订单信息不能为空")) && service.orders == old(service.orders)
    ensures order.Some? && service.users.FindByUsername(auth.name).None? ==> out == Thrown(UserNotFoundMessage)
    ensures out.Returned? && out.response.code == SuccessCode ==>
              out.response.message == "订单创建成功" && out.response.data.Some?
              && var o := out.response.data.value;
                 o.orderId == orderId && o.status == 0 && o.createdAt == now
                 && service.orders == old(service.orders)[orderId := o]
    ensures out.Thrown? || out.response.code == SuccessCode || service.orders == old(service.orders)
    ensures order.Some? && service.users.FindByUsername(auth.name).Some? && orderId !in old(service.orders) ==>
              out == Returned(SuccessWith("订单创建成功",
                       Some(order.value.(status := 0, createdBy := service.users.FindByUsername(auth.name).value.userId,
                                         createdAt := now, orderId := orderId))))
    ensures order.Some? && service.users.FindByUsername(auth.name).Some? && orderId in old(service.orders) ==>
              out == Thrown(DuplicateOrderIdMessage)
    ensures out.Thrown? ==> service.orders == old(service.orders)
  {
    if order.None? {
      return Returned(BadRequest("订单信息不能为空"));
    }
    var created := service.CreateOrder(order.value, auth.name, orderId, now);
    if created.Err? {
      return Thrown(created.error);
    }
    out := Returned(SuccessWith("订单创建成功", Some(created.value)));
  }

  /** GET /api/orders/my: the requester's own orders. */
  function GetMyOrders(service: OrderService, auth: Authentication): (out: Outcome<seq<Order>>)
    reads service, service.users
    requires service.users.Valid()
    ensures out.Thrown? <==> service.users.FindByUsername(auth.name).None?
    ensures out.Returned? ==> out.response == Success(Some(OwnOrders(service.orders, service.users.FindByUsername(auth.name).value.userId)))
  {
    match service.GetOrdersByUsername(auth.name)
    case Err(m) => Thrown(m)
    case Ok(list) => Returned(Success(Some(list)))
  }

  /** GET /api/orders/{orderId}: 404 with one message for a missing order
      and for one the requester may not see. */
  function GetOrderDetail(service: OrderService, auth: Authentication, orderId: Option<int>): (out: Outcome<Order>)
    reads service, service.users
    requires service.users.Valid()
    ensures orderId.None? ==> out == Returned(BadRequest("订单ID不能为空"))
    ensures orderId.Some? ==> (out.Thrown? <==> service.users.FindByUsername(auth.name).None?)
    ensures orderId.Some? && out.Returned? ==>
              var u := service.users.FindByUsername(auth.name).value;
              if orderId.value in service.orders && CanView(service.orders[orderId.value], u)
              then out.response == Success(Some(service.orders[orderId.value]))
              else out.response == NotFound("订单不存在或无权查看")
  {
    if orderId.None? then Returned(BadRequest("订单ID不能为空"))
    else match service.GetOrderDetail(orderId.value, auth.name)
      case Err(m) => Thrown(m)
      case Ok(None) => Returned(NotFound("订单不存在或无权查看"))
      case Ok(Some(o)) => Returned(Success(Some(o)))
  }

  /** The "status" value of the request body, and whether it parses. */
  function StatusArgument(statusMap: map<string, Option<string>>): Option<string> {
    if "status" in statusMap then statusMap["status"] else None
  }

  /** PUT /api/orders/{orderId}/status (ADMIN or STAFF): a missing or
      non-numeric status is a bad request that never reaches the service;
      otherwise the service's verdict becomes 200 or 500. */
  method UpdateOrderStatus(service: OrderService, auth: Authentication, orderId: Option<int>,
                           statusMap: map<string, Option<string>>, now: int, rowUpdated: bool)
    returns (resp: Response<string>)
    requires IsAdminOrStaff(auth)
    requires service.users.Valid() && service.Valid()
    modifies service, service.statusLogs, service.operationLogs
    ensures service.Valid()
    ensures orderId.None? ==> resp == BadRequest("订单ID不能为空")
    ensures orderId.Some? && StatusArgument(statusMap).None? ==> resp == BadRequest("缺少状态参数")
    ensures orderId.Some? && StatusArgument(statusMap).Some? && ParseInt(StatusArgument(statusMap).value).None? ==>
              resp == BadRequest("状态参数格式错误")
    ensures resp.code == BadRequestCode ==>
              service.orders == old(service.orders) && service.statusLogs.rows == old(service.statusLogs.rows)
              && service.operationLogs.rows == old(service.operationLogs.rows)
    ensures orderId.Some? && StatusArgument(statusMap).Some? && ParseInt(StatusArgument(statusMap).value).Some? ==>
              var target := ParseInt(StatusArgument(statusMap).value).value;
              var found := orderId.value in old(service.orders) && service.StatusOperator(Some(auth.name)).Some?;
              && (found && rowUpdated ==> resp == Success(Some("订单状态更新成功")))
              && (!(found && rowUpdated) ==> resp == ServerError("订单状态更新失败"))
              && (!found ==> service.orders == old(service.orders)
                             && service.statusLogs.rows == old(service.statusLogs.rows)
                             && service.operationLogs.rows == old(service.operationLogs.rows))
              && (found ==>
                    var uid := service.StatusOperator(Some(auth.name)).value.userId;
                    var order := old(service.orders)[orderId.value];
                    && service.statusLogs.rows == old(service.statusLogs.rows) + [StatusLogRow(order, target, uid, now)]
                    && service.operationLogs.rows
                       == old(service.operationLogs.rows) + [StatusOperationRow(order, target, uid, now)]
                    && service.orders == (if rowUpdated then AfterStatusUpdate(old(service.orders), orderId.value, target, now)
                                          else old(service.orders)))
  {
    if orderId.None? {
      return BadRequest("订单ID不能为空");
    }
    var statusStr := StatusArgument(statusMap);
    if statusStr.None? {
      return BadRequest("缺少状态参数");
    }
    var targetStatus := ParseInt(statusStr.value);
    if targetStatus.None? {
      return BadRequest("状态参数格式错误");
    }
    var success := service.UpdateOrderStatus(orderId.value, targetStatus.value, Some(auth.name), now, rowUpdated);
    if !success {
      return ServerError("订单状态更新失败");
    }
    resp := Success(Some("订单状态更新成功"));
  }

  /** DELETE /api/orders/{orderId} (ADMIN only). */
  method DeleteOrder(service: OrderService, auth: Authentication, orderId: Option<int>) returns (resp: Response<string>)
    requires HasRole(auth, "ADMIN")
    requires service.Valid()
    modifies service
    ensures service.Valid()
    ensures orderId.None? ==> resp == BadRequest("订单ID不能为空") && service.orders == old(service.orders)
    ensures orderId.Some? ==>
              var ok := orderId.value in old(service.orders) && old(service.orders)[orderId.value].status <= 0;
              && (ok ==> resp == Success(Some("订单删除成功")) && service.orders == old(service.orders) - {orderId.value})
              && (!ok ==> resp == ServerError("订单删除失败") && service.orders == old(service.orders))
  {
    if orderId.None? {
      return BadRequest("订单ID不能为空");
    }
    var success := service.DeleteOrder(orderId.value);
    if !success {
      return ServerError("订单删除失败");
    }
    resp := Success(Some("订单删除成功"));
  }

  /** GET /api/orders/stats (ADMIN or STAFF). */
  method GetOrderStats(service: OrderService, auth: Authentication, startOfToday: int) returns (resp: Response<map<string, int>>)
    requires IsAdminOrStaff(auth)
    ensures IsSuccess(resp) && resp.data.Some?
    ensures var stats := resp.data.value;
            && TotalOrdersKey in stats && stats[TotalOrdersKey] == |service.orders|
            && (forall k :: 0 <= k <= 4 ==> StatusCountKey(k) in stats && stats[StatusCountKey(k)] == StatusCount(service.orders, k))
            && TodayOrdersKey in stats && stats[TodayOrdersKey] == TodayCount(service.orders, startOfToday)
  {
    var stats := service.GetOrderStats(startOfToday);
    resp := Success(Some(stats));
  }

  /** GET /api/orders/list (ADMIN or STAFF): the service's page, as is. */
  function GetAllOrders(service: OrderService, auth: Authentication, keyword: Option<string>,
                        matches: Order -> bool, page: int, size: int): (resp: Response<OrderPage>)
    reads service
    requires IsAdminOrStaff(auth)
    ensures IsSuccess(resp) && resp.data == Some(AllOrders(service.orders, keyword, matches, page, size))
  {
    Success(Some(service.GetAllOrders(keyword, matches, page, size)))
  }

  /** GET /api/orders/recent (ADMIN or STAFF). */
  function GetRecentOrders(service: OrderService, auth: Authentication): (resp: Response<seq<Order>>)
    reads service
    requires IsAdminOrStaff(auth)
    ensures IsSuccess(resp) && resp.data == Some(RecentOrders(service.orders))
  {
    Success(Some(service.GetRecentOrders()))
  }

  /** One entry of the status drop-down: the map with keys "value" and
      "label". The second field is named `caption` because `label` is a
      reserved word here. */
  datatype StatusOption = StatusOption(value: int, caption: string)

  /** GET /api/orders/status-options (ADMIN or STAFF): the five statuses in
      order, each with the label getStatusText gives it. */
  method GetOrderStatusOptions(auth: Authentication) returns (resp: Response<seq<StatusOption>>)
    requires IsAdminOrStaff(auth)
    ensures IsSuccess(resp) && resp.data.Some?
    ensures var options := resp.data.value;
            && |options| == 5
            && forall k :: 0 <= k < 5 ==> options[k].value == k && options[k].caption == StatusText(k)
  {
    var statusOptions: seq<StatusOption> := [];
    statusOptions := statusOptions + [StatusOption(0, "已创建")];
    statusOptions := statusOptions + [StatusOption(1, "已揽收")];
    statusOptions := statusOptions + [StatusOption(2, "运输中")];
    statusOptions := statusOptions + [StatusOption(3, "派送中")];
    statusOptions := statusOptions + [StatusOption(4, "已签收")];
    resp := Success(Some(statusOptions));
  }

  /** Every option the drop-down offers is a target canTransitTo accepts
      from some other status, and none is refused as out of range. */
  lemma StatusOptionsAreDefined(o: Order, k: int)
    requires 0 <= k < 5 && o.status != k
    ensures CanTransitTo(o, k).None?
  {
  }
}

=== FILE: order_service.dfy ===
/** The order service: the order table and the two log tables it writes
    (backend service/impl/OrderServiceImpl.java). The clock and the
    millisecond order id are parameters; the current operator's name is the
    authentication's name, passed in. */
module OrderServiceImpl {
  import opened Common
  import opened OrderEntity
  import opened UserEntity
  import opened UserServiceImpl
  import opened OrderStatusLogServiceImpl
  import opened OperationLogServiceImpl
  import opened Listing

  /** The message of the RuntimeException thrown for an unknown user. */
  const UserNotFoundMessage := "用户不存在"
  /** Stands for the DuplicateKeyException that the insert of an order
      whose id is already stored raises; the source has no message of its
      own for it. */
  const DuplicateOrderIdMessage := "重复的订单ID"
  const StatusUpdateOperation := "更新状态"
  const RecentLimit := 10

  /** Order visibility: the creator, or a user whose role is "admin" or
      "staff" in any letter case. A null role matches neither. */
  predicate CanView(o: Order, u: User) {
    o.createdBy == u.userId
    || (u.role.Some? && (EqualsIgnoreCase(AdminRole, u.role.value) || EqualsIgnoreCase(StaffRole, u.role.value)))
  }

  /** Role case matters nowhere else, but here an "ADMIN" sees every order
      although isAdmin is false for it. */
  lemma UpperCaseAdminSeesAll(o: Order, u: User)
    requires u.role == Some("ADMIN")
    ensures CanView(o, u) && !IsAdmin(u)
  {
    RoleChecksAreCaseSensitive(u);
    assert EqualsIgnoreCase(AdminRole, u.role.value) by {
      assert forall i :: 0 <= i < 5 ==> UpperChar(AdminRole[i]) == UpperChar("ADMIN"[i]);
    }
  }

  /** The detail text of the operation-log row of a status change. */
  function StatusChangeDetail(oldStatus: int, newStatus: int): string {
    "订单状态从" + IntToString(oldStatus) + "变更为" + IntToString(newStatus)
  }

  /** The status-log row of a status change. */
  function StatusLogRow(o: Order, status: int, operatorId: int, now: int): (row: OrderStatusLog)
    ensures row.orderId == o.orderId && row.oldStatus == o.status && row.newStatus == status
    ensures row.storeId == o.currentStoreId && row.operatorId == operatorId && row.createdAt == now
  {
    OrderStatusLog(o.orderId, o.status, status, o.currentStoreId, operatorId, now)
  }

  /** The operation-log row of a status change. */
  function StatusOperationRow(o: Order, status: int, operatorId: int, now: int): (row: OperationLog)
    ensures row.operatorId == Some(operatorId) && row.targetId == Some(o.orderId)
    ensures row.operationType == Some(StatusUpdateOperation) && row.ipAddress.None?
    ensures row.detail == Some(StatusChangeDetail(o.status, status)) && row.createdAt == Some(now)
  {
    OperationLog(Some(operatorId), Some(StatusUpdateOperation), Some(o.orderId),
                 Some(StatusChangeDetail(o.status, status)), None, Some(now))
  }

  /** The order table after a status change: the order holds the target
      status, whatever it is, and the update time; every other order is as
      it was. */
  function AfterStatusUpdate(orders: map<int, Order>, orderId: int, status: int, now: int): (t: map<int, Order>)
    requires orderId in orders
    ensures t.Keys == orders.Keys
    ensures t[orderId] == orders[orderId].(status := status, updatedAt := Some(now))
    ensures forall id :: id in orders && id != orderId ==> t[id] == orders[id]
  {
    orders[orderId := orders[orderId].(status := status, updatedAt := Some(now))]
  }

  /** The status change skips canTransitTo: a target the rule refuses
      (the current status, or one outside 0..4) is stored all the same. */
  lemma StatusUpdateBypassesTransitionRule(orders: map<int, Order>, orderId: int, status: int, now: int)
    requires orderId in orders
    requires CanTransitTo(orders[orderId], status).Some?
    ensures AfterStatusUpdate(orders, orderId, status, now)[orderId].status == status
    ensures status == orders[orderId].status || !IsDefinedStatus(status)
  {
  }

  /** The newStatus of the last status-log row of an order, if any. */
  function LastLoggedStatus(rows: seq<OrderStatusLog>, orderId: int): (s: Option<int>)
    ensures s.Some? <==> exists i :: 0 <= i < |rows| && rows[i].orderId == orderId
  {
    if |rows| == 0 then None
    else if rows[|rows| - 1].orderId == orderId then Some(rows[|rows| - 1].newStatus)
    else
      var s := LastLoggedStatus(rows[..|rows| - 1], orderId);
      assert forall i :: 0 <= i < |rows| - 1 ==> rows[..|rows| - 1][i] == rows[i];
      s
  }

  /** The status log replays the order table: every stored order holds the
      newStatus of its last log row, or the initial status 0 when it has
      none. */
  ghost predicate StatusReplays(orders: map<int, Order>, rows: seq<OrderStatusLog>) {
    forall id :: id in orders ==> orders[id].status == LastLoggedStatus(rows, id).GetOr(0)
  }

  /** When the final UPDATE of a status change reaches no row, the status
      log names a target the order table does not hold, so the log no
      longer replays the table. */
  lemma LostUpdateBreaksReplay(orders: map<int, Order>, rows: seq<OrderStatusLog>, orderId: int,
                               status: int, operatorId: int, now: int)
    requires orderId in orders && orders[orderId].orderId == orderId && status != orders[orderId].status
    ensures !StatusReplays(orders, rows + [StatusLogRow(orders[orderId], status, operatorId, now)])
  {
    var row := StatusLogRow(orders[orderId], status, operatorId, now);
    LastLoggedAppend(rows, row, orderId);
    assert orders[orderId].status != LastLoggedStatus(rows + [row], orderId).GetOr(0);
  }

  lemma LastLoggedAppend(rows: seq<OrderStatusLog>, row: OrderStatusLog, id: int)
    ensures LastLoggedStatus(rows + [row], id) == if row.orderId == id then Some(row.newStatus) else LastLoggedStatus(rows, id)
  {
    assert (rows + [row])[..|rows|] == rows;
  }

  /** A status change keeps the log and the table in step. */
  lemma StatusUpdateReplays(orders: map<int, Order>, rows: seq<OrderStatusLog>, orderId: int,
                            status: int, operatorId: int, now: int)
    requires orderId in orders && orders[orderId].orderId == orderId
    requires StatusReplays(orders, rows)
    ensures StatusReplays(AfterStatusUpdate(orders, orderId, status, now),
                          rows + [StatusLogRow(orders[orderId], status, operatorId, now)])
  {
    var row := StatusLogRow(orders[orderId], status, operatorId, now);
    var t := AfterStatusUpdate(orders, orderId, status, now);
    forall id | id in t ensures t[id].status == LastLoggedStatus(rows + [row], id).GetOr(0) {
      LastLoggedAppend(rows, row, id);
    }
  }

  /** Creating an order under an id with no log rows keeps the log and the
      table in step. */
  lemma CreateReplays(orders: map<int, Order>, rows: seq<OrderStatusLog>, o: Order)
    requires StatusReplays(orders, rows)
    requires o.status == 0 && LastLoggedStatus(rows, o.orderId).None?
    ensures StatusReplays(orders[o.orderId := o], rows)
  {
  }

  /** Deleting an order keeps the log and the table in step. */
  lemma DeleteReplays(orders: map<int, Order>, rows: seq<OrderStatusLog>, orderId: int)
    requires StatusReplays(orders, rows)
    ensures StatusReplays(orders - {orderId}, rows)
  {
  }

  /** The orders with a given status: COUNT(*) WHERE status = k. */
  function StatusCount(orders: map<int, Order>, k: int): nat {
    |set id | id in orders && orders[id].status == k|
  }

  /** The orders with a status below k and at least 0. */
  function StatusBelow(orders: map<int, Order>, k: int): set<int> {
    set id | id in orders && 0 <= orders[id].status < k
  }

  function StatusCountSum(orders: map<int, Order>, k: nat): nat {
    if k == 0 then 0 else StatusCountSum(orders, k - 1) + StatusCount(orders, k - 1)
  }

  lemma {:induction false} StatusCountSumIsBelow(orders: map<int, Order>, k: nat)
    ensures StatusCountSum(orders, k) == |StatusBelow(orders, k)|
  {
    if k == 0 {
      assert StatusBelow(orders, 0) == {};
    } else {
      StatusCountSumIsBelow(orders, k - 1);
      var at := set id | id in orders && orders[id].status == k - 1;
      assert StatusBelow(orders, k) == StatusBelow(orders, k - 1) + at;
      assert StatusBelow(orders, k - 1) * at == {};
    }
  }

  lemma StatusCountSumFive(orders: map<int, Order>)
    ensures StatusCountSum(orders, 5) == StatusCount(orders, 0) + StatusCount(orders, 1) + StatusCount(orders, 2)
                                         + StatusCount(orders, 3) + StatusCount(orders, 4)
  {
    assert StatusCountSum(orders, 1) == StatusCount(orders, 0);
    assert StatusCountSum(orders, 2) == StatusCountSum(orders, 1) + StatusCount(orders, 1);
    assert StatusCountSum(orders, 3) == StatusCountSum(orders, 2) + StatusCount(orders, 2);
    assert StatusCountSum(orders, 4) == StatusCountSum(orders, 3) + StatusCount(orders, 3);
  }

  /** The per-status counts never add up to more than the total. */
  lemma StatusCountsWithinTotal(orders: map<int, Order>)
    ensures StatusCount(orders, 0) + StatusCount(orders, 1) + StatusCount(orders, 2)
            + StatusCount(orders, 3) + StatusCount(orders, 4) <= |orders|
  {
    StatusCountSumIsBelow(orders, 5);
    StatusCountSumFive(orders);
    SubsetSize(StatusBelow(orders, 5), orders.Keys);
  }

  /** The counts add up to the total exactly when every order holds a
      defined status. */
  lemma StatusCountsCoverDefined(orders: map<int, Order>)
    requires forall id :: id in orders ==> IsDefinedStatus(orders[id].status)
    ensures StatusCount(orders, 0) + StatusCount(orders, 1) + StatusCount(orders, 2)
            + StatusCount(orders, 3) + StatusCount(orders, 4) == |orders|
  {
    StatusCountSumIsBelow(orders, 5);
    StatusCountSumFive(orders);
    forall id | id in orders ensures id in StatusBelow(orders, 5) {
      assert IsDefinedStatus(orders[id].status);
    }
    assert StatusBelow(orders, 5) == orders.Keys;
  }

  function TodayCount(orders: map<int, Order>, startOfToday: int): nat {
    |set id | id in orders && orders[id].createdAt >= startOfToday|
  }

  const TotalOrdersKey := "totalOrders"
  const TodayOrdersKey := "todayOrders"

  /** The stats key of status k: "status" + k + "Count". */
  function StatusCountKey(k: int): string {
    "status" + IntToString(k) + "Count"
  }

  lemma StatusCountKeysDistinct(j: int, k: int)
    requires 0 <= j <= 4 && 0 <= k <= 4
    ensures j != k ==> StatusCountKey(j) != StatusCountKey(k)
    ensures StatusCountKey(k) != TotalOrdersKey && StatusCountKey(k) != TodayOrdersKey
  {
    SingleDigitText(j);
    SingleDigitText(k);
    assert StatusCountKey(j)[6] == DigitChar(j) && StatusCountKey(k)[6] == DigitChar(k);
    assert StatusCountKey(k)[0] != TotalOrdersKey[0] && StatusCountKey(k)[0] != TodayOrdersKey[0];
    if j != k {
      assert DigitValue(DigitChar(j)) == j;
    }
  }

  function OrderCreatedAt(o: Order): Option<int> { Some(o.createdAt) }

  /** WHERE created_by = uid. */
  function CreatedBy(uid: int): Order -> bool {
    (o: Order) => o.createdBy == uid
  }

  /** No WHERE clause. */
  function AnyOrder(o: Order): bool { true }

  /** The orders created by user uid, newest first. */
  function OwnOrders(orders: map<int, Order>, uid: int): (r: seq<Order>)
  {
    Select(orders, CreatedBy(uid), OrderCreatedAt)
  }

  /** The own-orders listing holds only the user's own stored orders. */
  lemma OwnOrdersSound(orders: map<int, Order>, uid: int)
    ensures var r := OwnOrders(orders, uid);
            forall i :: 0 <= i < |r| ==> r[i].createdBy == uid && RowOf(orders, r[i])
  {
    SelectSound(orders, CreatedBy(uid), OrderCreatedAt);
  }

  /** The own-orders listing holds every order the user created. */
  lemma OwnOrdersComplete(orders: map<int, Order>, uid: int, id: int)
    requires id in orders && orders[id].createdBy == uid
    ensures orders[id] in OwnOrders(orders, uid)
  {
    assert CreatedBy(uid)(orders[id]);
    SelectComplete(orders, CreatedBy(uid), OrderCreatedAt, id);
  }

  /** The own-orders listing is newest first. */
  lemma OwnOrdersNewestFirst(orders: map<int, Order>, uid: int)
    ensures var r := OwnOrders(orders, uid);
            forall a, b :: 0 <= a < b < |r| ==> r[a].createdAt >= r[b].createdAt
  {
    var r := OwnOrders(orders, uid);
    SelectNewestFirst(orders, CreatedBy(uid), OrderCreatedAt);
    forall a, b | 0 <= a < b < |r| ensures r[a].createdAt >= r[b].createdAt {
      NewerOrSameValues(r[a].createdAt, r[b].createdAt);
    }
  }

  /** The first page of ten orders of the whole table, newest first. */
  function RecentOrders(orders: map<int, Order>): (r: seq<Order>)
    ensures |r| <= RecentLimit
  {
    PageOf(Select(orders, AnyOrder, OrderCreatedAt), 1, RecentLimit)
  }

  /** There are ten recent orders, or all of them when there are fewer. */
  lemma RecentOrdersLength(orders: map<int, Order>)
    ensures |RecentOrders(orders)| == if |orders| < RecentLimit then |orders| else RecentLimit
  {
    forall id | id in orders ensures id in MatchingIds(orders, AnyOrder) {
      assert AnyOrder(orders[id]);
    }
    assert MatchingIds(orders, AnyOrder) == orders.Keys;
  }

  /** The recent orders are the newest ones: an order left out is no newer
      than any listed one, and then the list is full. */
  lemma RecentOrdersAreNewest(orders: map<int, Order>, id: int)
    requires id in orders
    ensures var r := RecentOrders(orders);
            orders[id] in r
            || (|r| == RecentLimit && forall i :: 0 <= i < |r| ==> r[i].createdAt >= orders[id].createdAt)
  {
    var all := Select(orders, AnyOrder, OrderCreatedAt);
    assert RecentOrders(orders) == PageOf(all, 1, RecentLimit);
    assert AnyOrder(orders[id]);
    SelectComplete(orders, AnyOrder, OrderCreatedAt, id);
    SelectNewestFirst(orders, AnyOrder, OrderCreatedAt);
    var j :| 0 <= j < |all| && all[j] == orders[id];
    FirstPageHoldsNewest(all, RecentLimit, OrderCreatedAt, j);
    var r := RecentOrders(orders);
    if orders[id] !in r {
      forall i | 0 <= i < |r| ensures r[i].createdAt >= orders[id].createdAt {
        assert NewerOrSame(OrderCreatedAt(r[i]), OrderCreatedAt(all[j]));
        NewerOrSameValues(r[i].createdAt, all[j].createdAt);
      }
    }
  }

  /** The recent orders are newest first. */
  lemma RecentOrdersNewestFirst(orders: map<int, Order>)
    ensures var r := RecentOrders(orders);
            forall a, b :: 0 <= a < b < |r| ==> r[a].createdAt >= r[b].createdAt
  {
    var all := Select(orders, AnyOrder, OrderCreatedAt);
    var r := RecentOrders(orders);
    assert r == PageOf(all, 1, RecentLimit);
    SelectNewestFirst(orders, AnyOrder, OrderCreatedAt);
    PageNewestFirst(all, 1, RecentLimit, OrderCreatedAt);
    forall a, b | 0 <= a < b < |r| ensures r[a].createdAt >= r[b].createdAt {
      NewerOrSameValues(r[a].createdAt, r[b].createdAt);
    }
  }

  /** The keyword condition of getAllOrders: a null keyword, or one that
      is empty once trimmed, adds no condition; any other keeps the orders
      `matches` accepts, the LIKE search over the receiver and sender
      columns. */
  function AllOrdersFilter(keyword: Option<string>, matches: Order -> bool): Order -> bool {
    if keyword.Some? && Trim(keyword.value) != "" then matches else AnyOrder
  }

  /** The result map of getAllOrders without "pages"; `current` is the page
      MyBatis-Plus reports (at least 1). */
  datatype OrderPage = OrderPage(orders: seq<Order>, total: nat, current: int, size: int)

  /** getAllOrders: the orders the keyword keeps, newest first, one page of
      them, and how many the keyword keeps (0 for a negative size, which
      skips the count). */
  function AllOrders(orders: map<int, Order>, keyword: Option<string>, matches: Order -> bool,
                     page: int, size: int): (r: OrderPage)
    ensures size >= 0 ==> r.total == CountWhere(orders, AllOrdersFilter(keyword, matches)) && |r.orders| <= size
    ensures size < 0 ==> r.total == 0 && |r.orders| == CountWhere(orders, AllOrdersFilter(keyword, matches))
    ensures r.current == (if page > 1 then page else 1) && r.size == size
  {
    var keep := AllOrdersFilter(keyword, matches);
    OrderPage(PageOf(Select(orders, keep, OrderCreatedAt), page, size), PageTotal(orders, keep, size),
              if page > 1 then page else 1, size)
  }

  /** Every listed order is stored and passes the keyword condition. */
  lemma AllOrdersSound(orders: map<int, Order>, keyword: Option<string>, matches: Order -> bool, page: int, size: int)
    ensures var r := AllOrders(orders, keyword, matches, page, size).orders;
            forall i :: 0 <= i < |r| ==> RowOf(orders, r[i]) && AllOrdersFilter(keyword, matches)(r[i])
  {
    var keep := AllOrdersFilter(keyword, matches);
    var all := Select(orders, keep, OrderCreatedAt);
    var r := AllOrders(orders, keyword, matches, page, size).orders;
    assert r == PageOf(all, page, size);
    SelectSound(orders, keep, OrderCreatedAt);
    forall i | 0 <= i < |r| ensures RowOf(orders, r[i]) && keep(r[i]) {
      if size >= 0 {
        assert r[i] == all[Offset(page, size) + i];
      }
    }
  }

  /** Unpaged, every order the keyword keeps is listed. */
  lemma AllOrdersComplete(orders: map<int, Order>, keyword: Option<string>, matches: Order -> bool,
                          page: int, size: int, id: int)
    requires size < 0 && id in orders && AllOrdersFilter(keyword, matches)(orders[id])
    ensures orders[id] in AllOrders(orders, keyword, matches, page, size).orders
  {
    SelectComplete(orders, AllOrdersFilter(keyword, matches), OrderCreatedAt, id);
  }

  /** The listed orders are newest first. */
  lemma AllOrdersNewestFirst(orders: map<int, Order>, keyword: Option<string>, matches: Order -> bool,
                             page: int, size: int)
    ensures var r := AllOrders(orders, keyword, matches, page, size).orders;
            forall a, b :: 0 <= a < b < |r| ==> r[a].createdAt >= r[b].createdAt
  {
    var keep := AllOrdersFilter(keyword, matches);
    var all := Select(orders, keep, OrderCreatedAt);
    var r := AllOrders(orders, keyword, matches, page, size).orders;
    assert r == PageOf(all, page, size);
    SelectNewestFirst(orders, keep, OrderCreatedAt);
    PageNewestFirst(all, page, size, OrderCreatedAt);
    forall a, b | 0 <= a < b < |r| ensures r[a].createdAt >= r[b].createdAt {
      NewerOrSameValues(r[a].createdAt, r[b].createdAt);
    }
  }

  /** A blank keyword keeps every order, whatever the search would match:
      the total counts them all, and unpaged all of them are listed. */
  lemma BlankKeywordCountsAll(orders: map<int, Order>, keyword: Option<string>, matches: Order -> bool,
                              page: int, size: int)
    requires keyword.None? || Trim(keyword.value) == ""
    ensures size >= 0 ==> AllOrders(orders, keyword, matches, page, size).total == |orders|
    ensures size < 0 ==> |AllOrders(orders, keyword, matches, page, size).orders| == |orders|
  {
    forall id | id in orders ensures id in MatchingIds(orders, AllOrdersFilter(keyword, matches)) {
      assert AnyOrder(orders[id]);
    }
    assert MatchingIds(orders, AllOrdersFilter(keyword, matches)) == orders.Keys;
  }

  class OrderService {
    /** The express_order table, keyed by order id. */
    var orders: map<int, Order>
    const users: UserService
    const statusLogs: OrderStatusLogService
    const operationLogs: OperationLogService

    /** Each order is stored under its own id. */
    ghost predicate Valid()
      reads this
    {
      forall id :: id in orders ==> orders[id].orderId == id
    }

    constructor (users: UserService, statusLogs: OrderStatusLogService, operationLogs: OperationLogService)
      ensures orders == map[] && Valid()
      ensures this.users == users && this.statusLogs == statusLogs && this.operationLogs == operationLogs
    {
      orders := map[];
      this.users := users;
      this.statusLogs := statusLogs;
      this.operationLogs := operationLogs;
    }

    /** createOrder: the requester must resolve to a user; the order is
        stored with status 0, the user as creator, the current time and the
        supplied id, whatever the caller put in those fields. No log row is
        written. */
    method CreateOrder(order: Order, username: string, orderId: int, now: int) returns (r: Result<Order, string>)
      requires users.Valid() && Valid()
      modifies this
      ensures Valid()
      ensures users.FindByUsername(username).None? ==> r == Err(UserNotFoundMessage) && orders == old(orders)
      ensures users.FindByUsername(username).Some? && orderId in old(orders) ==>
                r == Err(DuplicateOrderIdMessage) && orders == old(orders)
      ensures users.FindByUsername(username).Some? && orderId !in old(orders) ==>
                r == Ok(order.(status := 0, createdBy := users.FindByUsername(username).value.userId,
                               createdAt := now, orderId := orderId))
                && orders == old(orders)[orderId := r.value]
    {
      var user := users.FindByUsername(username);
      if user.None? {
        return Err(UserNotFoundMessage);
      }
      var created := order.(status := 0, createdBy := user.value.userId, createdAt := now, orderId := orderId);
      if orderId in orders {
        return Err(DuplicateOrderIdMessage);
      }
      orders := orders[orderId := created];
      r := Ok(created);
    }

    /** getOrdersByUsername: the requester's own orders, newest first. */
    function GetOrdersByUsername(username: string): (r: Result<seq<Order>, string>)
      reads this, users
      requires users.Valid()
      ensures r.Err? <==> users.FindByUsername(username).None?
      ensures r.Err? ==> r.error == UserNotFoundMessage
      ensures r.Ok? ==> r.value == OwnOrders(orders, users.FindByUsername(username).value.userId)
    {
      var user := users.FindByUsername(username);
      if user.None? then Err(UserNotFoundMessage)
      else Ok(OwnOrders(orders, user.value.userId))
    }

    /** getOrderDetail: the requester must resolve to a user; then the order
        if it exists and is visible to them, else nothing. A missing and a
        hidden order look the same. */
    function GetOrderDetail(orderId: int, username: string): (r: Result<Option<Order>, string>)
      reads this, users
      requires users.Valid()
      ensures r.Err? <==> users.FindByUsername(username).None?
      ensures r.Err? ==> r.error == UserNotFoundMessage
      ensures r.Ok? ==> (r.value.Some? <==> orderId in orders && CanView(orders[orderId], users.FindByUsername(username).value))
      ensures r.Ok? && r.value.Some? ==> r.value.value == orders[orderId]
    {
      var user := users.FindByUsername(username);
      if user.None? then Err(UserNotFoundMessage)
      else if orderId !in orders then Ok(None)
      else if CanView(orders[orderId], user.value) then Ok(Some(orders[orderId]))
      else Ok(None)
    }

    /** The operator of a status change: the authentication's name must be
        non-null, non-empty and resolve to a user. */
    function StatusOperator(operator: Option<string>): (u: Option<User>)
      reads this, users
      requires users.Valid()
      ensures u.Some? <==> operator.Some? && operator.value != "" && users.HasUsername(operator.value)
      ensures u.Some? ==> u.value.username == operator.value
    {
      if operator.None? || operator.value == "" then None else users.FindByUsername(operator.value)
    }

    /** updateById for an order read from the table: the new row replaces
        the stored one; false when no row has that id. */
    method UpdateById(o: Order) returns (affected: bool)
      modifies this
      ensures affected <==> o.orderId in old(orders)
      ensures orders == if affected then old(orders)[o.orderId := o] else old(orders)
    {
      affected := o.orderId in orders;
      if affected {
        orders := orders[o.orderId := o];
      }
    }

    /** updateOrderStatus: with an existing order and a resolvable operator,
        appends one status-log row, then one operation-log row, then asks
        the database to store the target status (not checked against
        canTransitTo). `rowUpdated` is the database's answer to that last
        UPDATE: it is false when the row is gone by then (deleted by
        another request after it was read), and the method then returns
        false with both log rows already written. A failed precondition
        returns false and writes nothing. */
    method UpdateOrderStatus(orderId: int, status: int, operator: Option<string>, now: int, rowUpdated: bool)
      returns (ok: bool)
      requires users.Valid() && Valid()
      modifies this, statusLogs, operationLogs
      ensures Valid()
      ensures ok <==> orderId in old(orders) && StatusOperator(operator).Some? && rowUpdated
      ensures !(orderId in old(orders) && StatusOperator(operator).Some?) ==>
                orders == old(orders) && statusLogs.rows == old(statusLogs.rows)
                && operationLogs.rows == old(operationLogs.rows)
      ensures orderId in old(orders) && StatusOperator(operator).Some? ==>
                var uid := StatusOperator(operator).value.userId;
                && statusLogs.rows == old(statusLogs.rows) + [StatusLogRow(old(orders)[orderId], status, uid, now)]
                && operationLogs.rows == old(operationLogs.rows) + [StatusOperationRow(old(orders)[orderId], status, uid, now)]
                && orders == (if rowUpdated then AfterStatusUpdate(old(orders), orderId, status, now) else old(orders))
      ensures old(StatusReplays(orders, statusLogs.rows)) && (ok || statusLogs.rows == old(statusLogs.rows)) ==>
                StatusReplays(orders, statusLogs.rows)
    {
      if orderId !in orders {
        return false;
      }
      var order := orders[orderId];
      if operator.None? || operator.value == "" {
        return false;
      }
      var user := users.FindByUsername(operator.value);
      if user.None? {
        return false;
      }
      ghost var rows0 := statusLogs.rows;
      var _ := statusLogs.CreateStatusLog(orderId, order.status, status, user.value.userId, order.currentStoreId, now);
      operationLogs.Save(StatusOperationRow(order, status, user.value.userId, now));
      if rowUpdated {
        ok := UpdateById(order.(status := status, updatedAt := Some(now)));
      } else {
        ok := false;
      }
      if StatusReplays(old(orders), rows0) && rowUpdated {
        StatusUpdateReplays(old(orders), rows0, orderId, status, user.value.userId, now);
      }
    }

    /** deleteOrder: only an existing order with status at most 0 is
        removed; otherwise false and nothing changes. */
    method DeleteOrder(orderId: int) returns (ok: bool)
      requires Valid()
      modifies this
      ensures Valid()
      ensures ok <==> orderId in old(orders) && old(orders)[orderId].status <= 0
      ensures orders == if ok then old(orders) - {orderId} else old(orders)
    {
      if orderId !in orders {
        return false;
      }
      if orders[orderId].status > 0 {
        return false;
      }
      orders := orders - {orderId};
      ok := true;
    }

    /** getOrderStats: the total, one count per status 0..4 and the orders
        created since the start of today. */
    method GetOrderStats(startOfToday: int) returns (stats: map<string, int>)
      ensures TotalOrdersKey in stats && stats[TotalOrdersKey] == |orders|
      ensures forall k :: 0 <= k <= 4 ==> StatusCountKey(k) in stats && stats[StatusCountKey(k)] == StatusCount(orders, k)
      ensures TodayOrdersKey in stats && stats[TodayOrdersKey] == TodayCount(orders, startOfToday)
      ensures stats.Keys == {TotalOrdersKey, TodayOrdersKey} + set k | 0 <= k <= 4 :: StatusCountKey(k)
    {
      stats := map[TotalOrdersKey := |orders|];
      var status := 0;
      while status <= 4
        invariant 0 <= status <= 5
        invariant TotalOrdersKey in stats && stats[TotalOrdersKey] == |orders|
        invariant forall k :: 0 <= k < status ==> StatusCountKey(k) in stats && stats[StatusCountKey(k)] == StatusCount(orders, k)
        invariant stats.Keys == {TotalOrdersKey} + set k | 0 <= k < status :: StatusCountKey(k)
      {
        forall k | 0 <= k < status ensures StatusCountKey(k) != StatusCountKey(status) {
          StatusCountKeysDistinct(k, status);
        }
        StatusCountKeysDistinct(status, status);
        stats := stats[StatusCountKey(status) := StatusCount(orders, status)];
        status := status + 1;
      }
      forall k | 0 <= k <= 4 ensures StatusCountKey(k) != TodayOrdersKey {
        StatusCountKeysDistinct(k, k);
      }
      stats := stats[TodayOrdersKey := TodayCount(orders, startOfToday)];
    }

    /** getAllOrders on the order table. */
    function GetAllOrders(keyword: Option<string>, matches: Order -> bool, page: int, size: int): (r: OrderPage)
      reads this
      ensures r == AllOrders(orders, keyword, matches, page, size)
    {
      AllOrders(orders, keyword, matches, page, size)
    }

    /** getRecentOrders: the first page of ten orders, newest first. */
    function GetRecentOrders(): (r: seq<Order>)
      reads this
      ensures r == RecentOrders(orders)
    {
      RecentOrders(orders)
    }
  }
}

=== FILE: permission.dfy ===
/** The front end's role tables (frontend/src/utils/permission.js): which
    named routes and which features each role may use. A JavaScript value
    that may be null, undefined or empty is an Option<string> whose None and
    "" are the falsy cases. */
module Permission {
  import opened Common

  const AdminRole := "admin"
  const StaffRole := "staff"
  const CustomerRole := "customer"

  const DashboardRoute := "Dashboard"
  const OrdersRoute := "Orders"
  const StoresRoute := "Stores"
  const UsersRoute := "Users"
  const StaffRoute := "Staff"
  const WorkLogsRoute := "WorkLogs"

  /** Truthiness of a string value. */
  predicate Truthy(s: Option<string>) { s.Some? && s.value != "" }

  /** rolePermissions[role]: the route list of a known role. */
  function RolePermissions(role: string): Option<seq<string>> {
    if role == AdminRole then Some([DashboardRoute, OrdersRoute, StoresRoute, UsersRoute, StaffRoute, WorkLogsRoute])
    else if role == StaffRole then Some([DashboardRoute, OrdersRoute, StoresRoute, WorkLogsRoute])
    else if role == CustomerRole then Some([OrdersRoute])
    else None
  }

  /** hasPermission: false for a falsy role or route name; otherwise
      whether the role's list includes the route. */
  function HasPermission(role: Option<string>, routeName: Option<string>): (b: bool)
    ensures !Truthy(role) || !Truthy(routeName) ==> !b
    ensures b ==> RolePermissions(role.value).Some? && routeName.value in RolePermissions(role.value).value
  {
    if !Truthy(role) || !Truthy(routeName) then false
    else match RolePermissions(role.value)
      case None => false
      case Some(routes) => routeName.value in routes
  }

  /** getAccessibleRoutes: the role's list, or [] for a falsy or unknown
      role. */
  function GetAccessibleRoutes(role: Option<string>): (routes: seq<string>)
    ensures !Truthy(role) || RolePermissions(role.value).None? ==> routes == []
  {
    if !Truthy(role) then [] else RolePermissions(role.value).GetOr([])
  }

  /** For a non-empty role the two lookups agree on every route name. */
  lemma AccessibleIffPermitted(role: Option<string>, x: string)
    requires Truthy(role)
    ensures x in GetAccessibleRoutes(role) <==> HasPermission(role, Some(x))
  {
    if x == "" {
      assert forall r :: r in GetAccessibleRoutes(role) ==> r != "";
    }
  }

  /** An unknown role may do nothing. */
  lemma UnknownRoleHasNothing(role: string, x: Option<string>)
    requires role != AdminRole && role != StaffRole && role != CustomerRole
    ensures !HasPermission(Some(role), x) && GetAccessibleRoutes(Some(role)) == []
  {
  }

  /** The tables are case-sensitive: the upper-case roles the back end
      stores for registered users and grants as authorities get nothing. */
  lemma UpperCaseRolesHaveNothing(x: Option<string>)
    ensures !HasPermission(Some("CUSTOMER"), x) && !HasPermission(Some("ADMIN"), x)
    ensures GetAccessibleRoutes(Some("CUSTOMER")) == []
  {
    UnknownRoleHasNothing("CUSTOMER", x);
    UnknownRoleHasNothing("ADMIN", x);
  }

  /** admin reaches all six routes, staff all but Users and Staff, customer
      only Orders. */
  lemma RouteTable()
    ensures forall x :: HasPermission(Some(AdminRole), Some(x)) <==>
                          x in {DashboardRoute, OrdersRoute, StoresRoute, UsersRoute, StaffRoute, WorkLogsRoute}
    ensures forall x :: HasPermission(Some(StaffRole), Some(x)) <==>
                          x in {DashboardRoute, OrdersRoute, StoresRoute, WorkLogsRoute}
    ensures forall x :: HasPermission(Some(CustomerRole), Some(x)) <==> x == OrdersRoute
  {
  }

  /** Every role's routes are admin routes. */
  lemma RoutesWithinAdmin(role: Option<string>)
    ensures forall x :: x in GetAccessibleRoutes(role) ==> x in GetAccessibleRoutes(Some(AdminRole))
  {
  }

  /** featurePermissions[role]: the feature list of a known role. */
  function FeaturePermissions(role: string): Option<seq<string>> {
    if role == AdminRole then Some(["create", "edit", "delete", "view", "export"])
    else if role == StaffRole then Some(["create", "edit", "delete", "view"])
    else if role == CustomerRole then Some(["create", "view"])
    else None
  }

  /** hasFeaturePermission: whether the role's feature list includes the
      feature; a missing role or feature is never included. */
  function HasFeaturePermission(role: Option<string>, feature: Option<string>): (b: bool)
    ensures b ==> role.Some? && feature.Some? && FeaturePermissions(role.value).Some?
                  && feature.value in FeaturePermissions(role.value).value
  {
    if role.None? || feature.None? then false
    else match FeaturePermissions(role.value)
      case None => false
      case Some(features) => feature.value in features
  }

  /** Only admin may export; staff may create, edit, delete and view;
      customer may exactly create and view. */
  lemma FeatureTable(role: Option<string>, f: string)
    ensures HasFeaturePermission(role, Some("export")) <==> role == Some(AdminRole)
    ensures HasFeaturePermission(Some(StaffRole), Some(f)) <==> f in {"create", "edit", "delete", "view"}
    ensures HasFeaturePermission(Some(CustomerRole), Some(f)) <==> f == "create" || f == "view"
  {
  }
}

=== FILE: point_handler.dfy ===
/** The MyBatis type handler between a "longitude,latitude" string and a
    MySQL POINT column (backend config/MySqlPointTypeHandler.java): the
    write side formats well-known text, the read side parses it back. The
    database round trip through ST_GeomFromText is not part of this model;
    the read side is given the column's text. */
module MySqlPointTypeHandler {
  import opened Common

  const DefaultGps := "0.0,0.0"
  const DefaultWkt := "POINT(0.0 0.0)"
  const WktPrefix := "POINT("
  const WktSuffix := ")"

  // ---------------------------------------------------------------------
  // String.split

  /** The fields between occurrences of `d`, empty fields included. */
  function Fields(s: string, d: char): (r: seq<string>)
    ensures |r| >= 1
    decreases |s|
  {
    if |s| == 0 then [""]
    else
      var rest := Fields(s[1..], d);
      if s[0] == d then [""] + rest else [[s[0]] + rest[0]] + rest[1..]
  }

  /** Joining fields with the delimiter. */
  function Join(parts: seq<string>, d: char): string
    requires |parts| >= 1
  {
    if |parts| == 1 then parts[0] else parts[0] + [d] + Join(parts[1..], d)
  }

  /** The fields join back to the string. */
  lemma {:induction false} FieldsJoin(s: string, d: char)
    ensures Join(Fields(s, d), d) == s
    decreases |s|
  {
    if |s| > 0 {
      FieldsJoin(s[1..], d);
      var rest := Fields(s[1..], d);
      var r := Fields(s, d);
      if s[0] == d {
        assert r[1..] == rest;
        assert s == [] + [d] + s[1..];
      } else if |rest| == 1 {
        assert s == [s[0]] + s[1..];
      } else {
        assert r[1..] == rest[1..];
        assert Join(rest, d) == rest[0] + [d] + Join(rest[1..], d);
        assert s == ([s[0]] + rest[0]) + [d] + Join(rest[1..], d);
      }
    }
  }

  /** No field holds the delimiter. */
  lemma {:induction false} FieldsFree(s: string, d: char)
    ensures forall k :: 0 <= k < |Fields(s, d)| ==> d !in Fields(s, d)[k]
    decreases |s|
  {
    if |s| > 0 {
      FieldsFree(s[1..], d);
      var rest := Fields(s[1..], d);
      var r := Fields(s, d);
      forall k | 0 <= k < |r| ensures d !in r[k] {
        if s[0] == d {
          if k > 0 {
            assert r[k] == rest[k - 1];
          }
        } else if k > 0 {
          assert r[k] == rest[k];
        } else {
          assert r[0] == [s[0]] + rest[0];
        }
      }
    }
  }

  lemma {:induction false} FieldsOfPlain(s: string, d: char)
    requires d !in s
    ensures Fields(s, d) == [s]
    decreases |s|
  {
    if |s| > 0 {
      FieldsOfPlain(s[1..], d);
      assert [s[0]] + s[1..] == s;
    }
  }

  lemma {:induction false} FieldsAppend(a: string, d: char, b: string)
    requires d !in a
    ensures Fields(a + [d] + b, d) == [a] + Fields(b, d)
    decreases |a|
  {
    var s := a + [d] + b;
    if |a| == 0 {
      assert s[1..] == b;
    } else {
      assert s[1..] == a[1..] + [d] + b;
      FieldsAppend(a[1..], d, b);
      assert [a[0]] + a[1..] == a;
    }
  }

  /** Trailing empty strings removed, as String.split does. */
  function DropTrailingEmpty(parts: seq<string>): (r: seq<string>)
    ensures |r| <= |parts| && r == parts[..|r|]
    ensures |r| > 0 ==> r[|r| - 1] != ""
    ensures forall i :: |r| <= i < |parts| ==> parts[i] == ""
  {
    if |parts| > 0 && parts[|parts| - 1] == "" then DropTrailingEmpty(parts[..|parts| - 1]) else parts
  }

  /** String.split with a one-character pattern: the fields, without the
      trailing empty ones; the empty string splits into itself. */
  function Split(s: string, d: char): (parts: seq<string>)
    ensures s != "" ==> parts == DropTrailingEmpty(Fields(s, d))
    ensures s == "" ==> parts == [""]
  {
    if s == "" then [""] else DropTrailingEmpty(Fields(s, d))
  }

  /** Splitting two delimiter-free parts at the one delimiter between them
      gives them back, provided the second is not empty. */
  lemma SplitPair(a: string, d: char, b: string)
    requires d !in a && d !in b && b != ""
    ensures Split(a + [d] + b, d) == [a, b]
  {
    FieldsAppend(a, d, b);
    FieldsOfPlain(b, d);
  }

  /** Java's split drops trailing empty fields only. */
  lemma SplitExamples()
    ensures Split(",", ',') == [] && Split("1,", ',') == ["1"] && Split(",1", ',') == ["", "1"]
  {
    assert Fields(",", ',') == ["", ""];
    assert Fields("1,", ',') == ["1", ""] by { FieldsAppend("1", ',', ""); }
    assert Fields(",1", ',') == ["", "1"] by { FieldsAppend("", ',', "1"); FieldsOfPlain("1", ','); }
  }

  /** Each comma separates two fields. */
  lemma SplitThree()
    ensures Split("1,2,3", ',') == ["1", "2", "3"]
  {
    assert "2,3" == "2" + [','] + "3";
    assert "1,2,3" == "1" + [','] + "2,3";
    FieldsOfPlain("3", ',');
    FieldsAppend("2", ',', "3");
    FieldsAppend("1", ',', "2,3");
  }

  // ---------------------------------------------------------------------
  // The two directions

  /** setNonNullParameter's text: "POINT(a b)" for a parameter that splits
      on commas into exactly two parts a and b, "POINT(0.0 0.0)" for any
      other. */
  function ToWkt(parameter: string): (wkt: string)
    ensures |Split(parameter, ',')| != 2 ==> wkt == DefaultWkt
    ensures |Split(parameter, ',')| == 2 ==>
              wkt == WktPrefix + Split(parameter, ',')[0] + " " + Split(parameter, ',')[1] + WktSuffix
  {
    var parts := Split(parameter, ',');
    var coords := if |parts| != 2 then ["0.0", "0.0"] else parts;
    WktPrefix + coords[0] + " " + coords[1] + WktSuffix
  }

  /** The coordinates text of a value "POINT(" + s + ")", trimmed. */
  function Coordinates(point: string): string
    requires StartsWith(point, WktPrefix) && EndsWith(point, WktSuffix)
  {
    assert point[5] == '(' && point[|point| - 1] == ')';
    Trim(point[|WktPrefix|..|point| - 1])
  }

  /** getNullableResult, the same in all three overloads: a null column is
      "0.0,0.0"; "POINT(" s ")" whose trimmed s splits on spaces into
      exactly two parts a, b is "a,b"; any other text is "0.0,0.0". */
  function ReadPoint(point: Option<string>): (gps: string)
    ensures point.None? ==> gps == DefaultGps
    ensures point.Some? && StartsWith(point.value, WktPrefix) && EndsWith(point.value, WktSuffix)
            && |Split(Coordinates(point.value), ' ')| == 2 ==>
              var parts := Split(Coordinates(point.value), ' ');
              gps == parts[0] + "," + parts[1]
    ensures point.Some? && !(StartsWith(point.value, WktPrefix) && EndsWith(point.value, WktSuffix)
                             && |Split(Coordinates(point.value), ' ')| == 2) ==>
              gps == DefaultGps
  {
    match point
    case None => DefaultGps
    case Some(p) =>
      if StartsWith(p, WktPrefix) && EndsWith(p, WktSuffix) then
        var parts := Split(Coordinates(p), ' ');
        if |parts| == 2 then parts[0] + "," + parts[1] else DefaultGps
      else DefaultGps
  }

  /** Reading a stored "POINT(" inner ")" parses the trimmed inner text. */
  lemma ReadOfWkt(inner: string)
    ensures var parts := Split(Trim(inner), ' ');
            ReadPoint(Some(WktPrefix + inner + WktSuffix)) == if |parts| == 2 then parts[0] + "," + parts[1] else DefaultGps
  {
    var wkt := WktPrefix + inner + WktSuffix;
    assert wkt[..|WktPrefix|] == WktPrefix;
    assert wkt[|wkt| - 1..] == WktSuffix;
    assert wkt[|WktPrefix|..|wkt| - 1] == inner;
  }

  /** A coordinate the round trip carries: non-empty, with no comma or
      space, and nothing trim removes at its outer end. */
  predicate RoundTrips(a: string, b: string) {
    a != "" && b != "" && ',' !in a && ',' !in b && ' ' !in a && ' ' !in b
    && !IsTrimmed(a[0]) && !IsTrimmed(b[|b| - 1])
  }

  /** Writing "a,b" and reading the stored text back gives "a,b". */
  lemma PointRoundTrip(a: string, b: string)
    requires RoundTrips(a, b)
    ensures ToWkt(a + "," + b) == WktPrefix + (a + " " + b) + WktSuffix
    ensures ReadPoint(Some(ToWkt(a + "," + b))) == a + "," + b
  {
    WritePair(a, b);
    ReadPair(a, b);
  }

  lemma WritePair(a: string, b: string)
    requires RoundTrips(a, b)
    ensures ToWkt(a + "," + b) == WktPrefix + (a + " " + b) + WktSuffix
  {
    assert a + "," + b == a + [','] + b;
    SplitPair(a, ',', b);
  }

  lemma ReadPair(a: string, b: string)
    requires RoundTrips(a, b)
    ensures ReadPoint(Some(WktPrefix + (a + " " + b) + WktSuffix)) == a + "," + b
  {
    var inner := a + " " + b;
    assert inner == a + [' '] + b;
    ReadOfWkt(inner);
    TrimNoOp(inner);
    SplitPair(a, ' ', b);
  }

  /** The read side trims, the write side does not: a coordinate starting
      with a tab does not survive the round trip. */
  lemma LeadingTabIsLost()
    ensures ReadPoint(Some(ToWkt("\t1,2"))) == "1,2"
  {
    TabWritten();
    TabRead();
  }

  lemma TabWritten()
    ensures ToWkt("\t1,2") == WktPrefix + "\t1 2" + WktSuffix
  {
    assert "\t1,2" == "\t1" + [','] + "2";
    SplitPair("\t1", ',', "2");
  }

  lemma TabRead()
    ensures ReadPoint(Some(WktPrefix + "\t1 2" + WktSuffix)) == "1,2"
  {
    ReadOfWkt("\t1 2");
    TabTrimmed();
    TabSplit();
  }

  lemma TabTrimmed()
    ensures Trim("\t1 2") == "1 2"
  {
    assert TrimStart("\t1 2") == "1 2";
  }

  lemma TabSplit()
    ensures Split("1 2", ' ') == ["1", "2"] && "1" + "," + "2" == "1,2"
  {
    assert "1 2" == "1" + [' '] + "2";
    SplitPair("1", ' ', "2");
  }

  /** The default written for a malformed parameter reads back as the
      default string. */
  lemma DefaultRoundTrip(parameter: string)
    requires |Split(parameter, ',')| != 2
    ensures ReadPoint(Some(ToWkt(parameter))) == DefaultGps
  {
    var zero := "0.0";
    assert zero[0] == '0' && zero[1] == '.' && zero[2] == '0';
    assert RoundTrips(zero, zero);
    PointRoundTrip(zero, zero);
    DefaultTexts();
  }

  lemma DefaultTexts()
    ensures WktPrefix + ("0.0" + " " + "0.0") + WktSuffix == DefaultWkt
    ensures "0.0" + "," + "0.0" == DefaultGps
  {
    var w := WktPrefix + ("0.0" + " " + "0.0") + WktSuffix;
    assert |w| == |DefaultWkt|;
    assert forall i :: 0 <= i < |w| ==> w[i] == DefaultWkt[i];
  }
}

=== FILE: router.dfy ===
/** The navigation guard of the front end's router
    (frontend/src/router/index.js): before each navigation it decides,
    from the target route, the stored token and the stored role, whether to
    proceed, to go to the login page, or to redirect to another named
    route. */
module Router {
  import opened Common
  import opened Permission

  const LoginPath := "/login"

  /** The named routes under the layout route "/home", whose record
      carries requiresAuth; Login and Register do not. */
  predicate RequiresAuth(name: string) {
    name in {"Home", DashboardRoute, OrdersRoute, StoresRoute, UsersRoute, StaffRoute, WorkLogsRoute}
  }

  /** The argument given to next(). */
  datatype Navigation = Proceed | ToLogin(redirect: string) | ToRoute(name: string)

  /** The guard as written: a denied navigation goes to Orders for the
      role 'user' and to Dashboard for every other role. */
  function GuardAsWritten(requiresAuth: bool, token: Option<string>, userRole: Option<string>,
                          toName: Option<string>, toFullPath: string): (nav: Navigation)
    ensures !requiresAuth ==> nav == Proceed
    ensures requiresAuth && !Truthy(token) ==> nav == ToLogin(toFullPath)
    ensures requiresAuth && Truthy(token) ==>
              (nav == Proceed <==> HasPermission(userRole, toName))
    ensures nav.ToRoute? ==> nav.name == (if userRole == Some("user") then OrdersRoute else DashboardRoute)
  {
    if requiresAuth then
      if !Truthy(token) then ToLogin(toFullPath)
      else if !HasPermission(userRole, toName) then
        ToRoute(if userRole == Some("user") then OrdersRoute else DashboardRoute)
      else Proceed
    else Proceed
  }

  /** A signed-in customer who opens a page it may not see is sent to
      Dashboard, which it may not see either: the guard redirects to
      Dashboard again on every following navigation and never settles. */
  lemma CustomerRedirectLoops(token: string, toName: string, toFullPath: string, dashboardPath: string)
    requires token != "" && RequiresAuth(toName) && toName != OrdersRoute
    ensures GuardAsWritten(true, Some(token), Some(CustomerRole), Some(toName), toFullPath) == ToRoute(DashboardRoute)
    ensures RequiresAuth(DashboardRoute)
    ensures GuardAsWritten(true, Some(token), Some(CustomerRole), Some(DashboardRoute), dashboardPath) == ToRoute(DashboardRoute)
  {
    RouteTable();
  }

  /** The landing route of a role: the first route it may access. */
  function Landing(userRole: Option<string>): string {
    if userRole == Some(CustomerRole) then OrdersRoute else DashboardRoute
  }

  /** The guard with the denied branch sending each role to a route it may
      access: Orders for customers, Dashboard for the others. */
  function Guard(requiresAuth: bool, token: Option<string>, userRole: Option<string>,
                 toName: Option<string>, toFullPath: string): (nav: Navigation)
    ensures !requiresAuth ==> nav == Proceed
    ensures requiresAuth && !Truthy(token) ==> nav == ToLogin(toFullPath)
    ensures requiresAuth && Truthy(token) ==>
              (nav == Proceed <==> HasPermission(userRole, toName))
    ensures nav.ToRoute? ==> nav.name == Landing(userRole)
  {
    if requiresAuth then
      if !Truthy(token) then ToLogin(toFullPath)
      else if !HasPermission(userRole, toName) then ToRoute(Landing(userRole))
      else Proceed
    else Proceed
  }

  /** For each role of the tables, a redirect lands on a route the role may
      access, so the guard lets the redirected navigation through. */
  lemma RedirectSettles(token: Option<string>, userRole: Option<string>, toName: Option<string>,
                        toFullPath: string, landingPath: string)
    requires userRole in {Some(AdminRole), Some(StaffRole), Some(CustomerRole)}
    requires Guard(true, token, userRole, toName, toFullPath).ToRoute?
    ensures HasPermission(userRole, Some(Landing(userRole)))
    ensures Guard(true, token, userRole, Some(Landing(userRole)), landingPath) == Proceed
  {
    RouteTable();
  }

  /** The corrected guard does not settle a self-registered account:
      registration stores the role "CUSTOMER", which the role tables do not
      know, so every protected route, Dashboard included, is denied and
      redirects to Dashboard again. */
  lemma RegisteredRoleStillLoops(token: string, toName: string, toFullPath: string, dashboardPath: string)
    requires token != "" && RequiresAuth(toName)
    ensures Guard(true, Some(token), Some("CUSTOMER"), Some(toName), toFullPath) == ToRoute(DashboardRoute)
    ensures Guard(true, Some(token), Some("CUSTOMER"), Some(DashboardRoute), dashboardPath) == ToRoute(DashboardRoute)
  {
    UpperCaseRolesHaveNothing(Some(toName));
    UpperCaseRolesHaveNothing(Some(DashboardRoute));
    assert Landing(Some("CUSTOMER")) == DashboardRoute by {
      assert "CUSTOMER"[0] != CustomerRole[0];
    }
  }

  /** The two guards agree wherever the written one does not redirect a
      customer. */
  lemma GuardsAgreeOutsideCustomerRedirect(requiresAuth: bool, token: Option<string>, userRole: Option<string>,
                                           toName: Option<string>, toFullPath: string)
    requires userRole != Some(CustomerRole) && userRole != Some("user")
    ensures Guard(requiresAuth, token, userRole, toName, toFullPath)
            == GuardAsWritten(requiresAuth, token, userRole, toName, toFullPath)
  {
  }
}

=== FILE: staff_service.dfy ===
/** The staff table (backend service/impl/StaffServiceImpl.java). The clock
    is the parameter `now`; an inserted row receives the fresh
    auto-increment id `id`. */
module StaffServiceImpl {
  import opened Common
  import opened Listing

  /** A staff record; status 1 is employed, 0 has left. */
  datatype Staff = Staff(
    staffId: int,
    name: Option<string>,
    phone: Option<string>,
    storeId: Option<int>,
    position: Option<string>,
    status: Option<int>,
    userId: Option<int>,
    createdAt: Option<int>,
    updatedAt: Option<int>)

  const ActiveStatus := 1
  const InactiveStatus := 0

  /** updateById with the default NOT_NULL strategy: the non-null columns of
      `given` overwrite the stored ones. */
  function MergeStaff(stored: Staff, given: Staff): (m: Staff)
    ensures m.staffId == stored.staffId
    ensures m.status == (if given.status.Some? then given.status else stored.status)
    ensures m.storeId == (if given.storeId.Some? then given.storeId else stored.storeId)
    ensures m.updatedAt == (if given.updatedAt.Some? then given.updatedAt else stored.updatedAt)
    ensures m.createdAt == (if given.createdAt.Some? then given.createdAt else stored.createdAt)
  {
    Staff(stored.staffId,
          if given.name.Some? then given.name else stored.name,
          if given.phone.Some? then given.phone else stored.phone,
          if given.storeId.Some? then given.storeId else stored.storeId,
          if given.position.Some? then given.position else stored.position,
          if given.status.Some? then given.status else stored.status,
          if given.userId.Some? then given.userId else stored.userId,
          if given.createdAt.Some? then given.createdAt else stored.createdAt,
          if given.updatedAt.Some? then given.updatedAt else stored.updatedAt)
  }

  /** A record with every column given replaces the stored one outright. */
  lemma MergeFullRecord(stored: Staff, given: Staff)
    requires given.staffId == stored.staffId
    requires given.name.Some? && given.phone.Some? && given.storeId.Some? && given.position.Some?
    requires given.status.Some? && given.userId.Some? && given.createdAt.Some? && given.updatedAt.Some?
    ensures MergeStaff(stored, given) == given
  {
  }

  function WithStatus(status: int): Staff -> bool {
    (s: Staff) => s.status == Some(status)
  }

  function StaffCreatedAt(s: Staff): Option<int> { s.createdAt }

  function AnyStaff(s: Staff): bool { true }

  /** The body of getStaffStats. */
  datatype StaffStats = StaffStats(totalStaffs: nat, activeStaffs: nat, inactiveStaffs: nat)

  /** getStaffStats: all records, those with status 1 and those with
      status 0. */
  function GetStaffStats(staffs: map<int, Staff>): (stats: StaffStats)
    ensures stats.totalStaffs == |staffs|
    ensures stats.activeStaffs == CountWhere(staffs, WithStatus(ActiveStatus))
    ensures stats.inactiveStaffs == CountWhere(staffs, WithStatus(InactiveStatus))
  {
    StaffStats(|staffs|, CountWhere(staffs, WithStatus(ActiveStatus)), CountWhere(staffs, WithStatus(InactiveStatus)))
  }

  /** Employed and departed staff never outnumber all staff; the gap is the
      records with a null or other status. */
  lemma StaffStatsWithinTotal(staffs: map<int, Staff>)
    ensures var stats := GetStaffStats(staffs);
            stats.activeStaffs + stats.inactiveStaffs <= stats.totalStaffs
    ensures (forall id :: id in staffs ==> staffs[id].status in {Some(0), Some(1)}) ==>
              var stats := GetStaffStats(staffs);
              stats.activeStaffs + stats.inactiveStaffs == stats.totalStaffs
  {
    var active := MatchingIds(staffs, WithStatus(ActiveStatus));
    var inactive := MatchingIds(staffs, WithStatus(InactiveStatus));
    assert active * inactive == {};
    SubsetSize(active + inactive, staffs.Keys);
    if forall id :: id in staffs ==> staffs[id].status in {Some(0), Some(1)} {
      forall id | id in staffs ensures id in active + inactive {
        if staffs[id].status == Some(1) {
          assert WithStatus(ActiveStatus)(staffs[id]);
        } else {
          assert WithStatus(InactiveStatus)(staffs[id]);
        }
      }
      assert active + inactive == staffs.Keys;
    }
  }

  /** The body of getAllStaffs; `current` is the page MyBatis-Plus reports
      (at least 1). */
  datatype StaffPage = StaffPage(staffs: seq<Staff>, total: nat, current: int, size: int)

  /** getAllStaffs: all records newest first, one page of them, and their
      number (0 for a negative size, which skips the count). */
  function GetAllStaffs(staffs: map<int, Staff>, page: int, size: int): (r: StaffPage)
    ensures size >= 0 ==> r.total == CountWhere(staffs, AnyStaff) && |r.staffs| <= size
    ensures size < 0 ==> r.total == 0 && |r.staffs| == CountWhere(staffs, AnyStaff)
    ensures r.size == size && r.current == (if page > 1 then page else 1)
  {
    var all := Select(staffs, AnyStaff, StaffCreatedAt);
    StaffPage(PageOf(all, page, size), PageTotal(staffs, AnyStaff, size), if page > 1 then page else 1, size)
  }

  /** Paged, the total of getAllStaffs is the number of records; unpaged,
      the total stays 0 and every record is listed. */
  lemma AllStaffsCounted(staffs: map<int, Staff>, page: int, size: int)
    ensures size >= 0 ==> GetAllStaffs(staffs, page, size).total == |staffs|
    ensures size < 0 ==> GetAllStaffs(staffs, page, size).total == 0 && |GetAllStaffs(staffs, page, size).staffs| == |staffs|
  {
    forall id | id in staffs ensures id in MatchingIds(staffs, AnyStaff) {
      assert AnyStaff(staffs[id]);
    }
    assert MatchingIds(staffs, AnyStaff) == staffs.Keys;
  }

  /** A page of getAllStaffs holds stored records only. */
  lemma GetAllStaffsSound(staffs: map<int, Staff>, page: int, size: int)
    ensures var r := GetAllStaffs(staffs, page, size).staffs;
            forall i :: 0 <= i < |r| ==> RowOf(staffs, r[i])
  {
    var all := Select(staffs, AnyStaff, StaffCreatedAt);
    var r := GetAllStaffs(staffs, page, size).staffs;
    assert r == PageOf(all, page, size);
    SelectSound(staffs, AnyStaff, StaffCreatedAt);
    forall i | 0 <= i < |r| ensures RowOf(staffs, r[i]) {
      if size >= 0 {
        assert r[i] == all[Offset(page, size) + i];
      }
    }
  }

  /** A page of getAllStaffs is ordered newest first. */
  lemma GetAllStaffsNewestFirst(staffs: map<int, Staff>, page: int, size: int)
    ensures var r := GetAllStaffs(staffs, page, size).staffs;
            forall a, b :: 0 <= a < b < |r| ==> NewerOrSame(r[a].createdAt, r[b].createdAt)
  {
    var all := Select(staffs, AnyStaff, StaffCreatedAt);
    assert GetAllStaffs(staffs, page, size).staffs == PageOf(all, page, size);
    SelectNewestFirst(staffs, AnyStaff, StaffCreatedAt);
    PageNewestFirst(all, page, size, StaffCreatedAt);
  }

  /** Unpaged, getAllStaffs holds every record. */
  lemma GetAllStaffsComplete(staffs: map<int, Staff>, page: int, size: int, id: int)
    requires size < 0 && id in staffs
    ensures staffs[id] in GetAllStaffs(staffs, page, size).staffs
  {
    assert AnyStaff(staffs[id]);
    SelectComplete(staffs, AnyStaff, StaffCreatedAt, id);
  }

  class StaffService {
    /** The staff table, keyed by staff id. */
    var staffs: map<int, Staff>

    ghost predicate Valid()
      reads this
    {
      forall id :: id in staffs ==> staffs[id].staffId == id
    }

    constructor ()
      ensures staffs == map[] && Valid()
    {
      staffs := map[];
    }

    /** createStaff: stored as employed, created now, whatever the input
        said. */
    method CreateStaff(staff: Staff, id: int, now: int) returns (created: Staff)
      requires Valid() && id !in staffs
      modifies this
      ensures Valid()
      ensures created == staff.(staffId := id, status := Some(ActiveStatus), createdAt := Some(now))
      ensures staffs == old(staffs)[id := created]
    {
      created := staff.(status := Some(ActiveStatus), createdAt := Some(now));
      created := created.(staffId := id);
      staffs := staffs[id := created];
    }

    /** updateStaff: the record with the same id receives the non-null
        columns and the new update time; the argument, stamped, is
        returned whether or not a row matched. */
    method UpdateStaff(staff: Staff, now: int) returns (updated: Staff)
      requires Valid()
      modifies this
      ensures Valid()
      ensures updated == staff.(updatedAt := Some(now))
      ensures staff.staffId in old(staffs) ==>
                staffs == old(staffs)[staff.staffId := MergeStaff(old(staffs)[staff.staffId], updated)]
                && staffs[staff.staffId].updatedAt == Some(now)
      ensures staff.staffId !in old(staffs) ==> staffs == old(staffs)
    {
      updated := staff.(updatedAt := Some(now));
      if updated.staffId in staffs {
        staffs := staffs[updated.staffId := MergeStaff(staffs[updated.staffId], updated)];
      }
    }

    /** getStaffDetail: selectById. */
    function GetStaffDetail(staffId: int): (r: Option<Staff>)
      reads this
      ensures r.Some? <==> staffId in staffs
      ensures r.Some? ==> r.value == staffs[staffId]
    {
      if staffId in staffs then Some(staffs[staffId]) else None
    }

    /** deleteStaff: false and nothing removed for an unknown id; otherwise
        the record is removed. */
    method DeleteStaff(staffId: int) returns (deleted: bool)
      requires Valid()
      modifies this
      ensures Valid()
      ensures deleted <==> staffId in old(staffs)
      ensures staffs == old(staffs) - {staffId}
      ensures !deleted ==> staffs == old(staffs)
    {
      var staff := GetStaffDetail(staffId);
      if staff.None? {
        return false;
      }
      staffs := staffs - {staffId};
      deleted := true;
    }
  }
}

=== FILE: status_log.dfy ===
/** The order status log: one append-only row per status change
    (backend service/impl/OrderStatusLogServiceImpl.java over
    entity/OrderStatusLog.java). The auto-increment logId is the row's
    position in the table. */
module OrderStatusLogServiceImpl {
  import opened Common

  datatype OrderStatusLog = OrderStatusLog(
    orderId: int,
    oldStatus: int,
    newStatus: int,
    storeId: Option<int>,
    operatorId: int,
    createdAt: int)

  class OrderStatusLogService {
    /** The order_status_log table, oldest row first. */
    var rows: seq<OrderStatusLog>

    constructor ()
      ensures rows == []
    {
      rows := [];
    }

    /** createStatusLog: builds a row from the arguments, stamps it with the
        current time, inserts it and returns it. Earlier rows stay as they
        were. */
    method CreateStatusLog(orderId: int, oldStatus: int, newStatus: int, operatorId: int,
                           storeId: Option<int>, now: int) returns (log: OrderStatusLog)
      modifies this
      ensures log.orderId == orderId && log.oldStatus == oldStatus && log.newStatus == newStatus
      ensures log.operatorId == operatorId && log.storeId == storeId && log.createdAt == now
      ensures rows == old(rows) + [log]
      ensures |rows| == |old(rows)| + 1 && rows[|rows| - 1] == log
      ensures forall i :: 0 <= i < |old(rows)| ==> rows[i] == old(rows)[i]
    {
      log := OrderStatusLog(orderId, oldStatus, newStatus, storeId, operatorId, now);
      rows := rows + [log];
    }
  }
}

=== FILE: store_service.dfy ===
/** The store table and its normalisation of GPS and address text (backend
    service/impl/StoreServiceImpl.java). The GPS column goes through the
    POINT type handler; an inserted row receives the fresh auto-increment
    id `id`. */
module StoreServiceImpl {
  import opened Common
  import opened Listing
  import opened StaffServiceImpl
  import opened MySqlPointTypeHandler

  const StaffReferenceMessage := "该门店下还有关联的员工，请先处理相关员工后再删除门店"

  /** A store record; the address is JSON text, the GPS location
      "longitude,latitude". */
  datatype Store = Store(
    storeId: int,
    name: Option<string>,
    address: Option<string>,
    gpsLocation: Option<string>,
    status: Option<int>,
    createdAt: Option<int>)

  // ---------------------------------------------------------------------
  // The pattern -?\d+(\.\d+)?,-?\d+(\.\d+)? (whole string)

  /** \d+(\.\d+)? */
  predicate IsUnsignedDecimal(t: string) {
    if '.' in t then
      var k := IndexOf(t, '.');
      0 < k && k + 1 < |t| && AllDigits(t[..k]) && AllDigits(t[k + 1..])
    else t != "" && AllDigits(t)
  }

  /** -?\d+(\.\d+)? */
  predicate IsDecimal(s: string) {
    if |s| > 0 && s[0] == '-' then IsUnsignedDecimal(s[1..]) else IsUnsignedDecimal(s)
  }

  /** The GPS pattern: two decimals separated by the one comma. */
  predicate IsGps(g: string) {
    ',' in g && var k := IndexOf(g, ','); IsDecimal(g[..k]) && IsDecimal(g[k + 1..])
  }

  /** A decimal is non-empty, made of digits, '-' and '.', and ends with a
      digit. */
  lemma DecimalShape(s: string)
    requires IsDecimal(s)
    ensures s != "" && IsDigit(s[|s| - 1])
    ensures forall i :: 0 <= i < |s| ==> IsDigit(s[i]) || s[i] == '-' || s[i] == '.'
  {
    var t := if |s| > 0 && s[0] == '-' then s[1..] else s;
    assert forall i :: 0 <= i < |t| ==> IsDigit(t[i]) || t[i] == '.' by {
      if '.' in t {
        var k := IndexOf(t, '.');
        forall i | 0 <= i < |t| ensures IsDigit(t[i]) || t[i] == '.' {
          if i < k {
            assert t[i] == t[..k][i];
          } else if i > k {
            assert t[i] == t[k + 1..][i - k - 1];
          }
        }
        assert t[|t| - 1] == t[k + 1..][|t| - k - 2];
      }
    }
    if |s| > 0 && s[0] == '-' {
      forall i | 0 <= i < |s| ensures IsDigit(s[i]) || s[i] == '-' || s[i] == '.' {
        if i > 0 {
          assert s[i] == t[i - 1];
        }
      }
    }
    if '.' in t {
      var k := IndexOf(t, '.');
      assert t[|t| - 1] == t[k + 1..][|t| - k - 2];
    }
  }

  /** A matching GPS string is two decimals around its comma. */
  lemma GpsParts(g: string)
    requires IsGps(g)
    ensures var k := IndexOf(g, ',');
            g == g[..k] + "," + g[k + 1..] && IsDecimal(g[..k]) && IsDecimal(g[k + 1..])
  {
    var k := IndexOf(g, ',');
    assert g == g[..k] + [','] + g[k + 1..];
  }

  /** The default "0.0,0.0" matches the pattern. */
  lemma DefaultIsGps()
    ensures IsGps(DefaultGps)
  {
    var g := DefaultGps;
    assert g[0] == '0' && g[1] == '.' && g[2] == '0' && g[3] == ',';
    assert IndexOf(g, ',') == 3;
    var zero := g[..3];
    assert zero == "0.0";
    assert IndexOf(zero, '.') == 1;
    assert zero[..1] == "0" && zero[2..] == "0";
    assert g[4..] == zero;
  }

  /** A signed decimal with a fraction matches. */
  lemma GpsAcceptsSignedFraction()
    ensures IsGps("-1.5,2")
  {
    var g := "-1.5,2";
    assert IndexOf(g, ',') == 4;
    assert g[..4] == "-1.5" && g[5..] == "2";
    assert "-1.5"[1..] == "1.5";
    assert IndexOf("1.5", '.') == 1;
    assert "1.5"[..1] == "1" && "1.5"[2..] == "5";
  }

  /** A space after the comma is refused. */
  lemma GpsRefusesSpace()
    ensures !IsGps("1, 2")
  {
    var h := "1, 2";
    assert IndexOf(h, ',') == 1;
    assert h[2..] == " 2";
    assert !IsDigit(" 2"[0]);
  }

  /** A dot without fraction digits is refused. */
  lemma GpsRefusesBareDot()
    ensures !IsGps("1.,2")
  {
    var i := "1.,2";
    assert IndexOf(i, ',') == 2;
    assert i[..2] == "1.";
    assert IndexOf("1.", '.') == 1;
  }

  // ---------------------------------------------------------------------
  // Normalisation

  /** createStore's GPS: a null, empty or non-matching location becomes
      "0.0,0.0"; a matching one is kept. */
  function NormaliseGps(gps: Option<string>): (r: string)
    ensures IsGps(r)
    ensures gps.Some? && IsGps(gps.value) ==> r == gps.value
    ensures !(gps.Some? && IsGps(gps.value)) ==> r == DefaultGps
  {
    DefaultIsGps();
    if gps.None? || gps.value == "" then DefaultGps
    else if !IsGps(gps.value) then DefaultGps
    else gps.value
  }

  /** Normalising a normalised location changes nothing. */
  lemma NormaliseGpsIdempotent(gps: Option<string>)
    ensures NormaliseGps(Some(NormaliseGps(gps))) == NormaliseGps(gps)
  {
  }

  /** updateStore's GPS: a null location keeps the stored one (or the
      default when that is null too); a given one is checked as on
      creation. */
  function UpdatedGps(given: Option<string>, existing: Option<string>): (r: string)
    ensures given.None? ==> r == existing.GetOr(DefaultGps)
    ensures given.Some? ==> r == NormaliseGps(given)
  {
    if given.None? then
      if existing.Some? then existing.value else DefaultGps
    else if !IsGps(given.value) then DefaultGps
    else given.value
  }

  /** A location that matched keeps matching through any update. */
  lemma UpdatedGpsMatches(given: Option<string>, existing: Option<string>)
    requires existing.Some? ==> IsGps(existing.value)
    ensures IsGps(UpdatedGps(given, existing))
  {
    DefaultIsGps();
  }

  const FullAddressKey := "{\"fullAddress\":\""
  const DetailAddressKey := "\",\"detailAddress\":\""
  const AddressEnd := "\"}"

  /** A non-null address that does not start with "{" becomes the JSON
      object with both fields set to it, unescaped; any other is kept. */
  function WrapAddress(address: Option<string>): (r: Option<string>)
    ensures r.None? <==> address.None?
    ensures r.Some? ==> StartsWith(r.value, "{")
    ensures address.Some? && StartsWith(address.value, "{") ==> r == address
    ensures address.Some? && !StartsWith(address.value, "{") ==>
              r.value == FullAddressKey + address.value + DetailAddressKey + address.value + AddressEnd
  {
    if address.Some? && !StartsWith(address.value, "{") then
      var wrapped := FullAddressKey + address.value + DetailAddressKey + address.value + AddressEnd;
      assert wrapped[..1] == FullAddressKey[..1];
      Some(wrapped)
    else address
  }

  /** Wrapping is idempotent: a wrapped address is left alone. */
  lemma WrapAddressIdempotent(address: Option<string>)
    ensures WrapAddress(WrapAddress(address)) == WrapAddress(address)
  {
  }

  /** Every location the pattern accepts survives the POINT type handler:
      written as well-known text and read back, it is unchanged. */
  lemma GpsRoundTrip(g: string)
    requires IsGps(g)
    ensures ReadPoint(Some(ToWkt(g))) == g
  {
    GpsParts(g);
    var k := IndexOf(g, ',');
    var a, b := g[..k], g[k + 1..];
    DecimalShape(a);
    DecimalShape(b);
    assert a[0] == '-' || IsDigit(a[0]);
    PointRoundTrip(a, b);
  }

  /** updateById with the default NOT_NULL strategy. */
  function MergeStore(stored: Store, given: Store): (m: Store)
    ensures m.storeId == stored.storeId
    ensures m.gpsLocation == (if given.gpsLocation.Some? then given.gpsLocation else stored.gpsLocation)
    ensures m.address == (if given.address.Some? then given.address else stored.address)
  {
    Store(stored.storeId,
          if given.name.Some? then given.name else stored.name,
          if given.address.Some? then given.address else stored.address,
          if given.gpsLocation.Some? then given.gpsLocation else stored.gpsLocation,
          if given.status.Some? then given.status else stored.status,
          if given.createdAt.Some? then given.createdAt else stored.createdAt)
  }

  function AtStore(storeId: int): Staff -> bool {
    (s: Staff) => s.storeId == Some(storeId)
  }

  /** A stored row: keyed by its id, with a location matching the GPS
      pattern. */
  ghost predicate StoredWell(id: int, s: Store) {
    s.storeId == id && s.gpsLocation.Some? && IsGps(s.gpsLocation.value)
  }

  /** A set of stores with pairwise different ids has as many members as
      ids. */
  lemma {:induction false} StoreIdsDistinct(r: set<Store>)
    ensures |set s | s in r :: s.storeId| <= |r|
    ensures (forall a, b :: a in r && b in r && a.storeId == b.storeId ==> a == b) ==>
              |set s | s in r :: s.storeId| == |r|
    decreases |r|
  {
    var ids := set s | s in r :: s.storeId;
    if r != {} {
      var x :| x in r;
      var rest := r - {x};
      StoreIdsDistinct(rest);
      var restIds := set s | s in rest :: s.storeId;
      assert ids == restIds + {x.storeId};
      if forall a, b :: a in r && b in r && a.storeId == b.storeId ==> a == b {
        assert x.storeId !in restIds;
      }
    } else {
      assert ids == {};
    }
  }

  class StoreService {
    /** The store table, keyed by store id. */
    var stores: map<int, Store>
    /** The staff table the delete guard consults. */
    const staffService: StaffService

    /** Rows are keyed by their ids and every stored location matches the
        GPS pattern. */
    ghost predicate Valid()
      reads this
    {
      forall id :: id in stores ==> StoredWell(id, stores[id])
    }

    constructor (staffService: StaffService)
      ensures stores == map[] && this.staffService == staffService && Valid()
    {
      stores := map[];
      this.staffService := staffService;
    }

    /** getAllStores: list(), every row of the table. */
    function GetAllStores(): (r: set<Store>)
      reads this
      ensures forall s :: s in r <==> exists id :: id in stores && stores[id] == s
    {
      set id | id in stores :: stores[id]
    }

    /** The rows are keyed by their ids, so the listing holds as many
        stores as the table has rows. */
    lemma AllStoresCounted()
      requires Valid()
      ensures |GetAllStores()| == |stores|
    {
      var r := GetAllStores();
      var ids := set s | s in r :: s.storeId;
      assert ids == stores.Keys by {
        forall id | id in stores ensures id in ids {
          assert StoredWell(id, stores[id]);
          assert stores[id] in r;
        }
        forall s | s in r ensures s.storeId in stores {
          var id :| id in stores && stores[id] == s;
          assert StoredWell(id, stores[id]);
        }
      }
      forall a, b | a in r && b in r && a.storeId == b.storeId ensures a == b {
        var i :| i in stores && stores[i] == a;
        var j :| j in stores && stores[j] == b;
        assert StoredWell(i, a) && StoredWell(j, b);
      }
      StoreIdsDistinct(r);
      assert |stores.Keys| == |stores|;
    }

    /** getStoreDetail: getById. */
    function GetStoreDetail(storeId: int): (r: Option<Store>)
      reads this
      ensures r.Some? <==> storeId in stores
      ensures r.Some? ==> r.value == stores[storeId]
    {
      if storeId in stores then Some(stores[storeId]) else None
    }

    /** Every stored location comes back unchanged through the type
        handler. */
    lemma StoredGpsRoundTrips(id: int)
      requires Valid() && id in stores
      ensures ReadPoint(Some(ToWkt(stores[id].gpsLocation.value))) == stores[id].gpsLocation.value
    {
      GpsRoundTrip(stores[id].gpsLocation.value);
    }

    /** createStore: the location normalised, the address wrapped, then
        saved. */
    method CreateStore(store: Store, id: int) returns (created: Store)
      requires Valid() && id !in stores
      modifies this
      ensures Valid()
      ensures created == store.(storeId := id, gpsLocation := Some(NormaliseGps(store.gpsLocation)),
                                address := WrapAddress(store.address))
      ensures stores == old(stores)[id := created]
    {
      created := store.(storeId := id, gpsLocation := Some(NormaliseGps(store.gpsLocation)),
                        address := WrapAddress(store.address));
      assert StoredWell(id, created);
      ghost var before := stores;
      stores := stores[id := created];
      assert forall k :: k in stores && k != id ==> stores[k] == before[k];
    }

    /** updateStore: null for an unknown id, with nothing changed;
        otherwise the location and address are normalised, the non-null
        columns written, and the stored row returned. */
    method UpdateStore(store: Store) returns (updated: Option<Store>)
      requires Valid()
      modifies this
      ensures Valid()
      ensures store.storeId !in old(stores) ==> updated.None? && stores == old(stores)
      ensures store.storeId in old(stores) ==>
                var existing := old(stores)[store.storeId];
                var fixed := store.(gpsLocation := Some(UpdatedGps(store.gpsLocation, existing.gpsLocation)),
                                    address := WrapAddress(store.address));
                stores == old(stores)[store.storeId := MergeStore(existing, fixed)]
                && updated == Some(stores[store.storeId])
    {
      if store.storeId !in stores {
        return None;
      }
      var existing := stores[store.storeId];
      var fixed := store.(gpsLocation := Some(UpdatedGps(store.gpsLocation, existing.gpsLocation)),
                          address := WrapAddress(store.address));
      assert StoredWell(store.storeId, existing);
      UpdatedGpsMatches(store.gpsLocation, existing.gpsLocation);
      assert StoredWell(store.storeId, MergeStore(existing, fixed));
      stores := stores[store.storeId := MergeStore(existing, fixed)];
      updated := Some(stores[store.storeId]);
    }

    /** deleteStore: refused while any staff record references the store;
        otherwise removeById, true iff a row was deleted. */
    method DeleteStore(storeId: int) returns (r: Result<bool, string>)
      requires Valid()
      modifies this
      ensures Valid()
      ensures CountWhere(staffService.staffs, AtStore(storeId)) > 0 ==>
                r == Err(StaffReferenceMessage) && stores == old(stores)
      ensures CountWhere(staffService.staffs, AtStore(storeId)) == 0 ==>
                r == Ok(storeId in old(stores)) && stores == old(stores) - {storeId}
    {
      var count := CountWhere(staffService.staffs, AtStore(storeId));
      if count > 0 {
        return Err(StaffReferenceMessage);
      }
      r := Ok(storeId in stores);
      stores := stores - {storeId};
    }
  }

  /** The delete guard counts exactly the staff rows whose store is this
      one: a store with such a row is kept. */
  lemma DeleteGuardSound(staffs: map<int, Staff>, storeId: int, staffId: int)
    requires staffId in staffs && staffs[staffId].storeId == Some(storeId)
    ensures CountWhere(staffs, AtStore(storeId)) > 0
  {
    assert staffId in MatchingIds(staffs, AtStore(storeId));
  }
}

=== FILE: user.dfy ===
/** The user record and its role/enabled predicates (backend
    entity/User.java). Role and status are nullable columns. */
module UserEntity {
  import opened Common

  datatype User = User(
    userId: int,
    username: string,
    password: string,          // already encoded
    phone: Option<string>,
    role: Option<string>,
    status: Option<int>,
    storeId: Option<int>,
    lastLogin: Option<int>,
    createdAt: Option<int>,
    updatedAt: Option<int>)

  const AdminRole := "admin"
  const StaffRole := "staff"
  const CustomerRole := "customer"

  /** isEnabled: status is non-null and equals 1. */
  predicate IsEnabled(u: User) { u.status == Some(1) }

  /** isAdmin / isStaff / isCustomer: exact, case-sensitive comparisons. */
  predicate IsAdmin(u: User) { u.role == Some(AdminRole) }
  predicate IsStaff(u: User) { u.role == Some(StaffRole) }
  predicate IsCustomer(u: User) { u.role == Some(CustomerRole) }

  /** At most one of the three role predicates holds. */
  lemma RolesExclusive(u: User)
    ensures !(IsAdmin(u) && IsStaff(u)) && !(IsAdmin(u) && IsCustomer(u)) && !(IsStaff(u) && IsCustomer(u))
  {
    assert AdminRole[0] != StaffRole[0] && AdminRole[0] != CustomerRole[0] && StaffRole[0] != CustomerRole[0];
  }

  /** Role names in any other case satisfy none of the predicates: a user
      stored with "ADMIN" is not an admin for isAdmin, and one registered
      with "CUSTOMER" is not a customer. */
  lemma RoleChecksAreCaseSensitive(u: User)
    requires u.role == Some("ADMIN") || u.role == Some("CUSTOMER") || u.role == Some("Staff")
    ensures !IsAdmin(u) && !IsStaff(u) && !IsCustomer(u)
  {
    var r := u.role.value;
    if r == "Staff" {
      assert r[0] != StaffRole[0];
    } else {
      assert r[0] != AdminRole[0] && r[0] != StaffRole[0] && r[0] != CustomerRole[0];
    }
  }
}

=== FILE: user_controller.dfy ===
/** The administrator's user management endpoints (backend
    controller/UserController.java). Every endpoint demands ROLE_ADMIN. The
    password encoder is the oracle `encode`; an inserted row receives the
    fresh auto-increment id `id`. */
module UserController {
  import opened Common
  import opened UserEntity
  import opened ApiResponse
  import opened Listing
  import opened UserServiceImpl
  import opened JwtAuthenticationFilter
  import opened OrderController
  import opened AuthController

  /** The body of the user list: the number of matching rows and one page
      of them. */
  datatype UserList = UserList(total: nat, list: seq<User>)

  predicate Given(s: Option<string>) { s.Some? && s.value != "" }

  /** The query of getUserList: `username LIKE '%v%'` for the given text v
      (its '%', '_' and '\\' keep their LIKE meaning) and exactly the given
      role, each only when given and non-empty. */
  function UserListFilter(username: Option<string>, role: Option<string>): User -> bool {
    (u: User) => (Given(username) ==> Like(u.username, LikeAnywhere(username.value))) && (Given(role) ==> u.role == role)
  }

  /** A filter text without LIKE's special characters keeps exactly the
      users whose name contains it. */
  lemma PlainUsernameFilter(username: string, role: Option<string>, u: User)
    requires username != "" && PlainText(username)
    ensures UserListFilter(Some(username), role)(u) <==>
              Contains(u.username, username) && (Given(role) ==> u.role == role)
  {
    LikeAnywherePlain(u.username, username);
  }

  /** The filter text "_" is a wildcard: it keeps every user with a
      non-empty name. */
  lemma UnderscoreUsernameFilter(u: User)
    ensures UserListFilter(Some("_"), None)(u) <==> u.username != ""
  {
    LikeAnywhereUnderscore(u.username);
  }

  /** GET /api/users: matching users newest first, paged, with their
      number (0 for a negative size, which skips the count). */
  function GetUserList(service: UserService, auth: Authentication, page: int, size: int,
                       username: Option<string>, role: Option<string>): (resp: Response<UserList>)
    reads service
    requires HasRole(auth, "ADMIN")
    ensures IsSuccess(resp) && resp.data.Some?
    ensures size >= 0 ==> resp.data.value.total == CountWhere(service.users, UserListFilter(username, role))
                          && |resp.data.value.list| <= size
    ensures size < 0 ==> resp.data.value.total == 0
                         && |resp.data.value.list| == CountWhere(service.users, UserListFilter(username, role))
  {
    var rows := service.Page(page, size, UserListFilter(username, role));
    Success(Some(UserList(rows.total, rows.rows)))
  }

  /** Every listed user is stored and passes both filters, and the list is
      newest first. */
  lemma GetUserListSound(service: UserService, auth: Authentication, page: int, size: int,
                         username: Option<string>, role: Option<string>)
    requires HasRole(auth, "ADMIN")
    ensures var list := GetUserList(service, auth, page, size, username, role).data.value.list;
            forall i :: 0 <= i < |list| ==>
              RowOf(service.users, list[i])
              && (Given(username) ==> Like(list[i].username, LikeAnywhere(username.value)))
              && (Given(role) ==> list[i].role == role)
    ensures var list := GetUserList(service, auth, page, size, username, role).data.value.list;
            forall a, b :: 0 <= a < b < |list| ==> NewerOrSame(list[a].createdAt, list[b].createdAt)
  {
    var keep := UserListFilter(username, role);
    var all := Select(service.users, keep, UserCreatedAt);
    var list := GetUserList(service, auth, page, size, username, role).data.value.list;
    assert list == PageOf(all, page, size);
    SelectSound(service.users, keep, UserCreatedAt);
    SelectNewestFirst(service.users, keep, UserCreatedAt);
    PageNewestFirst(all, page, size, UserCreatedAt);
    forall i | 0 <= i < |list|
      ensures RowOf(service.users, list[i]) && keep(list[i])
    {
      if size >= 0 {
        assert list[i] == all[Offset(page, size) + i];
      }
    }
  }

  /** Unpaged (a negative size), the list holds every matching user. */
  lemma GetUserListComplete(service: UserService, auth: Authentication, page: int, size: int,
                            username: Option<string>, role: Option<string>, id: int)
    requires HasRole(auth, "ADMIN") && size < 0
    requires id in service.users
    requires Given(username) ==> Like(service.users[id].username, LikeAnywhere(username.value))
    requires Given(role) ==> service.users[id].role == role
    ensures service.users[id] in GetUserList(service, auth, page, size, username, role).data.value.list
  {
    var keep := UserListFilter(username, role);
    assert keep(service.users[id]);
    SelectComplete(service.users, keep, UserCreatedAt, id);
  }

  const UserCreatedMessage := "用户创建成功"
  const InvalidStatusMessage := "状态值无效"
  const UserMissingMessage := "用户不存在"
  const StatusUpdatedMessage := "用户状态更新成功"
  const AdminUndeletableMessage := "不能删除管理员账号"
  const UserDeletedMessage := "用户删除成功"

  /** POST /api/users: a new user with the encoded password, enabled unless
      a status is given; the role is stored as given. */
  method CreateUser(service: UserService, auth: Authentication, user: User, encode: string -> string, id: int)
    returns (resp: Response<string>)
    requires HasRole(auth, "ADMIN")
    requires service.Valid() && id !in service.users
    modifies service
    ensures service.Valid() && service.captchas == old(service.captchas)
    ensures old(service.HasUsername(user.username)) ==>
              resp == ServerError(UsernameTakenMessage) && service.users == old(service.users)
    ensures !old(service.HasUsername(user.username)) ==>
              var saved := user.(userId := id, password := encode(user.password),
                                 status := if user.status.None? then Some(1) else user.status);
              resp == Success(Some(UserCreatedMessage)) && service.users == old(service.users)[id := saved]
  {
    if service.ExistsByUsername(user.username) {
      return ServerError(UsernameTakenMessage);
    }
    var encoded := user.(password := encode(user.password));
    if encoded.status.None? {
      encoded := encoded.(status := Some(1));
    }
    var _ := service.SaveUser(encoded, id);
    resp := Success(Some(UserCreatedMessage));
  }

  /** The "status" value of the request body, null when absent. */
  function StatusValue(statusMap: map<string, Option<int>>): Option<int> {
    if "status" in statusMap then statusMap["status"] else None
  }

  /** PUT /api/users/{userId}/status: only 0 and 1 are accepted; the row's
      status is set and nothing else changes. */
  method UpdateUserStatus(service: UserService, auth: Authentication, userId: int, statusMap: map<string, Option<int>>)
    returns (resp: Response<string>)
    requires HasRole(auth, "ADMIN")
    requires service.Valid()
    modifies service
    ensures service.Valid() && service.captchas == old(service.captchas)
    ensures var s := StatusValue(statusMap);
            && (s.None? || (s.value != 0 && s.value != 1) ==> resp == ServerError(InvalidStatusMessage))
            && (s.Some? && (s.value == 0 || s.value == 1) && userId !in old(service.users) ==>
                  resp == ServerError(UserMissingMessage))
            && (s.Some? && (s.value == 0 || s.value == 1) && userId in old(service.users) ==>
                  resp == Success(Some(StatusUpdatedMessage))
                  && service.users == old(service.users)[userId := old(service.users)[userId].(status := s)])
    ensures resp.code != SuccessCode ==> service.users == old(service.users)
  {
    var status := StatusValue(statusMap);
    if status.None? || (status.value != 0 && status.value != 1) {
      return ServerError(InvalidStatusMessage);
    }
    var user := service.GetById(userId);
    if user.None? {
      return ServerError(UserMissingMessage);
    }
    var updated := user.value.(status := status);
    MergeReadBack(user.value, status.value, 0);
    var _ := service.UpdateUser(updated);
    resp := Success(Some(StatusUpdatedMessage));
  }

  /** DELETE /api/users/{userId}: an administrator account ("admin", exact
      case) is never deleted. */
  method DeleteUser(service: UserService, auth: Authentication, userId: int) returns (resp: Response<string>)
    requires HasRole(auth, "ADMIN")
    requires service.Valid()
    modifies service
    ensures service.Valid() && service.captchas == old(service.captchas)
    ensures userId !in old(service.users) ==> resp == ServerError(UserMissingMessage)
    ensures userId in old(service.users) && IsAdmin(old(service.users)[userId]) ==> resp == ServerError(AdminUndeletableMessage)
    ensures userId in old(service.users) && !IsAdmin(old(service.users)[userId]) ==>
              resp == Success(Some(UserDeletedMessage)) && service.users == old(service.users) - {userId}
    ensures resp.code != SuccessCode ==> service.users == old(service.users)
  {
    var user := service.GetById(userId);
    if user.None? {
      return ServerError(UserMissingMessage);
    }
    if IsAdmin(user.value) {
      return ServerError(AdminUndeletableMessage);
    }
    var result := service.RemoveById(userId);
    // The row was read just before, so removeById affects it; the failure
    // message needs a concurrent delete.
    assert result;
    resp := Success(Some(UserDeletedMessage));
  }

  /** An administrator stored with the role in another case ("ADMIN") is
      not protected by the admin check. */
  lemma UpperCaseAdminIsDeletable(u: User)
    requires u.role == Some("ADMIN")
    ensures !IsAdmin(u)
  {
    RoleChecksAreCaseSensitive(u);
  }
}

=== FILE: user_details.dfy ===
/** Loading the security principal of a username (backend
    security/CustomUserDetailsService.java). */
module CustomUserDetailsService {
  import opened Common
  import opened UserEntity
  import opened UserServiceImpl
  import opened JwtAuthenticationFilter

  /** The principal handed to the authentication manager: every account
      flag is left at "enabled, not locked, not expired". */
  datatype UserDetails = UserDetails(username: string, password: string, authorities: seq<string>)

  /** Why loading fails: UsernameNotFoundException for an unknown or a
      disabled user; a null dereference when the role is null; the
      IllegalArgumentException of the principal constructor for an empty
      username. */
  datatype LoadFailure = NotFound(message: string) | Disabled(message: string) | NullRole | EmptyUsername

  /** The authority of a stored role: "ROLE_" and the role in upper case,
      with no check for an existing prefix. */
  function RoleAuthority(role: string): (authority: string)
    ensures StartsWith(authority, RolePrefix) && authority[|RolePrefix|..] == Upper(role)
  {
    RolePrefix + Upper(role)
  }

  /** loadUserByUsername on the user table. */
  function LoadUserByUsername(users: UserService, username: string): (r: Result<UserDetails, LoadFailure>)
    reads users
    requires users.Valid()
    ensures users.FindByUsername(username).None? ==> r == Err(NotFound("用户不存在: " + username))
    ensures users.FindByUsername(username).Some? && !IsEnabled(users.FindByUsername(username).value) ==>
              r == Err(Disabled("用户已被禁用: " + username))
    ensures r.Ok? <==> users.FindByUsername(username).Some? && IsEnabled(users.FindByUsername(username).value)
                       && users.FindByUsername(username).value.role.Some? && username != ""
    ensures r.Ok? ==> var u := users.FindByUsername(username).value;
                      r.value == UserDetails(u.username, u.password, [RoleAuthority(u.role.value)])
  {
    match users.FindByUsername(username)
    case None => Err(NotFound("用户不存在: " + username))
    case Some(u) =>
      if !IsEnabled(u) then Err(Disabled("用户已被禁用: " + username))
      else if u.role.None? then Err(NullRole)
      else if u.username == "" then Err(EmptyUsername)
      else Ok(UserDetails(u.username, u.password, [RoleAuthority(u.role.value)]))
  }

  /** Only enabled users can be loaded, so no disabled user passes
      authentication. */
  lemma LoadedUsersAreEnabled(users: UserService, username: string)
    requires users.Valid() && LoadUserByUsername(users, username).Ok?
    ensures users.FindByUsername(username).Some? && IsEnabled(users.FindByUsername(username).value)
  {
  }

  /** The two role normalisations agree on roles that do not already carry
      the prefix, but a stored role like "role_admin" becomes
      "ROLE_ROLE_ADMIN" here and "ROLE_ADMIN" in the token filter. */
  lemma AuthorityNormalisationsDiffer(role: string)
    ensures !StartsWith(Upper(role), RolePrefix) ==> RoleAuthority(role) == RoleWithPrefix(role)
    ensures StartsWith(Upper(role), RolePrefix) ==> RoleAuthority(role) != RoleWithPrefix(role)
  {
    if StartsWith(Upper(role), RolePrefix) {
      assert |RoleAuthority(role)| == |RolePrefix| + |Upper(role)| != |Upper(role)|;
    }
  }

  /** For the stored role names the two normalisations give the same
      authority. */
  lemma StoredRolesAgree()
    ensures RoleAuthority("admin") == RoleWithPrefix("admin") == "ROLE_ADMIN"
    ensures RoleAuthority("CUSTOMER") == RoleWithPrefix("CUSTOMER") == "ROLE_CUSTOMER"
  {
    UpperAdmin();
    UpperCustomer();
    PrefixedTexts();
  }

  lemma UpperAdmin()
    ensures Upper("admin") == "ADMIN" && !StartsWith(Upper("admin"), RolePrefix)
  {
    var up := Upper("admin");
    assert forall i :: 0 <= i < 5 ==> up[i] == UpperChar("admin"[i]);
    assert up[0] != RolePrefix[0];
  }

  lemma UpperCustomer()
    ensures Upper("CUSTOMER") == "CUSTOMER" && !StartsWith(Upper("CUSTOMER"), RolePrefix)
  {
    var up := Upper("CUSTOMER");
    assert forall i :: 0 <= i < 8 ==> up[i] == UpperChar("CUSTOMER"[i]);
    assert up[1] != RolePrefix[1];
  }

  lemma PrefixedTexts()
    ensures RolePrefix + "ADMIN" == "ROLE_ADMIN" && RolePrefix + "CUSTOMER" == "ROLE_CUSTOMER"
  {
    var a, c := RolePrefix + "ADMIN", RolePrefix + "CUSTOMER";
    assert forall i :: 0 <= i < |a| ==> a[i] == "ROLE_ADMIN"[i];
    assert forall i :: 0 <= i < |c| ==> c[i] == "ROLE_CUSTOMER"[i];
  }
}

=== FILE: user_service.dfy ===
/** The user table and the captcha store (backend
    service/impl/UserServiceImpl.java). The captcha store is the Redis
    key/value store without its expiry; the random code generator takes its
    draws as a parameter, and the key generator (a UUID) is the caller's
    argument. */
module UserServiceImpl {
  import opened Common
  import opened UserEntity
  import opened Listing

  const CaptchaPrefix := "captcha:"
  const CaptchaChars := "ABCDEFGHIJKLMNOPQRSTUVWXYZ0123456789"
  const CaptchaLength := 4

  /** One draw of random.nextInt(36). */
  type CharIndex = i: int | 0 <= i < 36

  /** The Redis key of a captcha. */
  function CaptchaKey(key: string): (k: string)
    ensures StartsWith(k, CaptchaPrefix) && k[|CaptchaPrefix|..] == key
  {
    CaptchaPrefix + key
  }

  lemma CaptchaKeyInjective(a: string, b: string)
    requires CaptchaKey(a) == CaptchaKey(b)
    ensures a == b
  {
    assert a == CaptchaKey(a)[|CaptchaPrefix|..];
  }

  predicate IsCaptchaChar(c: char) { c in CaptchaChars }

  /** No two stored users share a username. */
  predicate UniqueUsernames(users: map<int, User>) {
    forall a, b :: a in users && b in users && users[a].username == users[b].username ==> a == b
  }

  /** Each row is stored under its own id. */
  predicate WellKeyed(users: map<int, User>) {
    forall id :: id in users ==> users[id].userId == id
  }

  /** updateById with the default NOT_NULL strategy: the columns of `given`
      that are non-null overwrite the stored ones, the others are kept.
      Username and password are never null here. */
  function MergeUser(stored: User, given: User): (m: User)
    ensures m.userId == stored.userId
    ensures m.username == given.username && m.password == given.password
    ensures m.status == (if given.status.Some? then given.status else stored.status)
    ensures m.role == (if given.role.Some? then given.role else stored.role)
    ensures m.lastLogin == (if given.lastLogin.Some? then given.lastLogin else stored.lastLogin)
  {
    User(stored.userId, given.username, given.password,
         if given.phone.Some? then given.phone else stored.phone,
         if given.role.Some? then given.role else stored.role,
         if given.status.Some? then given.status else stored.status,
         if given.storeId.Some? then given.storeId else stored.storeId,
         if given.lastLogin.Some? then given.lastLogin else stored.lastLogin,
         if given.createdAt.Some? then given.createdAt else stored.createdAt,
         if given.updatedAt.Some? then given.updatedAt else stored.updatedAt)
  }

  /** Writing back a row read from the table, with one column set, changes
      that column and nothing else. */
  lemma MergeReadBack(stored: User, status: int, lastLogin: int)
    ensures MergeUser(stored, stored.(status := Some(status))) == stored.(status := Some(status))
    ensures MergeUser(stored, stored.(lastLogin := Some(lastLogin))) == stored.(lastLogin := Some(lastLogin))
    ensures MergeUser(stored, stored) == stored
  {
  }

  /** The code validateCaptcha accepts: both arguments non-null, an entry
      under the prefixed key, equal to the code ignoring ASCII case. */
  predicate CaptchaAccepts(store: map<string, string>, key: Option<string>, code: Option<string>) {
    key.Some? && code.Some? && CaptchaKey(key.value) in store
    && EqualsIgnoreCase(store[CaptchaKey(key.value)], code.value)
  }

  /** The store after validateCaptcha: the entry is deleted on success only. */
  function AfterValidate(store: map<string, string>, key: Option<string>, code: Option<string>): (s: map<string, string>)
    ensures CaptchaAccepts(store, key, code) ==> s.Keys == store.Keys - {CaptchaKey(key.value)}
    ensures !CaptchaAccepts(store, key, code) ==> s == store
    ensures forall k :: k in s ==> k in store && s[k] == store[k]
  {
    if CaptchaAccepts(store, key, code) then store - {CaptchaKey(key.value)} else store
  }

  /** A captcha is single use: once accepted, the same key is refused for
      every code. */
  lemma CaptchaSingleUse(store: map<string, string>, key: Option<string>, code: Option<string>, again: Option<string>)
    requires CaptchaAccepts(store, key, code)
    ensures !CaptchaAccepts(AfterValidate(store, key, code), key, again)
  {
  }

  /** Validation of one key never disturbs the captcha of another key. */
  lemma CaptchaKeysIndependent(store: map<string, string>, key: Option<string>, code: Option<string>,
                               other: Option<string>, otherCode: Option<string>)
    requires other.Some? && key.Some? ==> other.value != key.value
    ensures CaptchaAccepts(AfterValidate(store, key, code), other, otherCode) == CaptchaAccepts(store, other, otherCode)
  {
    if other.Some? && key.Some? && CaptchaKey(other.value) == CaptchaKey(key.value) {
      CaptchaKeyInjective(other.value, key.value);
    }
  }

  /** generateRandomCode: `length` characters, the i-th one picked by the
      i-th draw from the 36 capital letters and digits. */
  method GenerateRandomCode(length: int, draws: seq<CharIndex>) returns (code: string)
    requires length <= |draws|
    ensures |code| == (if length < 0 then 0 else length)
    ensures forall i :: 0 <= i < |code| ==> code[i] == CaptchaChars[draws[i]] && IsCaptchaChar(code[i])
  {
    code := "";
    var i := 0;
    while i < length
      invariant 0 <= i && (length < 0 ==> i == 0) && (length >= 0 ==> i <= length)
      invariant |code| == i
      invariant forall j :: 0 <= j < i ==> code[j] == CaptchaChars[draws[j]]
    {
      code := code + [CaptchaChars[draws[i]]];
      i := i + 1;
    }
  }

  class UserService {
    /** The user table, keyed by the auto-increment user id. */
    var users: map<int, User>
    /** The captcha entries of the key/value store. */
    var captchas: map<string, string>

    ghost predicate Valid()
      reads this
    {
      UniqueUsernames(users) && WellKeyed(users)
    }

    constructor ()
      ensures users == map[] && captchas == map[] && Valid()
    {
      users := map[];
      captchas := map[];
    }

    predicate HasUsername(username: string)
      reads this
    {
      exists id :: id in users && users[id].username == username
    }

    /** findByUsername: the row with that username, or null. */
    function FindByUsername(username: string): (r: Option<User>)
      reads this
      requires Valid()
      ensures r.Some? <==> HasUsername(username)
      ensures r.Some? ==> r.value.userId in users && users[r.value.userId] == r.value && r.value.username == username
    {
      if HasUsername(username) then
        var id :| id in users && users[id].username == username;
        Some(users[id])
      else None
    }

    /** existsByUsername: a COUNT of the rows with that username is
        positive. */
    function ExistsByUsername(username: string): (b: bool)
      reads this
      ensures b <==> HasUsername(username)
    {
      var ids := set id | id in users && users[id].username == username;
      if |ids| > 0 then
        NonEmptyHasElement(ids);
        true
      else
        assert forall id :: id in users && users[id].username == username ==> id in ids;
        false
    }

    /** The two lookups agree. */
    lemma ExistsIffFound(username: string)
      requires Valid()
      ensures ExistsByUsername(username) <==> FindByUsername(username).Some?
    {
    }

    /** getById: selectById. */
    function GetById(id: int): (r: Option<User>)
      reads this
      ensures r.Some? <==> id in users
      ensures r.Some? ==> r.value == users[id]
    {
      if id in users then Some(users[id]) else None
    }

    /** saveUser: inserts the row under the fresh auto-increment id. The
        callers check existsByUsername first. */
    method SaveUser(user: User, id: int) returns (saved: User)
      requires Valid()
      requires id !in users && !HasUsername(user.username)
      modifies this
      ensures Valid()
      ensures saved == user.(userId := id)
      ensures users == old(users)[id := saved] && captchas == old(captchas)
    {
      saved := user.(userId := id);
      users := users[id := saved];
    }

    /** updateUser: updateById; the row with the same id receives the
        non-null columns of `user`. Returns whether a row was affected. */
    method UpdateUser(user: User) returns (affected: bool)
      requires Valid()
      requires forall id :: id in users && id != user.userId ==> users[id].username != user.username
      modifies this
      ensures Valid()
      ensures affected <==> user.userId in old(users)
      ensures users == (if affected then old(users)[user.userId := MergeUser(old(users)[user.userId], user)] else old(users))
      ensures captchas == old(captchas)
    {
      affected := user.userId in users;
      if affected {
        users := users[user.userId := MergeUser(users[user.userId], user)];
      }
    }

    /** removeById: true iff a row was deleted. */
    method RemoveById(id: int) returns (removed: bool)
      requires Valid()
      modifies this
      ensures Valid()
      ensures removed <==> id in old(users)
      ensures users == old(users) - {id} && captchas == old(captchas)
    {
      removed := id in users;
      users := users - {id};
    }

    /** page: the rows a filter keeps, newest first, one page of them, and
        their number. */
    function Page(page: int, size: int, keep: User -> bool): (r: UserPage)
      reads this
      ensures size >= 0 ==> r.total == CountWhere(users, keep) && |r.rows| <= size
      ensures size < 0 ==> r.total == 0 && |r.rows| == CountWhere(users, keep)
    {
      UserPage(PageTotal(users, keep, size), PageOf(Select(users, keep, UserCreatedAt), page, size))
    }

    /** validateCaptcha: true iff the stored code matches; a matching entry
        is deleted, and a failed attempt changes nothing. */
    method ValidateCaptcha(captchaKey: Option<string>, captchaCode: Option<string>) returns (ok: bool)
      modifies this
      ensures ok == CaptchaAccepts(old(captchas), captchaKey, captchaCode)
      ensures captchas == AfterValidate(old(captchas), captchaKey, captchaCode)
      ensures users == old(users)
    {
      if captchaKey.None? || captchaCode.None? {
        return false;
      }
      var k := CaptchaKey(captchaKey.value);
      if k in captchas && EqualsIgnoreCase(captchas[k], captchaCode.value) {
        captchas := captchas - {k};
        return true;
      }
      return false;
    }

    /** generateCaptcha: a 4-character code stored under the prefixed fresh
        key, which is returned. */
    method GenerateCaptcha(uuid: string, draws: seq<CharIndex>) returns (captchaKey: string, code: string)
      requires CaptchaLength <= |draws|
      modifies this
      ensures captchaKey == uuid
      ensures |code| == CaptchaLength && forall i :: 0 <= i < |code| ==> IsCaptchaChar(code[i])
      ensures captchas == old(captchas)[CaptchaKey(uuid) := code]
      ensures users == old(users)
    {
      code := GenerateRandomCode(CaptchaLength, draws);
      captchas := captchas[CaptchaKey(uuid) := code];
      captchaKey := uuid;
    }
  }

  /** One page of users and the number of all matching rows. */
  datatype UserPage = UserPage(total: nat, rows: seq<User>)

  function UserCreatedAt(u: User): Option<int> { u.createdAt }

  /** A freshly generated captcha is accepted with its own code, typed in
      either case. */
  lemma FreshCaptchaAccepted(store: map<string, string>, uuid: string, code: string, typed: string)
    requires EqualsIgnoreCase(code, typed)
    ensures CaptchaAccepts(store[CaptchaKey(uuid) := code], Some(uuid), Some(typed))
  {
  }
}
